=== FILE: README.md ===
# A verified model of the blog's markdown renderer and post rules

This project models the core of a small React blog that stores posts as
markdown files in a GitHub repository:

- `parseMarkdown` (src/utils/markdownParser.js), the hand-written renderer. It
  protects fenced code blocks and inline code spans behind numbered
  placeholders, converts pipe tables, runs the block and inline regular
  expression substitutions in order, wraps and cleans up paragraphs, and
  resolves the placeholders back to escaped code.
- The table-of-contents extraction of src/components/PostView.jsx. Every
  `h1`-`h3` gets a slug id, made unique with a per-slug counter.
- The pure rules around posts:
  - the directory listing, title, preview and date of src/App.jsx;
  - deduplication by sha or path, sorting by date, merging an edited post,
    and the admin guard on navigation;
  - the editor's title/body split, save checks, saved text, path, sha and
    preview (src/components/PostEdit.jsx);
  - the new-post checks, file-name slug, file name and text
    (src/components/PostWrite.jsx);
  - pagination (src/components/PostList.jsx);
  - the day keys, plan book and month-tile dot of
    src/components/PlanningCalendar.jsx.

## How it is modelled

Every global `replace(/re/g, ...)` of the renderer is a `Passes.Rule`.

- `Passes.MatchAt` decides what the expression matches at one index. The
  expressions used have no backtracking choices: a greedy run always stops at
  a character the run excludes. So `MatchAt` is a function.
- `Passes.ReplaceFrom` is JavaScript's global scan. On a match it emits the
  replacement and resumes after the match. Otherwise it copies one character
  and moves on.
- `^` and `.` follow the `m` flag. `\s` is JavaScript's white-space set.

A placeholder whose number has no entry in its table makes the source
destructure `undefined` and throw. `Markdown.Render` returns `None` there.
Strings are sequences of Unicode scalar values.

Four modules hold the renderer's whole-input facts:

- `RenderSafety` proves that rendering markdown without `_` never fails. Every
  placeholder the renderer meets was written by it and indexes its table.
- `PlainText` follows text without markup through every stage, including the
  paragraph clean-up.
- `Collisions` exhibits two inputs on which the placeholders collide with the
  user's text. Both are listed under "## Findings".
- `InlineFirst` is a corrected renderer that resolves inline placeholders
  before block placeholders. On markdown without `_` it succeeds, and no
  placeholder text reaches its output. It also renders the forged
  placeholder that `Collisions` exhibits. The reordering has a price: a code
  span holding the text of a block placeholder, which the source renders as
  code, makes the corrected renderer fail
  (`InlineFirst.PlaceholderSpanRegresses`).

A post is a `Posts.Post` record. Any field the source may leave `undefined`
holds the empty string instead; every check in the source treats the two
alike.

## Model

| member | source | states |
|---|---|---|
| Markdown.FindFence | src/utils/markdownParser.js:7 | the lazy `[\s\S]*?` stops at the first closing fence after the opening line, and no fence occurs before it |
| Markdown.ProtectFencesFrom | src/utils/markdownParser.js:6-10 | every captured block has a word-character language tag and code with no white space at either end |
| ProtectFacts.FenceCaptured | src/utils/markdownParser.js:6-10 | a well-formed fence is replaced by the next block placeholder and recorded as its tag and trimmed body; the placeholder has no backtick left for the inline stage |
| ProtectFacts.FenceAtShape | src/utils/markdownParser.js:7 | an opening fence, a tag, a newline, a body and a closing fence form one match that ends right after the closing fence |
| ProtectFacts.FindClosingFence | src/utils/markdownParser.js:7 | the body read lazily is exactly the text up to the first closing fence |
| ProtectFacts.NoFenceUnchanged | src/utils/markdownParser.js:6-10 | text without a fence passes the first stage unchanged and captures nothing |
| Markdown.ProtectInlineFrom | src/utils/markdownParser.js:12-16 | every captured code span is non-empty and free of backticks |
| ProtectFacts.CodeSpanCaptured | src/utils/markdownParser.js:12-16 | a backtick span is replaced by the next inline placeholder and its code is recorded |
| ProtectFacts.NoBacktickUnchanged | src/utils/markdownParser.js:12-16 | text without a backtick passes the second stage unchanged |
| ProtectFacts.MarkerReadBack | src/utils/markdownParser.js:104 | reading a placeholder back yields the number written into it and the index after it |
| ProtectFacts.BlockPlaceholderResolves | src/utils/markdownParser.js:103-113 | a block placeholder becomes its block's HTML when the number has a block, and makes rendering fail when it has none |
| ProtectFacts.InlinePlaceholderResolves | src/utils/markdownParser.js:114-123 | an inline placeholder becomes its code's HTML when the number has a code, and makes rendering fail when it has none |
| Markdown.Render | src/utils/markdownParser.js:3-125 | no contract of its own: `RenderSafety.RenderSucceeds` states when rendering succeeds, and the `Collisions` lemmas show two inputs where it fails or leaks |
| Markdown.Prepare | src/utils/markdownParser.js:3-102 | no contract of its own: `RenderSafety.PreparedClean` states that on text without `_` every placeholder of the prepared text indexes its table |
| Markdown.ConvertTables | src/utils/markdownParser.js:17-66 | no contract of its own: `TableFacts.TableConsumesRun`, `TableFacts.NoTableUnchanged` and `TableFacts.NoPipeUnchanged` state what the table stage does |
| Markdown.TableHtml | src/utils/markdownParser.js:35-58 | no contract of its own: `TableFacts.TableConsumesRun` states that a table's run becomes this HTML |
| Markdown.Paragraphs | src/utils/markdownParser.js:87-101 | no contract of its own: `PlainText.PlainParagraph` and `InlineFacts.EmptyParagraphs` state what the wrap and clean-up give |
| Markdown.Escape | src/utils/markdownParser.js:105-110 | no contract of its own: `EscapeFacts.EscapeIsRef` and `EscapeFacts.EscapeRoundTrip` state what escaping does |
| Markdown.ResolveBlocksFrom | src/utils/markdownParser.js:103-113 | no contract of its own: `ProtectFacts.BlockPlaceholderResolves` states one step of the resolution |
| Markdown.ResolveInlineFrom | src/utils/markdownParser.js:114-123 | no contract of its own: `ProtectFacts.InlinePlaceholderResolves` states one step of the resolution |
| RenderSafety.PreparedClean | src/utils/markdownParser.js:6-102 | on markdown without `_`, every placeholder in the prepared text indexes its table, and no captured block holds `_` |
| RenderSafety.RenderSucceeds | src/utils/markdownParser.js:3-125 | rendering markdown that contains no `_` never fails: no placeholder is forged and none is spliced together by the clean-up |
| PlainText.PlainParagraph | src/utils/markdownParser.js:87-101 | non-empty text without a tag comes out of the paragraph stage as exactly one paragraph around it |
| PlainText.WordTextSubstituted | src/utils/markdownParser.js:67-86 | a run of word characters not starting with a digit is left alone by all sixteen substitutions |
| Collisions.ForgedFails | src/utils/markdownParser.js:6-16 | an inline code span followed by `CODEBLOCK_j___` becomes a block placeholder `j` with no block behind it, so rendering fails, whatever the span holds and whatever `j` is |
| Collisions.ForgedMarkerFails | src/utils/markdownParser.js:103-104 | the text `` `a`CODEBLOCK_0___ `` makes rendering fail |
| Collisions.FenceInSpanLeaks | src/utils/markdownParser.js:6-16 | a fence inside an inline code span is replaced first; the span then captures its placeholder, which reaches the output as text while the block is never emitted |
| Collisions.FenceInCodeSpanLeaks | src/utils/markdownParser.js:114-123 | the text `` `a ```\nb``` c` `` renders as `<p><code>a ___CODEBLOCK_0___ c</code></p>` |
| InlineFirst.InlineFirstResolvesAll | src/utils/markdownParser.js:103-123 | corrected order: with inline placeholders resolved before block placeholders, markdown without `_` always renders and no block or inline placeholder text is left in the output, even for a fence inside a code span |
| InlineFirst.ForgedRenders | src/utils/markdownParser.js:103-123 | corrected order: a code span without `_` or escaped characters, followed by `CODEBLOCK_j___`, renders as the span's code followed by those letters as text, for every `j`; the closing underscores of the span's placeholder are not read as the start of a block placeholder |
| InlineFirst.ForgedMarkerRenders | src/utils/markdownParser.js:103-123 | corrected order: `` `a`CODEBLOCK_0___ `` renders as `<p><code>a</code>CODEBLOCK_0___</p>` |
| InlineFirst.PlaceholderSpanRegresses | src/utils/markdownParser.js:103-123 | a code span holding the text of block placeholder `j` renders in the source order as that text inside `<code>`, and fails in the corrected order, for every `j` |
| InlineFirst.PlaceholderSpanInstance | src/utils/markdownParser.js:103-123 | `` `___CODEBLOCK_0___` `` renders as `<p><code>___CODEBLOCK_0___</code></p>` in the source order and fails in the corrected order |
| Markdown.Cells | src/utils/markdownParser.js:36-39 | every cell of a split row is non-empty, trimmed and free of pipes |
| Markdown.BodyRows | src/utils/markdownParser.js:44-56 | only lines with at least one cell become rows, at most one row per line |
| Markdown.PipeRunEnd | src/utils/markdownParser.js:30-33 | the table's run is the maximal run of lines with a pipe |
| TableFacts.TableConsumesRun | src/utils/markdownParser.js:22-66 | a table takes its header, its separator and every following pipe line; it becomes one HTML table, and the scan resumes at a line that starts no table |
| TableFacts.NoTableUnchanged | src/utils/markdownParser.js:22-63 | lines that start no table are copied one by one |
| TableFacts.NoPipeUnchanged | src/utils/markdownParser.js:17-66 | a text without a pipe passes the table stage unchanged |
| TableFacts.SeparatorIgnored | src/utils/markdownParser.js:36-56 | the separator line is never read: replacing it does not change the table |
| TableFacts.BodyRowsAppend | src/utils/markdownParser.js:44-56 | body rows are read line by line, independently |
| TableFacts.BodyRowOfLine | src/utils/markdownParser.js:44-56 | a body line gives a row exactly when it has a cell |
| TableFacts.CellsOfRow | src/utils/markdownParser.js:36-39 | round trip: a row written from clean cells as `\| a \| b \|` reads back as exactly those cells |
| Passes.MatchAt | src/utils/markdownParser.js:68-101 | a match at an index ends after it and within the text; what each expression matches is pinned down by the `LineFacts` and `InlineFacts` lemmas |
| Passes.ReplaceNoMatch | src/utils/markdownParser.js:68-101 | a global replace whose expression matches nowhere leaves the text unchanged |
| Passes.ReplaceSkip | src/utils/markdownParser.js:68-101 | a stretch where the expression never matches is copied verbatim |
| Passes.ApplyAllAppend | src/utils/markdownParser.js:68-101 | a chain of replaces is the composition of its parts |
| Passes.ReplaceCut | src/utils/markdownParser.js:68-101 | when two texts match alike on a prefix, the scans agree on that prefix |
| Passes.ReplaceShift | src/utils/markdownParser.js:68-101 | a scan of a suffix that matches as it does inside the whole text continues the scan of the whole text |
| LineFacts.SplitAtTerminator | src/utils/markdownParser.js:68-74 | heading, rule and quote replaces are local to lines: across a line break the replace splits into the replaces of the two sides |
| LineFacts.OneLine | src/utils/markdownParser.js:68-74 | on one line the global replace is the line's own rewrite |
| LineFacts.ReplaceLines | src/utils/markdownParser.js:68-74 | a line-local replace over `\n`-joined lines rewrites each line on its own |
| LineFacts.ApplyLines | src/utils/markdownParser.js:68-74 | a chain of line-local replaces over `\n`-joined lines applies the chain to each line |
| LineFacts.HashesPrefix | src/utils/markdownParser.js:68-73 | `k` hashes and a space start a line exactly when the line has `k` leading hashes followed by a space |
| LineFacts.HtmlNotReread | src/utils/markdownParser.js:68-74 | a heading element is never read again as a heading or a rule by a later replace of the chain |
| LineFacts.HeadingChainIsLineBlock | src/utils/markdownParser.js:68-74 | the six heading replaces, longest first, and the rule replace read every line as the reference reading does: one to six hashes and a space make a heading of that level, `---` makes a rule |
| LineFacts.HeadingPasses | src/utils/markdownParser.js:68-74 | over a text whose only line break is `\n`, the heading and rule stage is the reference reading applied to each line |
| InlineFacts.StrongSpan | src/utils/markdownParser.js:78 | `**x**` with `x` free of `*` becomes `<strong>x</strong>`, even across lines |
| InlineFacts.EmphasisSpan | src/utils/markdownParser.js:79 | `*x*` with `x` free of `*` becomes `<em>x</em>` |
| InlineFacts.BoldBeforeItalic | src/utils/markdownParser.js:78-79 | bold runs first, so `**x**` is not read as italic |
| InlineFacts.LinkSpan | src/utils/markdownParser.js:80-83 | `[t](u)` becomes an anchor to `u` that opens in a new tab |
| InlineFacts.BulletLine | src/utils/markdownParser.js:75-76 | a `- ` or `* ` line becomes a list item |
| InlineFacts.NumberedLine | src/utils/markdownParser.js:77 | a `N. ` line becomes a list item |
| InlineFacts.BulletSwallowsBlankLine | src/utils/markdownParser.js:75 | `^\s*` may start on an empty line, so the blank line before a list item disappears |
| InlineFacts.ArrowEverywhere | src/utils/markdownParser.js:85 | every `⇒` becomes `→`, and none survives |
| InlineFacts.EmptyParagraphs | src/utils/markdownParser.js:87-101 | the empty text is wrapped as `<p></p>` and that paragraph is removed again by the clean-up |
| InlineFacts.RenderEmpty | src/utils/markdownParser.js:3-125 | the empty markdown text renders to the empty string |
| EscapeFacts.EscapeIsRef | src/utils/markdownParser.js:105-110 | the five chained replaces, `&` first, escape each character on its own |
| EscapeFacts.EscapeRemovesSpecials | src/utils/markdownParser.js:105-110 | escaped code contains no `<`, `>`, `"` or `'` |
| EscapeFacts.EscapeRoundTrip | src/utils/markdownParser.js:105-110 | decoding the five entities gives the code back: nothing is lost and nothing is escaped twice |
| EscapeFacts.ChainChar | src/utils/markdownParser.js:105-110 | in a chain of one-character replaces where no replacement text holds a later character, a character becomes the text of the first step naming it |
| EscapeFacts.InlineHtmlEscapes | src/utils/markdownParser.js:116-121 | inline code is escaped exactly as fenced code is |
| Headings.Slug | src/components/PostView.jsx:58-61 | a slug holds only lower-case letters, digits, Hangul syllables and hyphens, and no white space |
| Headings.SlugIdempotent | src/components/PostView.jsx:58-61 | a slug is its own slug |
| Headings.SlugOfWord | src/components/PostView.jsx:58-61 | the slug of an ASCII word is its lower-case form |
| Headings.Label | src/components/PostView.jsx:56 | exactly the `h1`, `h2` and `h3` elements are picked |
| Headings.Walk | src/components/PostView.jsx:56-73 | one anchor per element; `Headings.WalkInvariant` states the ids and the counter |
| Headings.Extract | src/components/PostView.jsx:55-73 | no contract of its own: `Headings.OutlineEntries`, `Headings.AnchorsAreOutlineIds` and `Headings.ExtractIdsDistinct` state the outline it builds |
| Headings.WalkInvariant | src/components/PostView.jsx:55-73 | the walk's outline gives the n-th sighting of a slug the id `slug-n` (the first keeps the bare slug), with the element's text and level, and the counter holds the number of sightings so far |
| Headings.OutlineEntries | src/components/PostView.jsx:56-73 | the outline has one entry per picked heading, in order, with its trimmed text and level |
| Headings.AnchorsAreOutlineIds | src/components/PostView.jsx:68-73 | the ids set on the elements are the outline's ids, in order, and only picked elements get one |
| Headings.NoHeadingsNoOutline | src/components/PostView.jsx:56 | a document without `h1`-`h3` has an empty outline |
| Headings.DistinctIds | src/components/PostView.jsx:62-67 | when no slug is another slug with a `-n` suffix, the ids are pairwise distinct |
| Headings.ExtractIdsDistinct | src/components/PostView.jsx:55-73 | under the same condition the outline's ids are pairwise distinct |
| Headings.DuplicateIdsPossible | src/components/PostView.jsx:62-67 | headings `A`, `A`, `A 2` get the ids `a`, `a-2`, `a-2`, so the condition is needed |
| Headings.TwoIntros | src/components/PostView.jsx:55-73 | two headings `Intro` get the ids `intro` and `intro-2` |
| Headings.FirstSightingKeepsSlug | src/components/PostView.jsx:65-66 | the first heading with a given slug gets the bare slug as its id |
| Headings.AsWrittenAgrees | src/components/PostView.jsx:55-67 | the counter as written, on a plain object, gives the same outline as a counter starting empty whenever no slug is `constructor` |
| Headings.ConstructorNaN | src/components/PostView.jsx:55-67 | as written, a heading `constructor` gets the id `constructor-NaN` |
| Headings.ConstructorKeepsSlug | src/components/PostView.jsx:55-67 | with a counter starting empty, a heading `constructor` gets the id `constructor` |
| Posts.MarkdownFiles | src/App.jsx:170 | exactly the listed entries that are files with a name ending in `.md` are kept |
| Posts.StripMdRoundTrip | src/App.jsx:179 | removing `.md` from `name.md` gives `name` |
| Posts.TitleLineIsTextStart | src/App.jsx:185-188 | the first line starts with `# ` exactly when the text does |
| Posts.DeriveTitle | src/App.jsx:185-188 | the title is the trimmed text after `# ` on the first line, or the file name without `.md` when there is no title line |
| Posts.DerivePreview | src/App.jsx:190-197 | the preview ends in `...` and has at most 153 characters; `Posts.PreviewIgnoresTitleLine` states which lines it is built from |
| Posts.Clip | src/App.jsx:192-197 | the preview is the text's first 150 characters followed by `...`, and a shorter text is kept whole |
| Posts.PreviewIgnoresTitleLine | src/App.jsx:190-197 | the preview is built from the lines after the title line that are not blank and do not start with `#`, joined by spaces |
| Posts.ParseDate | src/App.jsx:199-209 | the date read from a file name has at most 13 digits, and it is non-zero only when the name starts with 13 digits and `-` |
| Posts.ParseDateNoStamp | src/App.jsx:199-209 | a name that does not start with 13 digits and `-` gets date 0 |
| Posts.ParseDateOfStamp | src/App.jsx:199-209 | round trip: a 13-digit timestamp written before a `-` is read back |
| Posts.ToPost | src/App.jsx:171-211 | a listed post keeps the entry's name, kind, path and sha; a response that is not ok gives the bare name, the failure preview and date 0 |
| Posts.DirectoryPostsFromMarkdown | src/App.jsx:168-214 | every post of a directory comes from a markdown file of the listing and has a title |
| Posts.TitledFileListed | src/App.jsx:168-214 | when every request of the directory resolves, every fetched markdown file with a non-empty title appears among the directory's posts |
| Posts.FetchDirectory | src/App.jsx:157-219 | a listing response that is not ok, or a rejected fetch of any markdown file, gives no posts for the whole directory; any posts it gives are those of `DirectoryPosts` |
| Posts.FetchedFileListed | src/App.jsx:168-219 | a markdown file with a titled text is listed exactly when no markdown file's fetch in its directory rejects |
| Posts.Compose | src/components/PostEdit.jsx:83 | no contract of its own: `Posts.ComposedTitle`, `Editing.SplitCompose` and `Writing.NewPostTitle` read the title and body back out of it |
| Posts.ComposedTitle | src/App.jsx:185-188 | round trip: the index reads the trimmed title back out of a text saved as `# title` and the body |
| PostIndex.Dedup | src/App.jsx:229-236 | no contract of its own: `PostIndex.DedupInvariant` and `PostIndex.UniqueKeys` state what it keeps |
| PostIndex.DedupInvariant | src/App.jsx:229-236 | the dedup loop keeps, in order, exactly the first post of each key: its sha, or its path when it has no sha, both in one key space; posts with neither are dropped |
| PostIndex.UniqueKeys | src/App.jsx:229-236 | every kept post has a key, no two kept posts share one, and a key occurs in the output exactly when it occurs in the input |
| PostIndex.AllPostsKeepsKeys | src/App.jsx:225-236 | a key of any directory's posts is a key of the combined list |
| PostIndex.SortByDate | src/App.jsx:237 | sorting permutes the posts |
| PostIndex.SortDescending | src/App.jsx:237 | sorted posts are in descending date order |
| PostIndex.SortStable | src/App.jsx:237 | posts of equal date keep their relative order |
| PostIndex.UpdateMerges | src/App.jsx:290-301 | after an update the list has its old length, is sorted by date, and holds the updated post in place of every post with its path or its directory and name |
| PostIndex.UpdateKeepsOthers | src/App.jsx:290-301 | every other post keeps its number of occurrences |
| PostIndex.Navigate | src/App.jsx:259-274 | a visitor's request for the write or edit page changes nothing |
| PostIndex.NavigateSelection | src/App.jsx:259-274 | an allowed navigation shows the page, selects the given post, and clears the selection only when leaving for a page other than view or edit |
| PostIndex.StartEdit | src/App.jsx:281-289 | a visitor cannot start editing |
| PostIndex.Step | src/App.jsx:259-301 | no contract of its own: each action is one of the modelled handlers, whose lemmas are the rows above |
| PostIndex.Run | src/App.jsx:259-305 | no contract of its own: `PostIndex.VisitorNeverEdits` states what a sequence of actions cannot reach |
| PostIndex.VisitorNeverEdits | src/App.jsx:259-305 | whatever a visitor does, the write and edit pages are never reached |
| Editing.SplitRaw | src/components/PostEdit.jsx:33-40 | a text without a title line is edited whole under the listed title |
| Editing.SplitTitled | src/components/PostEdit.jsx:33-40 | a text with a title line is edited as the line's trimmed text after `# ` and the rest of the text after the first line break, without its leading white space |
| Editing.EditorTitleIsIndexTitle | src/components/PostEdit.jsx:37-38 | the editor and the index read the same title out of a file with a title line |
| Editing.SplitCompose | src/components/PostEdit.jsx:33-40 | round trip: splitting a saved text gives back the trimmed title and the body without its leading white space |
| Editing.CheckEdit | src/components/PostEdit.jsx:62-78 | saving goes ahead exactly when the content is not blank and a post with a sha, a name and a directory is being edited |
| Editing.BlankContentFirst | src/components/PostEdit.jsx:62-66 | blank content is reported before a missing sha, name or directory |
| Editing.EditPreview | src/components/PostEdit.jsx:115 | the saved preview is the body's first 150 characters followed by `...`, and a shorter body is kept whole |
| Editing.NewSha | src/components/PostEdit.jsx:114-117 | the new sha is the first present of the returned sha, the content's sha and the old sha, and is empty only when all are |
| Editing.Edited | src/components/PostEdit.jsx:110-118 | the edited post keeps its path, name, directory, date and kind, takes the new title, preview and sha, and stays complete |
| Editing.FilePathSplits | src/components/PostEdit.jsx:84 | the saved path splits at its slashes back into the directory and the file name |
| Editing.EditedReplacesOriginal | src/components/PostEdit.jsx:109-119 | handing the edited post to the list keeps its length, puts the edited post in, and leaves no other post with its path |
| Writing.CheckNew | src/components/PostWrite.jsx:15-22 | a post is created exactly when title and content are not blank and a directory is chosen; blank text is reported first |
| Writing.SafeTitle | src/components/PostWrite.jsx:26-28 | the file-name slug has no white space and only the allowed letters, digits, hyphens and CJK characters |
| Writing.KeepSafeAppend | src/components/PostWrite.jsx:27 | the character filter works character by character: the safe characters of both halves are kept, in order |
| Writing.KeepSafeDrops | src/components/PostWrite.jsx:27 | a character outside the class is removed |
| Writing.SafeTitleDropsUnsafe | src/components/PostWrite.jsx:26-28 | removing a character outside the class does not change the slug |
| Writing.SafeTitleOfSlug | src/components/PostWrite.jsx:26-28 | a title of allowed characters without white space is its own slug |
| Writing.SafeTitleIdempotent | src/components/PostWrite.jsx:26-28 | a slug is its own slug |
| Writing.FileName | src/components/PostWrite.jsx:29 | the file name ends in `.md`; `Writing.FileNameSlug` states its parts |
| Writing.FileNameSlug | src/components/PostWrite.jsx:29 | the file name is the timestamp, a dash, a non-empty slug without white space and `.md` |
| Writing.NewFileListed | src/components/PostWrite.jsx:29 | the index lists the new file as a markdown file |
| Writing.NewFileDate | src/components/PostWrite.jsx:25-29 | round trip: the index reads the timestamp back out of the new file name |
| Writing.NewPostTitle | src/components/PostWrite.jsx:29-30 | round trip: the index reads the trimmed title back out of the new post's text |
| Paging.TotalPages | src/components/PostList.jsx:12 | the number of pages is the least one whose pages hold every post |
| Paging.Window | src/components/PostList.jsx:8-11 | a page shows at most ten posts, at least one when it is within the page count and none beyond it |
| Paging.Press | src/components/PostList.jsx:50-69 | no contract of its own: `Paging.PressStaysInRange` states that every button keeps the page in range |
| Paging.ShowControlsIff | src/components/PostList.jsx:48 | the page controls appear exactly when there are more than ten posts |
| Paging.PressStaysInRange | src/components/PostList.jsx:50-69 | every page button keeps the current page between 1 and the page count |
| Paging.PagesCoverAll | src/components/PostList.jsx:8-12 | the pages in order are the whole list: every post is on exactly one page |
| Planner.FormatDate | src/components/PlanningCalendar.jsx:7-13 | the key is empty exactly when there is no date |
| Planner.FormatParse | src/components/PlanningCalendar.jsx:7-13 | round trip: the key of a valid day of year 0 or later reads back as that day |
| Planner.KeysDistinct | src/components/PlanningCalendar.jsx:7-13 | different valid days get different keys, whatever their years |
| Planner.AddPlan | src/components/PlanningCalendar.jsx:37-53 | blank input changes nothing; otherwise the trimmed input is appended to the day's list and no other day changes |
| Planner.DeletePlan | src/components/PlanningCalendar.jsx:55-74 | the plan at the index goes, the day goes with its last plan, and no other day changes |
| Planner.RemoveAt | src/components/PlanningCalendar.jsx:59-61 | removing an index in range drops exactly that element; any other index keeps the list |
| Planner.DeleteLastPlan | src/components/PlanningCalendar.jsx:63-67 | deleting a day's only plan removes the day |
| Planner.Indicator | src/components/PlanningCalendar.jsx:80-88 | no contract of its own: `Planner.IndicatorMarksDays` states which days show the dot |
| Planner.IndicatorMarksDays | src/components/PlanningCalendar.jsx:80-88 | when no day is empty, the month tile shows the dot exactly for days in the plan book |
| Planner.AddShowsDot | src/components/PlanningCalendar.jsx:37-53 | after a plan is added its day shows the dot |

## Left out

- Network I/O. The fetches, the GitHub OAuth login, `alert`, `console`, scrolling and `document.title` are left out. A fetched file's text is a parameter: a response that is not ok is `None`, and the files whose fetch or `text()` rejects are a set of names (`Posts.FetchDirectory`).
- The login prompt that `handleNavigate` starts for a visitor who is not logged in is a side effect and is not modelled. The screen is unchanged, as modelled.
- `localStorage` and the JSON round trip of the plan book are left out. The plan book is a map.
- The DOM is left out: `innerHTML`, `querySelectorAll`, `setAttribute` and `textContent`. The rendered document's headings are given as a sequence of elements with a level and a text.
- highlight.js, the comments widget, TableOfContents, Header, Home, Portfolio and the configuration module are presentation or configuration and are not part of this model.
- Dates are integers (App.jsx) or `(year, month index, day)` triples (PlanningCalendar.jsx); time zones and `Date` objects are left out. `new Date(t)` for a 13-digit `t` is a valid date, so the model's date is `t`.
- Lengths and `substring` count Unicode scalar values. JavaScript counts UTF-16 code units, which differ only outside the Basic Multilingual Plane.
- Planner.FormatParse: stated only for years 0 and later; keys of negative years, which JavaScript writes with a leading `-`, are not read back.
- LineFacts.HeadingPasses: stated only for text whose line breaks are `\n`; the source's `^` and `.` also treat `\r`, U+2028 and U+2029 as line breaks. `Passes.MatchAt` models those too.
- Markdown.Render: `RenderSafety.RenderSucceeds` states success only for markdown without `_`. With `_`, text can forge a placeholder that has no table entry, as `Collisions.ForgedFails` shows. Deleting `<p></p>` can also splice neighbouring text into a placeholder. In both cases the model returns `None`, as the source throws.
- Headings.DistinctIds: stated under the condition that no slug is another slug with a `-n` suffix. Without it the source gives duplicate ids (Headings.DuplicateIdsPossible).
- PostIndex.UpdateMerges: the merge `{...p, ...updatedPost}` is modelled as the updated post itself. The updated post spreads a listed post, so it holds every field `p` has.
- Paging.Window: pages are counted from 1, as every button of the source keeps them; page 0 is not modelled.

## Findings

| source | as written | input that shows it | evidently intended | confidence | as-written member | corrected member |
|---|---|---|---|---|---|---|
| src/components/PostView.jsx:55-67 | the counter is a plain object `{}`, so `headingCounter["constructor"]` is the inherited `Object` function: it is truthy, `++` turns it into `NaN`, and the id becomes `constructor-NaN` | one heading whose text is `constructor` | the first heading with a slug keeps the bare slug as its id | high (not executed) | Headings.ConstructorNaN | Headings.ConstructorKeepsSlug |
| src/utils/markdownParser.js:6-16 | a code span's placeholder ends in `___`; followed by the text `CODEBLOCK_0___` it gives `___INLINECODE_0___CODEBLOCK_0___`, where the block placeholder `___CODEBLOCK_0___` reuses the closing `___` of the inline placeholder and its number has no block, and the destructuring of `codeBlocks[0]` at line 104 throws | `` `a`CODEBLOCK_0___ `` | the span's closing underscores are not read as the start of a block placeholder, so the span renders as code and the letters after it as text; resolving inline placeholders first does that | medium (not executed) | Collisions.ForgedFails | InlineFirst.ForgedRenders |
| src/utils/markdownParser.js:6-16 | the fence stage runs before the inline stage, so a fence inside a code span is replaced by its placeholder and the span captures it; blocks are resolved before spans, so the placeholder comes out as text and the block is lost | `` `a ```\nb``` c` `` | every placeholder written is resolved, so none reaches the output; resolving inline placeholders first does that on markdown without `_`, at the price that a code span holding the text of a block placeholder no longer renders (InlineFirst.PlaceholderSpanRegresses) | medium (not executed) | Collisions.FenceInCodeSpanLeaks | InlineFirst.InlineFirstResolvesAll |

=== FILE: collisions.dfy ===
/** Two inputs on which the placeholders of `parseMarkdown`
    (src/utils/markdownParser.js:6-16 and 103-123) collide with the text
    around them. The placeholders are made of word characters and are
    written into the text with no escaping of what is already there, so
    ordinary text can continue one placeholder into another, and a fence
    inside a code span is replaced before the span is read. */
module Collisions {
  import opened Strings
  import opened Passes
  import opened Markdown
  import opened ProtectFacts
  import EscapeFacts
  import TableFacts
  import PlainText
  import RenderSafety

  // ---------------------------------------------------------------------
  // The placeholders for the number 0

  lemma ZeroMarkers()
    ensures Decimal(0) == "0"
    ensures BlockMarker(0) == "___CODEBLOCK_0___"
    ensures InlineMarker(0) == "___INLINECODE_0___"
  {
  }

  /** `w` occurs in `a + w + b` right after `a`. */
  lemma HasAtMiddle(a: string, w: string, b: string)
    ensures HasAt(a + w + b, |a|, w)
  {
    assert (a + w + b)[|a|..|a| + |w|] == w;
  }

  // ---------------------------------------------------------------------
  // Stepping over text that holds no placeholder

  /** Stage 1 copies a stretch in which no fence opens. */
  lemma {:induction false} FenceSkip(s: string, p: nat, q: nat, n: nat)
    requires p <= q <= |s|
    requires forall k :: p <= k < q ==> !HasAt(s, k, "```")
    ensures ProtectFencesFrom(s, p, n) == (s[p..q] + ProtectFencesFrom(s, q, n).0, ProtectFencesFrom(s, q, n).1)
    decreases q - p
  {
    if p < q {
      FenceSkip(s, p + 1, q, n);
      FenceCopyStep(s, p, n);
      RenderSafety.ConsSlice(s, p, q, ProtectFencesFrom(s, q, n).0);
    } else {
      assert s[p..q] + ProtectFencesFrom(s, q, n).0 == ProtectFencesFrom(s, q, n).0;
    }
  }

  /** Stage 1 copies a character at which no fence opens. */
  lemma FenceCopyStep(s: string, p: nat, n: nat)
    requires p < |s| && !HasAt(s, p, "```")
    ensures ProtectFencesFrom(s, p, n)
        == ([s[p]] + ProtectFencesFrom(s, p + 1, n).0, ProtectFencesFrom(s, p + 1, n).1)
  {
    assert FenceAt(s, p).None?;
  }

  /** Stage 2 copies a stretch without a backtick. */
  lemma {:induction false} SpanSkip(s: string, p: nat, n: nat)
    requires p <= |s|
    requires forall k :: p <= k < |s| ==> s[k] != '`'
    ensures ProtectInlineFrom(s, p, n) == (s[p..], [])
    decreases |s| - p
  {
    if p < |s| {
      assert InlineAt(s, p).None?;
      SpanSkip(s, p + 1, n);
      assert s[p..] == [s[p]] + s[p + 1..];
    } else {
      var none: seq<string> := [];
      assert ProtectInlineFrom(s, p, n) == ([], none);
    }
  }

  /** The twelfth character of every block placeholder is a `K`. */
  lemma BlockPrefixK(s: string, k: nat)
    requires k <= |s|
    ensures HasAt(s, k, BlockPrefix) ==> s[k + 11] == 'K'
  {
    if HasAt(s, k, BlockPrefix) {
      assert s[k..k + 13][11] == BlockPrefix[11];
    }
  }

  lemma NoBlockRefWithoutK(s: string, k: nat)
    requires k <= |s| && 'K' !in s
    ensures RefAt(s, k, BlockPrefix).None?
  {
    BlockPrefixK(s, k);
  }

  /** Every inline placeholder starts with `_`. */
  lemma NoInlineRefAt(s: string, k: nat)
    requires k < |s| && s[k] != '_'
    ensures RefAt(s, k, InlinePrefix).None?
  {
  }

  /** Inline resolution copies a stretch in which no inline placeholder starts. */
  lemma {:induction false} ResolveInlineSkip(s: string, p: nat, q: nat, codes: seq<string>)
    requires p <= q <= |s| && ResolveInlineFrom(s, q, codes).Some?
    requires forall k :: p <= k < q ==> RefAt(s, k, InlinePrefix).None?
    ensures ResolveInlineFrom(s, p, codes) == Some(s[p..q] + ResolveInlineFrom(s, q, codes).value)
    decreases q - p
  {
    if p < q {
      assert RefAt(s, p, InlinePrefix).None?;
      ResolveInlineSkip(s, p + 1, q, codes);
      ResolveInlineCharStep(s, p, codes);
      RenderSafety.ConsSlice(s, p, q, ResolveInlineFrom(s, q, codes).value);
    } else {
      assert s[p..q] + ResolveInlineFrom(s, q, codes).value == ResolveInlineFrom(s, q, codes).value;
    }
  }

  /** Inline resolution at a character that starts no inline placeholder. */
  lemma ResolveInlineCharStep(s: string, p: nat, codes: seq<string>)
    requires p < |s| && RefAt(s, p, InlinePrefix).None? && ResolveInlineFrom(s, p + 1, codes).Some?
    ensures ResolveInlineFrom(s, p, codes) == Some([s[p]] + ResolveInlineFrom(s, p + 1, codes).value)
  {
  }

  /** With no blocks, a block placeholder anywhere ahead makes block
      resolution fail from any earlier index. */
  lemma {:induction false} NoBlocksFail(s: string, p: nat, q: nat)
    requires p <= q <= |s| && ResolveBlocksFrom(s, q, []).None?
    ensures ResolveBlocksFrom(s, p, []).None?
    decreases q - p
  {
    if p < q {
      NoBlocksFail(s, p + 1, q);
    }
  }

  /** Text without the five special characters. */
  predicate Unspecial(s: string) {
    forall k :: 0 <= k < |s| ==> s[k] !in EscapeFacts.Specials
  }

  /** Escaping leaves text without the five special characters alone. */
  lemma {:induction false} EscapeRefPlain(s: string)
    requires Unspecial(s)
    ensures EscapeFacts.EscapeRef(s) == s
    decreases |s|
  {
    if s != [] {
      assert s[0] !in EscapeFacts.Specials;
      EscapeRefPlain(s[1..]);
      assert s == [s[0]] + s[1..];
    }
  }

  lemma EscapePlain(s: string)
    requires Unspecial(s)
    ensures Escape(s) == s
  {
    EscapeRefPlain(s);
    EscapeFacts.EscapeIsRef(s);
  }

  /** Inline placeholders have no `K`. */
  lemma InlineMarkerNoK(n: nat)
    ensures 'K' !in InlineMarker(n)
  {
    assert forall k :: 0 <= k < |Decimal(n)| ==> IsDigit(Decimal(n)[k]);
  }

  /** Block resolution leaves a paragraph holding one inline placeholder alone. */
  lemma LoneSpanBlocks(w: string, n: nat, blocks: seq<CodeBlock>)
    requires w == "<p>" + InlineMarker(n) + "</p>"
    ensures ResolveBlocksFrom(w, 0, blocks) == Some(w)
  {
    InlineMarkerNoK(n);
    assert 'K' !in w;
    forall k | 0 <= k < |w| ensures RefAt(w, k, BlockPrefix).None? {
      NoBlockRefWithoutK(w, k);
    }
    RenderSafety.ResolveBlocksSkip(w, 0, |w|, blocks);
    assert w[0..|w|] + [] == w;
  }

  /** Inline resolution puts the code back into such a paragraph. */
  lemma LoneSpanInline(w: string, n: nat, codes: seq<string>)
    requires w == "<p>" + InlineMarker(n) + "</p>" && n < |codes|
    ensures ResolveInlineFrom(w, 0, codes) == Some("<p>" + InlineHtml(codes[n]) + "</p>")
  {
    LoneSpanMarker(w, n, codes);
    LoneSpanOpen(w, n);
    ResolveInlineSkip(w, 0, 3, codes);
    var html := InlineHtml(codes[n]);
    assert w[0..3] + (html + "</p>") == "<p>" + html + "</p>";
  }

  /** From the placeholder on. */
  lemma LoneSpanMarker(w: string, n: nat, codes: seq<string>)
    requires w == "<p>" + InlineMarker(n) + "</p>" && n < |codes|
    ensures ResolveInlineFrom(w, 3, codes) == Some(InlineHtml(codes[n]) + "</p>")
  {
    LoneSpanClose(w, n, codes);
    HasAtMiddle("<p>", InlineMarker(n), "</p>");
    InlinePlaceholderResolves(w, 3, n, codes);
  }

  lemma LoneSpanOpen(w: string, n: nat)
    requires w == "<p>" + InlineMarker(n) + "</p>"
    ensures w[0..3] == "<p>"
    ensures forall k :: 0 <= k < 3 ==> RefAt(w, k, InlinePrefix).None?
  {
    forall k | 0 <= k < 3 ensures RefAt(w, k, InlinePrefix).None? {
      assert w[k] == w[..3][k];
      NoInlineRefAt(w, k);
    }
  }

  /** After the placeholder only `</p>` is left. */
  lemma LoneSpanClose(w: string, n: nat, codes: seq<string>)
    requires w == "<p>" + InlineMarker(n) + "</p>"
    ensures ResolveInlineFrom(w, 3 + |InlineMarker(n)|, codes) == Some("</p>")
  {
    var e := 3 + |InlineMarker(n)|;
    assert w[e..] == "</p>";
    forall k | e <= k < |w| ensures RefAt(w, k, InlinePrefix).None? {
      assert w[k] == w[e..][k - e];
      NoInlineRefAt(w, k);
    }
    assert ResolveInlineFrom(w, |w|, codes) == Some([]);
    ResolveInlineSkip(w, e, |w|, codes);
    assert w[e..|w|] + [] == "</p>";
  }

  /** Text that is one run of word characters starting with `_` passes
      stages 3 to 7 as one paragraph. */
  lemma WordRunPrepared(m: string)
    requires m != [] && AllWordChars(m) && m[0] == '_'
    ensures Paragraphs(ApplyAll(BlockRules, ConvertTables(m))) == "<p>" + m + "</p>"
  {
    assert '|' !in m && '<' !in m by {
      forall k | 0 <= k < |m| ensures m[k] != '|' && m[k] != '<' {
        assert IsWordChar(m[k]);
      }
    }
    TableFacts.NoPipeUnchanged(m);
    PlainText.WordTextSubstituted(m);
    PlainText.PlainParagraph(m);
  }

  lemma InlineMarkerWord(n: nat)
    ensures AllWordChars(InlineMarker(n)) && InlineMarker(n)[0] == '_'
  {
    assert forall k :: 0 <= k < |Decimal(n)| ==> IsDigit(Decimal(n)[k]);
  }

  lemma BlockMarkerWord(n: nat)
    ensures AllWordChars(BlockMarker(n))
  {
    assert forall k :: 0 <= k < |Decimal(n)| ==> IsDigit(Decimal(n)[k]);
  }

  // ---------------------------------------------------------------------
  // A forged block placeholder

  /** A span followed by the letters and number of a block placeholder. */
  predicate ForgedText(x: string, j: nat, s: string) {
    x != [] && '`' !in x && s == "`" + x + "`" + ("CODEBLOCK_" + Decimal(j) + MarkerEnd)
  }

  /** Its backticks are the span's two. */
  lemma ForgedBackticks(x: string, j: nat, s: string, i: nat)
    requires ForgedText(x, j, s) && i < |s|
    ensures s[i] == '`' ==> i == 0 || i == |x| + 1
  {
    var tail := "CODEBLOCK_" + Decimal(j) + MarkerEnd;
    assert forall k :: 0 <= k < |Decimal(j)| ==> IsDigit(Decimal(j)[k]);
    assert '`' !in tail;
    assert s == "`" + (x + ("`" + tail));
  }

  lemma ForgedFences(x: string, j: nat, s: string)
    requires ForgedText(x, j, s)
    ensures ProtectFences(s) == (s, [])
  {
    forall k | 0 <= k < |s| ensures !HasAt(s, k, "```") {
      if HasAt(s, k, "```") {
        assert s[k] == s[k..k + 3][0] && s[k + 1] == s[k..k + 3][1];
        ForgedBackticks(x, j, s, k);
        ForgedBackticks(x, j, s, k + 1);
      }
    }
    NoFenceUnchanged(s, 0, 0);
    assert s[0..] == s;
  }

  lemma ForgedSpans(x: string, j: nat, s: string, n: nat)
    requires ForgedText(x, j, s) && n == 0
    ensures ProtectInline(s) == (InlineMarker(n) + ("CODEBLOCK_" + Decimal(j) + MarkerEnd), [x])
  {
    var tail := "CODEBLOCK_" + Decimal(j) + MarkerEnd;
    ForgedSpanAt(x, j, s);
    CodeSpanCaptured(s, 0, n, x);
    ForgedTailSkipped(x, j, s, n + 1);
    var none: seq<string> := [];
    assert ProtectInlineFrom(s, |x| + 2, n + 1) == (tail, none);
    assert [x] + none == [x];
  }

  lemma ForgedSpanAt(x: string, j: nat, s: string)
    requires ForgedText(x, j, s)
    ensures HasAt(s, 0, "`" + x + "`")
    ensures s[|x| + 2..] == "CODEBLOCK_" + Decimal(j) + MarkerEnd
  {
    var tail := "CODEBLOCK_" + Decimal(j) + MarkerEnd;
    HasAtMiddle([], "`" + x + "`", tail);
    assert [] + ("`" + x + "`") + tail == s;
  }

  /** Past the span there is no backtick, so stage 2 copies the rest. */
  lemma ForgedTailSkipped(x: string, j: nat, s: string, n: nat)
    requires ForgedText(x, j, s)
    ensures |x| + 2 <= |s|
    ensures ProtectInlineFrom(s, |x| + 2, n) == ("CODEBLOCK_" + Decimal(j) + MarkerEnd, [])
  {
    ForgedSpanAt(x, j, s);
    forall k | |x| + 2 <= k < |s| ensures s[k] != '`' {
      ForgedBackticks(x, j, s, k);
    }
    SpanSkip(s, |x| + 2, n);
  }

  /** The text left for resolution: the inline placeholder's closing `___`
      and the forged letters read as the block placeholder `j`. */
  lemma ForgedStaged(x: string, j: nat, s: string)
    requires ForgedText(x, j, s)
    ensures Prepare(s).blocks == []
    ensures Prepare(s).text == "<p>" + InlinePrefix + Decimal(0) + BlockMarker(j) + "</p>"
  {
    ForgedStagedNumbered(x, j, s, 0);
    ForgedMarkerWord(0, j);
    ParagraphOf(InlineMarker(0) + ("CODEBLOCK_" + Decimal(j) + MarkerEnd), 0, j);
  }

  /** The same with the span's placeholder number kept symbolic. */
  lemma ForgedStagedNumbered(x: string, j: nat, s: string, n: nat)
    requires ForgedText(x, j, s) && n == 0
    ensures Prepare(s).blocks == []
    ensures Prepare(s).text == "<p>" + (InlineMarker(n) + ("CODEBLOCK_" + Decimal(j) + MarkerEnd)) + "</p>"
  {
    var m := InlineMarker(n) + ("CODEBLOCK_" + Decimal(j) + MarkerEnd);
    ForgedFences(x, j, s);
    ForgedSpans(x, j, s, n);
    ForgedMarkerWord(n, j);
    WordRunPrepared(m);
    PreparedOf(s, m, [x], "<p>" + m + "</p>");
  }

  /** `Prepare` put together from what each of its stages gives. */
  lemma PreparedOf(s: string, m: string, codes: seq<string>, t: string)
    requires ProtectFences(s) == (s, []) && ProtectInline(s) == (m, codes)
    requires Paragraphs(ApplyAll(BlockRules, ConvertTables(m))) == t
    ensures Prepare(s) == Staged(t, [], codes)
  {
  }

  lemma ParagraphOf(m: string, n: nat, j: nat)
    requires m == InlinePrefix + Decimal(n) + BlockMarker(j)
    ensures "<p>" + m + "</p>" == "<p>" + InlinePrefix + Decimal(n) + BlockMarker(j) + "</p>"
  {
  }

  /** The span's placeholder and the forged letters read as one word that
      ends in the block placeholder `j`. */
  lemma ForgedMarkerWord(n: nat, j: nat)
    ensures var m := InlineMarker(n) + ("CODEBLOCK_" + Decimal(j) + MarkerEnd);
      m == InlinePrefix + Decimal(n) + BlockMarker(j) && m != [] && m[0] == '_' && AllWordChars(m)
  {
    var m := InlineMarker(n) + ("CODEBLOCK_" + Decimal(j) + MarkerEnd);
    assert m == InlinePrefix + Decimal(n) + BlockMarker(j);
    InlineMarkerWord(n);
    BlockMarkerWord(j);
    forall k | 0 <= k < |m| ensures IsWordChar(m[k]) {
      if k < |InlinePrefix| + |Decimal(n)| {
        assert m[k] == InlineMarker(n)[k];
      } else {
        assert m[k] == BlockMarker(j)[k - |InlinePrefix| - |Decimal(n)|];
      }
    }
  }

  /** Lines 6-16 and 103-104 as written: a code span becomes
      `___INLINECODE_0___`, whose last three underscores and the text
      `CODEBLOCK_j___` right after the span form the block placeholder `j`.
      No block was captured, so the destructuring of `codeBlocks[j]` throws,
      whatever the span holds and whatever `j` is. */
  lemma ForgedFails(x: string, j: nat, s: string)
    requires ForgedText(x, j, s)
    ensures Render(s) == None
  {
    ForgedStaged(x, j, s);
    var a := "<p>" + InlinePrefix + Decimal(0);
    var w := Prepare(s).text;
    assert w == a + BlockMarker(j) + "</p>";
    HasAtMiddle(a, BlockMarker(j), "</p>");
    BlockPlaceholderResolves(w, |a|, j, []);
    NoBlocksFail(w, 0, |a|);
  }

  /** The smallest such input. */
  lemma ForgedMarkerFails()
    ensures Render("`a`CODEBLOCK_0___") == None
  {
    ZeroMarkers();
    ForgedFails("a", 0, "`a`CODEBLOCK_0___");
  }

  // ---------------------------------------------------------------------
  // A fence inside a code span

  /** The input `` `a```\nb```c` ``: a fence inside a code span. */
  predicate FenceInSpanText(a: string, b: string, c: string, s: string) {
    a != [] && '`' !in a && '`' !in b && '`' !in c && s == "`" + a + "```\n" + b + "```" + c + "`"
  }

  /** Where its backticks are: the span's two and the fence's six. */
  lemma SpanFenceBackticks(a: string, b: string, c: string, s: string, i: nat)
    requires FenceInSpanText(a, b, c, s) && i < |s|
    ensures s[i] == '`' ==> i == 0 || |a| + 1 <= i < |a| + 4 || |a| + |b| + 5 <= i < |a| + |b| + 8 || i == |s| - 1
  {
    assert s == "`" + (a + ("```\n" + (b + ("```" + (c + "`")))));
  }

  lemma SpanFenceFenced(a: string, b: string, c: string, s: string)
    requires FenceInSpanText(a, b, c, s)
    ensures ProtectFences(s) == ("`" + (a + BlockMarker(0) + c) + "`", [CodeBlock("", Trim(b))])
  {
    SpanFenceNumbered(a, b, c, s, 0, "");
  }

  /** The same with the placeholder number and the empty tag kept
      symbolic, so that the solver does not expand the literals. */
  lemma SpanFenceNumbered(a: string, b: string, c: string, s: string, n: nat, lang: string)
    requires FenceInSpanText(a, b, c, s) && n == 0 && lang == []
    ensures ProtectFences(s) == ("`" + (a + BlockMarker(n) + c) + "`", [CodeBlock(lang, Trim(b))])
  {
    var p, e := |a| + 1, |a| + |b| + 8;
    SpanFenceHeadPlain(a, b, c, s, p);
    SpanFenceTailPlain(a, b, c, s, e);
    SpanFenceAt(a, b, c, s, lang, p);
    BareFenceCaptured(s, p, n, lang, b, e);
    OneFenceProtected(s, p, e, n, CodeBlock(lang, Trim(b)));
    SpanFencePieces(a, b, c, s, p, e, n);
  }

  /** Stage 1 on a text with exactly one fence, from `p` to `e`; `n` is
      the first placeholder number. */
  lemma OneFenceProtected(s: string, p: nat, e: nat, n: nat, block: CodeBlock)
    requires p <= e <= |s| && n == 0
    requires forall k :: 0 <= k < p ==> !HasAt(s, k, "```")
    requires forall k :: e <= k < |s| ==> !HasAt(s, k, "```")
    requires ProtectFencesFrom(s, p, n)
        == (BlockMarker(n) + ProtectFencesFrom(s, e, n + 1).0, [block] + ProtectFencesFrom(s, e, n + 1).1)
    ensures ProtectFences(s) == (s[0..p] + (BlockMarker(n) + s[e..]), [block])
  {
    FenceSkip(s, 0, p, n);
    NoFenceUnchanged(s, e, n + 1);
    var none: seq<CodeBlock> := [];
    assert [block] + none == [block];
  }

  /** No fence opens inside the span before the fence. */
  lemma SpanFenceHeadPlain(a: string, b: string, c: string, s: string, p: nat)
    requires FenceInSpanText(a, b, c, s) && p == |a| + 1
    ensures p <= |s|
    ensures forall k :: 0 <= k < p ==> !HasAt(s, k, "```")
  {
    forall k | 0 <= k < p ensures !HasAt(s, k, "```") {
      SpanFenceBackticks(a, b, c, s, k);
      SpanFenceBackticks(a, b, c, s, k + 1);
    }
  }

  /** Nor after it. */
  lemma SpanFenceTailPlain(a: string, b: string, c: string, s: string, e: nat)
    requires FenceInSpanText(a, b, c, s) && e == |a| + |b| + 8
    ensures e <= |s|
    ensures forall k :: e <= k < |s| ==> !HasAt(s, k, "```")
  {
    forall k | e <= k < |s| ensures !HasAt(s, k, "```") {
      SpanFenceBackticks(a, b, c, s, k);
    }
  }

  lemma SpanFencePieces(a: string, b: string, c: string, s: string, p: nat, e: nat, n: nat)
    requires FenceInSpanText(a, b, c, s) && p == |a| + 1 && e == |a| + |b| + 8
    ensures s[0..p] == "`" + a && s[e..] == c + "`"
    ensures ("`" + a) + (BlockMarker(n) + (c + "`")) == "`" + (a + BlockMarker(n) + c) + "`"
  {
    assert s == ("`" + a) + ("```\n" + b + "```") + (c + "`");
  }

  /** A fence without a language tag whose body has no backtick; `e` is
      the index after it. */
  lemma BareFenceCaptured(s: string, p: nat, n: nat, lang: string, b: string, e: nat)
    requires lang == [] && HasAt(s, p, "```" + lang + "\n" + b + "```") && '`' !in b
    requires e == p + |b| + 7
    ensures e <= |s|
    ensures ProtectFencesFrom(s, p, n)
        == (BlockMarker(n) + ProtectFencesFrom(s, e, n + 1).0,
            [CodeBlock(lang, Trim(b))] + ProtectFencesFrom(s, e, n + 1).1)
  {
    NoBacktickCloses(b);
    assert AllWordChars(lang);
    FenceAtShape(s, p, lang, b);
    assert Fence(lang, b, p + |lang| + |b| + 7) == Fence(lang, b, e);
    FenceStep(s, p, n, lang, b, e);
  }

  lemma SpanFenceAt(a: string, b: string, c: string, s: string, lang: string, p: nat)
    requires FenceInSpanText(a, b, c, s) && lang == [] && p == |a| + 1
    ensures HasAt(s, p, "```" + lang + "\n" + b + "```")
  {
    var fence := "```" + lang + "\n" + b + "```";
    assert s == ("`" + a) + fence + (c + "`");
    HasAtMiddle("`" + a, fence, c + "`");
  }

  /** A body without a backtick ends at the first fence after it. */
  lemma NoBacktickCloses(b: string)
    requires '`' !in b
    ensures ClosesAtEnd(b)
  {
    forall k | 0 <= k < |b| ensures !HasAt(b + "```", k, "```") {
      assert (b + "```")[k] == b[k];
    }
  }

  lemma SpanFenceSpans(code: string)
    requires code != [] && '`' !in code
    ensures ProtectInline("`" + code + "`") == (InlineMarker(0), [code])
  {
    var t := "`" + code + "`";
    assert HasAt(t, 0, "`" + code + "`") by {
      assert t[0..|t|] == t;
    }
    CodeSpanCaptured(t, 0, 0, code);
    var none: seq<string> := [];
    assert ProtectInlineFrom(t, |t|, 1) == ([], none);
    assert InlineMarker(0) + [] == InlineMarker(0);
    assert [code] + none == [code];
  }

  lemma SpanFenceStaged(a: string, b: string, c: string, s: string)
    requires FenceInSpanText(a, b, c, s)
    ensures Prepare(s) == Staged("<p>" + InlineMarker(0) + "</p>", [CodeBlock("", Trim(b))], [a + BlockMarker(0) + c])
  {
    SpanFenceFenced(a, b, c, s);
    var code := a + BlockMarker(0) + c;
    NoBacktickInMarker(0);
    assert '`' !in code;
    SpanFenceSpans(code);
    InlineMarkerWord(0);
    WordRunPrepared(InlineMarker(0));
  }

  /** Lines 6-16 and 103-123 as written: stage 1 replaces the fence inside
      the code span with `___CODEBLOCK_0___`, stage 2 then captures the span
      with that placeholder in it, and block resolution runs before the span
      is put back. The placeholder reaches the output as text and the fenced
      block is never emitted. */
  lemma FenceInSpanLeaks(a: string, b: string, c: string, s: string)
    requires FenceInSpanText(a, b, c, s)
    ensures Render(s) == Some("<p>" + InlineHtml(a + BlockMarker(0) + c) + "</p>")
  {
    SpanFenceStaged(a, b, c, s);
    var w := "<p>" + InlineMarker(0) + "</p>";
    LoneSpanBlocks(w, 0, [CodeBlock("", Trim(b))]);
    LoneSpanInline(w, 0, [a + BlockMarker(0) + c]);
  }

  /** With nothing to escape around the fence, the placeholder shows up
      verbatim inside the code element. */
  lemma FenceInPlainSpanLeaks(a: string, b: string, c: string, s: string)
    requires FenceInSpanText(a, b, c, s) && Unspecial(a) && Unspecial(c)
    ensures Render(s) == Some("<p><code>" + (a + BlockMarker(0) + c) + "</code></p>")
  {
    FenceInSpanLeaks(a, b, c, s);
    PlainCodeHtml(a, c, 0);
  }

  /** The markup of the leaked span, for placeholder `n`. */
  lemma PlainCodeHtml(a: string, c: string, n: nat)
    requires Unspecial(a) && Unspecial(c)
    ensures "<p>" + InlineHtml(a + BlockMarker(n) + c) + "</p>" == "<p><code>" + (a + BlockMarker(n) + c) + "</code></p>"
  {
    var code := a + BlockMarker(n) + c;
    BlockMarkerWord(n);
    UnspecialWord(BlockMarker(n));
    UnspecialConcat(a, BlockMarker(n));
    UnspecialConcat(a + BlockMarker(n), c);
    EscapePlain(code);
  }

  lemma UnspecialWord(w: string)
    requires AllWordChars(w)
    ensures Unspecial(w)
  {
    forall k | 0 <= k < |w| ensures w[k] !in EscapeFacts.Specials {
      assert IsWordChar(w[k]);
    }
  }

  lemma UnspecialConcat(x: string, y: string)
    requires Unspecial(x) && Unspecial(y)
    ensures Unspecial(x + y)
  {
    forall k | 0 <= k < |x + y| ensures (x + y)[k] !in EscapeFacts.Specials {
      if k < |x| {
        assert (x + y)[k] == x[k];
      } else {
        assert (x + y)[k] == y[k - |x|];
      }
    }
  }

  /** The smallest such input. */
  lemma FenceInCodeSpanLeaks()
    ensures Render("`a ```\nb``` c`") == Some("<p><code>a ___CODEBLOCK_0___ c</code></p>")
  {
    LeakInstance("a ", "b", " c", "`a ```\nb``` c`", "<p><code>a ___CODEBLOCK_0___ c</code></p>");
  }

  /** The instance with its pieces named. */
  lemma LeakInstance(a: string, b: string, c: string, s: string, out: string)
    requires a == "a " && b == "b" && c == " c" && s == "`a ```\nb``` c`"
    requires out == "<p><code>a ___CODEBLOCK_0___ c</code></p>"
    ensures Render(s) == Some(out)
  {
    LeakText(a, b, c, s);
    FenceInPlainSpanLeaks(a, b, c, s);
    LeakOutput(a, c, out);
  }

  lemma LeakOutput(a: string, c: string, out: string)
    requires a == "a " && c == " c" && out == "<p><code>a ___CODEBLOCK_0___ c</code></p>"
    ensures "<p><code>" + (a + BlockMarker(0) + c) + "</code></p>" == out
  {
    var code := "a ___CODEBLOCK_0___ c";
    LeakCode(a, c, code);
    LeakWrapped(code, out);
  }

  lemma LeakCode(a: string, c: string, code: string)
    requires a == "a " && c == " c" && code == "a ___CODEBLOCK_0___ c"
    ensures a + BlockMarker(0) + c == code
  {
    ZeroMarkers();
  }

  lemma LeakWrapped(code: string, out: string)
    requires code == "a ___CODEBLOCK_0___ c" && out == "<p><code>a ___CODEBLOCK_0___ c</code></p>"
    ensures "<p><code>" + code + "</code></p>" == out
  {
  }

  lemma LeakText(a: string, b: string, c: string, s: string)
    requires a == "a " && b == "b" && c == " c" && s == "`a ```\nb``` c`"
    ensures FenceInSpanText(a, b, c, s) && Unspecial(a) && Unspecial(c)
  {
    assert s == "`" + a + "```\n" + b + "```" + c + "`";
  }
}

=== FILE: editing.dfy ===
/** The editor of src/components/PostEdit.jsx: splitting the stored markdown
    into title and body, the checks before saving, and the text, path, sha
    and preview of the saved post. */
module Editing {
  import opened Strings
  import opened Posts
  import opened PostIndex

  /** What the editor shows: the title line's text and the rest of the
      file, or the listed title and the whole file when there is no title
      line. */
  function SplitRaw(raw: string, listedTitle: string): (r: (string, string))
    ensures !StartsWith(raw, "# ") ==> r == (listedTitle, raw)
  {
    var lines := Split(raw, '\n');
    TitleLineIsTextStart(raw);
    if StartsWith(lines[0], "# ") then (Trim(lines[0][2..]), TrimStart(Join(lines[1..], "\n")))
    else (listedTitle, raw)
  }

  /** The editor and the index agree on the title of a file with a title
      line. */
  lemma EditorTitleIsIndexTitle(raw: string, listedTitle: string, name: string)
    requires StartsWith(raw, "# ")
    ensures SplitRaw(raw, listedTitle).0 == DeriveTitle(name, raw)
  {
    TitleLineIsTextStart(raw);
  }

  /** Joining the lines after the first gives back the text after the first
      line break. */
  lemma JoinTail(first: string, rest: string)
    requires '\n' !in first
    ensures Join(Split(first + "\n" + rest, '\n')[1..], "\n") == rest
  {
    SplitCons(first, '\n', rest);
    assert first + "\n" + rest == first + ['\n'] + rest;
    assert Split(first + "\n" + rest, '\n')[1..] == Split(rest, '\n');
  }

  /** A text with a title line is edited as the title line's trimmed text
      and everything after the first line break, without its leading white
      space. */
  lemma SplitTitled(first: string, rest: string, listedTitle: string)
    requires '\n' !in first && StartsWith(first, "# ")
    ensures SplitRaw(first + "\n" + rest, listedTitle) == (Trim(first[2..]), TrimStart(rest))
  {
    var raw := first + "\n" + rest;
    SplitCons(first, '\n', rest);
    assert raw == first + ['\n'] + rest;
    assert Split(raw, '\n')[0] == first;
    JoinTail(first, rest);
  }

  /** Round trip: splitting a saved text gives back the trimmed title and
      the body without its leading white space. */
  lemma SplitCompose(title: string, content: string, listedTitle: string)
    requires '\n' !in title
    ensures SplitRaw(Compose(title, content), listedTitle) == (Trim(title), TrimStart(content))
  {
    var raw := Compose(title, content);
    var first := "# " + title;
    SplitComposed(title, content);
    assert first[..2] == "# " && first[2..] == title;
    assert raw == first + "\n" + ("\n" + content);
    JoinTail(first, "\n" + content);
    var nl := "\n";
    assert forall i :: 0 <= i < |nl| ==> IsSpace(nl[i]);
    TrimStartAppend(nl, content);
  }

  /** The outcome of the checks in `handleSubmit`. */
  datatype EditCheck = BlankContent | IncompletePost | ReadyToSave

  /** A post the editor can save: it has a sha, a name and a directory. */
  predicate Complete(p: Post) {
    p.sha != [] && p.name != [] && p.sourceDir != []
  }

  /** The checks in `handleSubmit`, in source order; `target` is `None` when
      no post is being edited. */
  function CheckEdit(content: string, target: Option<Post>): (r: EditCheck)
    ensures r == ReadyToSave <==> !IsBlank(content) && target.Some? && Complete(target.value)
  {
    if IsBlank(content) then BlankContent
    else if target.None? || !Complete(target.value) then IncompletePost
    else ReadyToSave
  }

  /** The blank-content check comes first: it wins over a missing sha, name
      or directory. */
  lemma BlankContentFirst(content: string, target: Option<Post>)
    requires IsBlank(content)
    ensures CheckEdit(content, target) == BlankContent
  {
  }

  /** The repository path the edited file is saved to: its directory, a
      slash and its file name. */
  function FilePath(p: Post): string {
    p.sourceDir + "/" + p.name
  }

  /** The path splits at its slashes back into the directory and the file
      name when neither holds a slash. */
  lemma FilePathSplits(p: Post)
    requires '/' !in p.sourceDir && '/' !in p.name
    ensures Split(FilePath(p), '/') == [p.sourceDir, p.name]
  {
    assert FilePath(p) == p.sourceDir + ['/'] + p.name;
    SplitCons(p.sourceDir, '/', p.name);
    SplitNoSeparator(p.name, '/');
  }

  /** The preview the editor hands back: the first 150 characters of the
      body and `...`. */
  function EditPreview(content: string): (r: string)
    ensures |r| <= PreviewLength + 3 && EndsWith(r, "...")
    ensures StartsWith(content, r[..|r| - 3])
    ensures |content| <= PreviewLength ==> r == content + "..."
    ensures |content| > PreviewLength ==> r == content[..PreviewLength] + "..."
  {
    Clip(content)
  }

  /** The sha of the saved file: the new sha of the response if it has one,
      else the sha of its content, else the sha the post had; an absent value
      is the empty string. */
  function NewSha(newSha: string, contentSha: string, oldSha: string): (r: string)
    ensures r == newSha || r == contentSha || r == oldSha
    ensures r == [] <==> newSha == [] && contentSha == [] && oldSha == []
    ensures newSha != [] ==> r == newSha
  {
    if newSha != [] then newSha else if contentSha != [] then contentSha else oldSha
  }

  /** The post handed to `onUpdateSuccess`. */
  function Edited(p: Post, title: string, content: string, newSha: string, contentSha: string): (r: Post)
    ensures r.path == p.path && r.name == p.name && r.sourceDir == p.sourceDir && r.date == p.date
    ensures r.title == title && r.preview == EditPreview(content)
    ensures r.sha == NewSha(newSha, contentSha, p.sha) && r.kind == p.kind
    ensures Complete(p) ==> Complete(r)
  {
    p.(title := title, preview := EditPreview(content), sha := NewSha(newSha, contentSha, p.sha))
  }

  /** Saving an edited post of the list puts the edited post in the list in
      place of every post with its path. */
  lemma EditedReplacesOriginal(ps: seq<Post>, p: Post, title: string, content: string, newSha: string, contentSha: string)
    requires p in ps
    ensures var e := Edited(p, title, content, newSha, contentSha);
      e in ApplyUpdate(ps, e) && |ApplyUpdate(ps, e)| == |ps|
      && forall q :: q in ApplyUpdate(ps, e) && q != e ==> q.path != p.path
  {
    var e := Edited(p, title, content, newSha, contentSha);
    UpdateMerges(ps, e, e);
    forall q | q in ApplyUpdate(ps, e) && q != e ensures q.path != p.path {
      UpdateMerges(ps, e, q);
    }
  }
}

=== FILE: escape.dfy ===
/** The HTML escape applied to code when placeholders are resolved
    (src/utils/markdownParser.js:105-110 and 116-121): five global replaces,
    `&` first. The chain is shown equal to one character-by-character encoding,
    which has an inverse, so every character is escaped exactly once. */
module EscapeFacts {
  import opened Strings
  import opened Passes
  import opened Markdown

  /** Replacing every `c` by `t`, one character at a time. */
  function Substitute(c: char, t: string, s: string): (r: string)
  {
    if s == [] then [] else (if s[0] == c then t else [s[0]]) + Substitute(c, t, s[1..])
  }

  lemma {:induction false} SubstituteAppend(c: char, t: string, a: string, b: string)
    ensures Substitute(c, t, a + b) == Substitute(c, t, a) + Substitute(c, t, b)
  {
    if a == [] {
      assert a + b == b;
    } else {
      assert (a + b)[1..] == a[1..] + b;
      SubstituteAppend(c, t, a[1..], b);
    }
  }

  lemma {:induction false} SubstituteAbsent(c: char, t: string, s: string)
    requires c !in s
    ensures Substitute(c, t, s) == s
  {
    if s != [] {
      SubstituteAbsent(c, t, s[1..]);
    }
  }

  lemma SubstituteSingle(c: char, t: string, x: char)
    ensures Substitute(c, t, [x]) == if x == c then t else [x]
  {
    assert [x][1..] == [];
  }

  /** A global replace of a one-character text is the character map. */
  lemma {:induction false} LiteralCharFrom(c: char, t: string, s: string, p: nat)
    requires p <= |s|
    ensures ReplaceFrom(Literal([c], t), s, p) == Substitute(c, t, s[p..])
    decreases |s| - p
  {
    if p < |s| {
      LiteralCharFrom(c, t, s, p + 1);
      assert s[p..][1..] == s[p + 1..];
      assert s[p..][0] == s[p];
    }
  }

  lemma LiteralChar(c: char, t: string, s: string)
    ensures ReplaceAll(Literal([c], t), s) == Substitute(c, t, s)
  {
    LiteralCharFrom(c, t, s, 0);
  }

  /** Several one-character replaces in a row, as `.replace(...).replace(...)`. */
  function Chain(cs: seq<char>, ts: seq<string>, s: string): string
    requires |cs| == |ts|
  {
    if cs == [] then s else Chain(cs[1..], ts[1..], Substitute(cs[0], ts[0], s))
  }

  function CharRules(cs: seq<char>, ts: seq<string>): (rules: seq<Rule>)
    requires |cs| == |ts|
    ensures |rules| == |cs|
    ensures forall i :: 0 <= i < |cs| ==> rules[i] == Literal([cs[i]], ts[i])
  {
    seq(|cs|, i requires 0 <= i < |cs| => Literal([cs[i]], ts[i]))
  }

  lemma {:induction false} ApplyCharRules(cs: seq<char>, ts: seq<string>, s: string)
    requires |cs| == |ts|
    ensures ApplyAll(CharRules(cs, ts), s) == Chain(cs, ts, s)
  {
    if cs != [] {
      LiteralChar(cs[0], ts[0], s);
      assert CharRules(cs, ts)[1..] == CharRules(cs[1..], ts[1..]);
      ApplyCharRules(cs[1..], ts[1..], Substitute(cs[0], ts[0], s));
    }
  }

  lemma {:induction false} ChainAppend(cs: seq<char>, ts: seq<string>, a: string, b: string)
    requires |cs| == |ts|
    ensures Chain(cs, ts, a + b) == Chain(cs, ts, a) + Chain(cs, ts, b)
  {
    if cs != [] {
      SubstituteAppend(cs[0], ts[0], a, b);
      ChainAppend(cs[1..], ts[1..], Substitute(cs[0], ts[0], a), Substitute(cs[0], ts[0], b));
    }
  }

  lemma {:induction false} ChainAbsent(cs: seq<char>, ts: seq<string>, u: string)
    requires |cs| == |ts|
    requires forall j :: 0 <= j < |cs| ==> cs[j] !in u
    requires forall i, j :: 0 <= i < j < |cs| ==> cs[j] !in ts[i]
    ensures Chain(cs, ts, u) == u
  {
    if cs != [] {
      SubstituteAbsent(cs[0], ts[0], u);
      ChainAbsent(cs[1..], ts[1..], u);
    }
  }

  /** When no replacement text contains a character replaced later, a
      character is turned into the text of the first step naming it, and that
      text survives the remaining steps. */
  lemma {:induction false} ChainChar(cs: seq<char>, ts: seq<string>, x: char)
    requires |cs| == |ts|
    requires forall i, j :: 0 <= i < j < |cs| ==> cs[j] !in ts[i]
    ensures x !in cs ==> Chain(cs, ts, [x]) == [x]
    ensures forall i :: 0 <= i < |cs| && cs[i] == x && x !in cs[..i] ==> Chain(cs, ts, [x]) == ts[i]
  {
    if cs != [] {
      SubstituteSingle(cs[0], ts[0], x);
      if cs[0] == x {
        ChainAbsent(cs[1..], ts[1..], ts[0]);
      } else {
        ChainChar(cs[1..], ts[1..], x);
        forall i | 0 <= i < |cs| && cs[i] == x && x !in cs[..i]
          ensures Chain(cs, ts, [x]) == ts[i]
        {
          assert cs[1..][i - 1] == cs[i];
          assert cs[1..][..i - 1] == cs[1..i];
        }
      }
    }
  }

  const Specials: seq<char> := ['&', '<', '>', '"', '\'']
  const Entities: seq<string> := ["&amp;", "&lt;", "&gt;", "&quot;", "&#039;"]

  /** The entity each character becomes. */
  function EscapeChar(x: char): string {
    if x == '&' then "&amp;"
    else if x == '<' then "&lt;"
    else if x == '>' then "&gt;"
    else if x == '"' then "&quot;"
    else if x == '\'' then "&#039;"
    else [x]
  }

  /** The reference encoding: every character mapped on its own. */
  function EscapeRef(s: string): (r: string)
    ensures '<' !in r && '>' !in r && '"' !in r && '\'' !in r
  {
    if s == [] then [] else EscapeChar(s[0]) + EscapeRef(s[1..])
  }

  lemma ChainEscapeChar(x: char)
    ensures Chain(Specials, Entities, [x]) == EscapeChar(x)
  {
    assert forall i, j :: 0 <= i < j < |Specials| ==> Specials[j] !in Entities[i];
    ChainChar(Specials, Entities, x);
    if x == '&' { assert Specials[0] == x && x !in Specials[..0]; }
    else if x == '<' { assert Specials[1] == x && x !in Specials[..1]; }
    else if x == '>' { assert Specials[2] == x && x !in Specials[..2]; }
    else if x == '"' { assert Specials[3] == x && x !in Specials[..3]; }
    else if x == '\'' { assert Specials[4] == x && x !in Specials[..4]; }
  }

  lemma {:induction false} ChainIsRef(s: string)
    ensures Chain(Specials, Entities, s) == EscapeRef(s)
  {
    if s != [] {
      assert s == [s[0]] + s[1..];
      ChainAppend(Specials, Entities, [s[0]], s[1..]);
      ChainEscapeChar(s[0]);
      ChainIsRef(s[1..]);
    } else {
      assert forall i, j :: 0 <= i < j < |Specials| ==> Specials[j] !in Entities[i];
      ChainAbsent(Specials, Entities, s);
    }
  }

  /** The five chained replaces, `&` first, equal the per-character encoding. */
  lemma EscapeIsRef(s: string)
    ensures Escape(s) == EscapeRef(s)
  {
    assert EscapeRules == CharRules(Specials, Entities);
    ApplyCharRules(Specials, Entities, s);
    ChainIsRef(s);
  }

  /** Escaped code contains none of `<`, `>`, `"`, `'`. */
  lemma EscapeRemovesSpecials(s: string)
    ensures '<' !in Escape(s) && '>' !in Escape(s) && '"' !in Escape(s) && '\'' !in Escape(s)
  {
    EscapeIsRef(s);
  }

  /** Decoding the five entities; any other `&` stands for itself. */
  function Unescape(s: string): string
    decreases |s|
  {
    if s == [] then []
    else if StartsWith(s, "&amp;") then "&" + Unescape(s[5..])
    else if StartsWith(s, "&lt;") then "<" + Unescape(s[4..])
    else if StartsWith(s, "&gt;") then ">" + Unescape(s[4..])
    else if StartsWith(s, "&quot;") then "\"" + Unescape(s[6..])
    else if StartsWith(s, "&#039;") then "'" + Unescape(s[6..])
    else [s[0]] + Unescape(s[1..])
  }

  lemma UnescapeEntity(x: char, e: string, rest: string)
    requires e == EscapeChar(x) && e != [x]
    ensures Unescape(e + rest) == [x] + Unescape(rest)
  {
    var w := e + rest;
    assert w[..|e|] == e && w[|e|..] == rest;
    assert w[0] == '&' && w[1] == e[1];
  }

  lemma UnescapePlain(x: char, rest: string)
    requires x != '&'
    ensures Unescape([x] + rest) == [x] + Unescape(rest)
  {
    var w := [x] + rest;
    assert w[0] == x;
    assert !StartsWith(w, "&amp;") && !StartsWith(w, "&lt;") && !StartsWith(w, "&gt;");
    assert !StartsWith(w, "&quot;") && !StartsWith(w, "&#039;");
    assert w[1..] == rest;
  }

  lemma UnescapeChar(x: char, rest: string)
    ensures Unescape(EscapeChar(x) + rest) == [x] + Unescape(rest)
  {
    var e := EscapeChar(x);
    if e == [x] {
      UnescapePlain(x, rest);
    } else {
      UnescapeEntity(x, e, rest);
    }
  }

  /** Round trip: the encoding loses nothing and never escapes an entity twice. */
  lemma {:induction false} EscapeRoundTrip(s: string)
    ensures Unescape(Escape(s)) == s
  {
    EscapeIsRef(s);
    RefRoundTrip(s);
  }

  lemma {:induction false} RefRoundTrip(s: string)
    ensures Unescape(EscapeRef(s)) == s
  {
    if s != [] {
      var rest := EscapeRef(s[1..]);
      assert EscapeRef(s) == EscapeChar(s[0]) + rest;
      UnescapeChar(s[0], rest);
      RefRoundTrip(s[1..]);
      assert s == [s[0]] + s[1..];
    }
  }

  /** Inline code and fenced code use the same escape. */
  lemma InlineHtmlEscapes(code: string)
    ensures InlineHtml(code) == "<code>" + EscapeRef(code) + "</code>"
  {
    EscapeIsRef(code);
  }
}

=== FILE: headings.dfy ===
/** The heading extractor of the post view (src/components/PostView.jsx:52-74):
    the rendered `h1`, `h2` and `h3` elements are visited in document order;
    each one's trimmed text is turned into a slug, repeated slugs get a
    numeric suffix from a counter created fresh for every call, the id is
    set on the element and an outline entry `{id, text, level}` is emitted.
    The rendered document is given as its heading elements in order, each
    with the digit of its tag and its text content. */
module Headings {
  import opened Strings

  type TagLevel = k: nat | 1 <= k <= 6 witness 1

  /** A heading element: the digit of its tag (`h1` .. `h6`) and its text. */
  datatype Element = Element(level: TagLevel, content: string)

  datatype HeadingEntry = HeadingEntry(id: string, text: string, level: nat)

  /** The outline and, for every element, the id set on it (`None` for the
      `h4`-`h6` elements the selector skips). */
  datatype Extraction = Extraction(outline: seq<HeadingEntry>, anchors: seq<Option<string>>)

  // ---------------------------------------------------------------------
  // Slugs

  /** `[a-zA-Z0-9가-힣\s-]`, the characters the first replace keeps. */
  predicate KeptChar(c: char) {
    IsAsciiAlnum(c) || IsHangulSyllable(c) || IsSpace(c) || c == '-'
  }

  /** The characters a slug is made of. */
  predicate SlugChar(c: char) {
    IsDigit(c) || IsAsciiLower(c) || IsHangulSyllable(c) || c == '-'
  }

  predicate IsSlug(s: string) {
    forall i :: 0 <= i < |s| ==> SlugChar(s[i])
  }

  /** The first step of the slug: every character outside
      `[a-zA-Z0-9가-힣\s-]` is dropped. */
  function KeepChars(s: string): (r: string)
    ensures forall i :: 0 <= i < |r| ==> KeptChar(r[i])
    ensures |r| <= |s|
  {
    if s == [] then []
    else if KeptChar(s[0]) then [s[0]] + KeepChars(s[1..])
    else KeepChars(s[1..])
  }

  /** Only kept characters survive collapsing. */
  lemma {:induction false} CollapseKeeps(s: string)
    requires forall i :: 0 <= i < |s| ==> KeptChar(s[i])
    ensures forall i :: 0 <= i < |CollapseSpaces(s)| ==> KeptChar(CollapseSpaces(s)[i])
    decreases |s|
  {
    if s != [] {
      if IsSpace(s[0]) {
        var t := TrimStart(s);
        assert forall i :: 0 <= i < |t| ==> t[i] == s[LeadingSpaces(s) + i];
        CollapseKeeps(t);
      } else {
        CollapseKeeps(s[1..]);
      }
    }
  }

  /** The id base of a heading text: special characters removed, white-space
      runs turned into `-`, lower-cased. */
  function Slug(text: string): (r: string)
    ensures IsSlug(r) && NoSpace(r)
  {
    var kept := KeepChars(text);
    var collapsed := CollapseSpaces(kept);
    CollapseKeeps(kept);
    ToLowerAscii(collapsed)
  }

  lemma {:induction false} KeepSlugChars(s: string)
    requires IsSlug(s)
    ensures KeepChars(s) == s
  {
    if s != [] {
      KeepSlugChars(s[1..]);
    }
  }

  /** A slug is its own slug. */
  lemma SlugOfSlug(s: string)
    requires IsSlug(s)
    ensures Slug(s) == s
  {
    KeepSlugChars(s);
    assert NoSpace(s);
    CollapseNoSpace(s);
    assert ToLowerAscii(s) == s;
  }

  /** Slugging a slug changes nothing. */
  lemma SlugIdempotent(text: string)
    ensures Slug(Slug(text)) == Slug(text)
  {
    SlugOfSlug(Slug(text));
  }

  lemma {:induction false} KeepKeptChars(s: string)
    requires forall i :: 0 <= i < |s| ==> KeptChar(s[i])
    ensures KeepChars(s) == s
  {
    if s != [] {
      KeepKeptChars(s[1..]);
    }
  }

  /** A word of ASCII letters and digits becomes its lower-case form. */
  lemma SlugOfWord(s: string)
    requires forall i :: 0 <= i < |s| ==> IsAsciiAlnum(s[i])
    ensures Slug(s) == ToLowerAscii(s)
  {
    KeepKeptChars(s);
    assert NoSpace(s);
    CollapseNoSpace(s);
  }

  // ---------------------------------------------------------------------
  // The loop

  /** A visited heading: its level, its trimmed text and its slug. */
  datatype Labeled = Labeled(level: nat, text: string, base: string)

  /** What the loop body computes from an element before touching the
      counter; `None` for the `h4`-`h6` elements the selector `h1, h2, h3`
      skips. */
  function Label(e: Element): (r: Option<Labeled>)
    ensures r.Some? <==> e.level <= 3
  {
    if e.level <= 3 then Some(Labeled(e.level, Trim(e.content), Slug(Trim(e.content)))) else None
  }

  function Labels(elems: seq<Element>): (r: seq<Option<Labeled>>)
    ensures |r| == |elems| && forall i :: 0 <= i < |elems| ==> r[i] == Label(elems[i])
  {
    seq(|elems|, i requires 0 <= i < |elems| => Label(elems[i]))
  }

  /** `headingCounter`: how often each slug has been seen so far. */
  type Counter = map<string, nat>

  /** One heading's id: the first sighting of a slug keeps it, later ones get
      `-` and the new count; the suffixed id itself is never counted. */
  function Assign(base: string, counter: Counter): (r: (string, Counter))
  {
    if base in counter && counter[base] != 0 then
      var n := counter[base] + 1;
      (base + "-" + Decimal(n), counter[base := n])
    else
      (base, counter[base := 1])
  }

  /** The `forEach` loop over the first `|ls|` elements: the extraction so
      far and the counter. */
  function Walk(ls: seq<Option<Labeled>>): (r: (Extraction, Counter))
    ensures |r.0.anchors| == |ls|
  {
    if ls == [] then (Extraction([], []), map[])
    else
      var prev := Walk(ls[..|ls| - 1]);
      match ls[|ls| - 1]
      case Some(h) =>
        var (id, counter) := Assign(h.base, prev.1);
        (Extraction(prev.0.outline + [HeadingEntry(id, h.text, h.level)], prev.0.anchors + [Some(id)]), counter)
      case None =>
        (Extraction(prev.0.outline, prev.0.anchors + [None]), prev.1)
  }

  /** One call of the extractor, with a fresh counter. */
  function Extract(elems: seq<Element>): Extraction {
    Walk(Labels(elems)).0
  }

  // ---------------------------------------------------------------------
  // The reference: counting earlier headings

  /** The visited headings in document order. */
  function Visited(ls: seq<Option<Labeled>>): (r: seq<Labeled>)
    ensures |r| <= |ls|
  {
    if ls == [] then []
    else
      var init := Visited(ls[..|ls| - 1]);
      match ls[|ls| - 1]
      case Some(h) => init + [h]
      case None => init
  }

  function Bases(hs: seq<Labeled>): (r: seq<string>)
    ensures |r| == |hs|
    ensures forall i :: 0 <= i < |hs| ==> r[i] == hs[i].base
  {
    seq(|hs|, i requires 0 <= i < |hs| => hs[i].base)
  }

  function Occurrences(xs: seq<string>, x: string): nat {
    if xs == [] then 0
    else Occurrences(xs[..|xs| - 1], x) + (if xs[|xs| - 1] == x then 1 else 0)
  }

  /** The id the k-th sighting of a slug gets (k counted from 1). */
  function Suffixed(base: string, k: nat): string {
    if k <= 1 then base else base + "-" + Decimal(k)
  }

  /** The id of the i-th visited heading: its slug, suffixed with the number
      of sightings of that slug up to and including it. */
  function IdAt(bases: seq<string>, i: nat): string
    requires i < |bases|
  {
    Suffixed(bases[i], Occurrences(bases[..i + 1], bases[i]))
  }

  /** The counter holds, for every slug, how often it has been seen. */
  ghost predicate Counts(counter: Counter, bases: seq<string>) {
    forall b :: (b in counter ==> counter[b] == Occurrences(bases, b) && counter[b] > 0)
      && (b !in counter ==> Occurrences(bases, b) == 0)
  }

  lemma AssignCounts(base: string, counter: Counter, bases: seq<string>)
    requires Counts(counter, bases)
    ensures Assign(base, counter).0 == Suffixed(base, Occurrences(bases, base) + 1)
    ensures Counts(Assign(base, counter).1, bases + [base])
  {
    var bs := bases + [base];
    assert bs[..|bs| - 1] == bases;
    forall b | true
      ensures Occurrences(bs, b) == Occurrences(bases, b) + (if b == base then 1 else 0)
    {
    }
  }

  ghost predicate OutlineOk(outline: seq<HeadingEntry>, hs: seq<Labeled>) {
    |outline| == |hs|
    && forall i :: 0 <= i < |hs| ==>
         outline[i] == HeadingEntry(IdAt(Bases(hs), i), hs[i].text, hs[i].level)
  }

  lemma IdAtPrefix(bases: seq<string>, x: string, i: nat)
    requires i < |bases|
    ensures IdAt(bases + [x], i) == IdAt(bases, i)
  {
    assert (bases + [x])[..i + 1] == bases[..i + 1];
  }

  lemma IdAtLast(bases: seq<string>, x: string)
    ensures IdAt(bases + [x], |bases|) == Suffixed(x, Occurrences(bases, x) + 1)
  {
    var bs := bases + [x];
    assert bs[..|bases| + 1] == bs;
    assert bs[..|bs| - 1] == bases;
  }

  lemma OutlineSnoc(outline: seq<HeadingEntry>, hs: seq<Labeled>, h: Labeled, id: string)
    requires OutlineOk(outline, hs)
    requires id == Suffixed(h.base, Occurrences(Bases(hs), h.base) + 1)
    ensures OutlineOk(outline + [HeadingEntry(id, h.text, h.level)], hs + [h])
  {
    var qs := hs + [h];
    var out := outline + [HeadingEntry(id, h.text, h.level)];
    var bs := Bases(hs);
    assert Bases(qs) == bs + [h.base];
    forall i | 0 <= i < |qs|
      ensures out[i] == HeadingEntry(IdAt(Bases(qs), i), qs[i].text, qs[i].level)
    {
      if i < |hs| {
        IdAtPrefix(bs, h.base, i);
        assert out[i] == outline[i] && qs[i] == hs[i];
      } else {
        IdAtLast(bs, h.base);
      }
    }
  }

  /** The loop's invariant: the outline so far is one entry per visited
      heading with the id `IdAt` gives, and the counter counts the slugs
      seen. */
  lemma {:induction false} WalkInvariant(ls: seq<Option<Labeled>>)
    ensures OutlineOk(Walk(ls).0.outline, Visited(ls))
    ensures Counts(Walk(ls).1, Bases(Visited(ls)))
  {
    if ls != [] {
      var init := ls[..|ls| - 1];
      WalkInvariant(init);
      var hs := Visited(init);
      match ls[|ls| - 1]
      case Some(h) =>
        assert Bases(hs + [h]) == Bases(hs) + [h.base];
        AssignCounts(h.base, Walk(init).1, Bases(hs));
        OutlineSnoc(Walk(init).0.outline, hs, h, Assign(h.base, Walk(init).1).0);
      case None =>
    }
  }

  // ---------------------------------------------------------------------
  // Properties

  /** The visited headings are the labels of the `h1`-`h3` elements, in
      document order. */
  function Picked(elems: seq<Element>): (r: seq<Element>)
    ensures forall i :: 0 <= i < |r| ==> r[i].level <= 3
  {
    if elems == [] then []
    else
      var init := Picked(elems[..|elems| - 1]);
      var e := elems[|elems| - 1];
      if e.level <= 3 then init + [e] else init
  }

  lemma {:induction false} VisitedArePicked(elems: seq<Element>)
    ensures |Visited(Labels(elems))| == |Picked(elems)|
    ensures forall i :: 0 <= i < |Picked(elems)| ==>
      Visited(Labels(elems))[i] == Label(Picked(elems)[i]).value
  {
    if elems != [] {
      var init := elems[..|elems| - 1];
      VisitedArePicked(init);
      assert Labels(elems)[..|elems| - 1] == Labels(init);
    }
  }

  /** One outline entry per `h1`-`h3` element, in document order, with the
      trimmed text and the tag's digit; the first sighting of a slug keeps it
      and the k-th becomes `slug-k`. */
  lemma OutlineEntries(elems: seq<Element>)
    ensures var ps := Picked(elems); var out := Extract(elems).outline;
      var bases := seq(|ps|, i requires 0 <= i < |ps| => Slug(Trim(ps[i].content)));
      |out| == |ps|
      && forall i :: 0 <= i < |ps| ==>
           out[i].text == Trim(ps[i].content) && out[i].level == ps[i].level
           && out[i].id == IdAt(bases, i)
  {
    WalkInvariant(Labels(elems));
    VisitedArePicked(elems);
    var ps := Picked(elems);
    var hs := Visited(Labels(elems));
    assert Bases(hs) == seq(|ps|, i requires 0 <= i < |ps| => Slug(Trim(ps[i].content)));
  }

  /** The ids set on the elements are the outline's ids, in order; elements
      the selector skips get none. */
  lemma {:induction false} AnchorsAreOutlineIds(ls: seq<Option<Labeled>>)
    ensures forall i :: 0 <= i < |ls| ==> (Walk(ls).0.anchors[i].Some? <==> ls[i].Some?)
    ensures AnchorIds(Walk(ls).0.anchors) == OutlineIds(Walk(ls).0.outline)
  {
    if ls != [] {
      var init := ls[..|ls| - 1];
      AnchorsAreOutlineIds(init);
      var r0 := Walk(init).0;
      match ls[|ls| - 1]
      case Some(h) =>
        var entry := HeadingEntry(Assign(h.base, Walk(init).1).0, h.text, h.level);
        assert Walk(ls).0 == Extraction(r0.outline + [entry], r0.anchors + [Some(entry.id)]);
        AnchorIdsSnoc(r0.anchors, Some(entry.id));
        OutlineIdsSnoc(r0.outline, entry);
      case None =>
        assert Walk(ls).0 == Extraction(r0.outline, r0.anchors + [None]);
        AnchorIdsSnoc(r0.anchors, None);
    }
  }

  function AnchorIds(anchors: seq<Option<string>>): seq<string> {
    if anchors == [] then []
    else
      var last := match anchors[|anchors| - 1] case Some(id) => [id] case None => [];
      AnchorIds(anchors[..|anchors| - 1]) + last
  }

  lemma AnchorIdsSnoc(anchors: seq<Option<string>>, a: Option<string>)
    ensures AnchorIds(anchors + [a]) == AnchorIds(anchors) + (match a case Some(id) => [id] case None => [])
  {
    assert (anchors + [a])[..|anchors|] == anchors;
  }

  function OutlineIds(outline: seq<HeadingEntry>): (r: seq<string>)
    ensures |r| == |outline| && forall i :: 0 <= i < |outline| ==> r[i] == outline[i].id
  {
    seq(|outline|, i requires 0 <= i < |outline| => outline[i].id)
  }

  lemma OutlineIdsSnoc(outline: seq<HeadingEntry>, h: HeadingEntry)
    ensures OutlineIds(outline + [h]) == OutlineIds(outline) + [h.id]
  {
  }

  lemma {:induction false} NonePicked(elems: seq<Element>)
    requires forall i :: 0 <= i < |elems| ==> elems[i].level > 3
    ensures Picked(elems) == []
  {
    if elems != [] {
      NonePicked(elems[..|elems| - 1]);
    }
  }

  /** Zero headings give an empty outline. */
  lemma NoHeadingsNoOutline(elems: seq<Element>)
    requires forall i :: 0 <= i < |elems| ==> elems[i].level > 3
    ensures Extract(elems).outline == []
  {
    OutlineEntries(elems);
    NonePicked(elems);
  }

  // ---------------------------------------------------------------------
  // Distinct ids

  lemma {:induction false} OccurrencesGrow(xs: seq<string>, x: string, a: nat, b: nat)
    requires a <= b <= |xs|
    ensures Occurrences(xs[..a], x) <= Occurrences(xs[..b], x)
    decreases b - a
  {
    if a < b {
      OccurrencesGrow(xs, x, a, b - 1);
      assert xs[..b][..b - 1] == xs[..b - 1];
    }
  }

  /** A later sighting of the same slug has a larger count. */
  lemma LaterSightingCountsMore(bases: seq<string>, j: nat, k: nat)
    requires j < k < |bases| && bases[j] == bases[k]
    ensures 1 <= Occurrences(bases[..j + 1], bases[j]) < Occurrences(bases[..k + 1], bases[k])
  {
    OccurrencesGrow(bases, bases[j], j + 1, k);
    assert bases[..j + 1][..j] == bases[..j];
    assert bases[..k + 1][..k] == bases[..k];
  }

  /** Position of the last `-`, or -1. */
  function LastDash(u: string): int {
    if u == [] then -1
    else if u[|u| - 1] == '-' then |u| - 1
    else LastDash(u[..|u| - 1])
  }

  lemma {:induction false} LastDashBeforeDigits(x: string, d: string)
    requires AllDigits(d)
    ensures LastDash(x + "-" + d) == |x|
  {
    var u := x + "-" + d;
    if d != [] {
      var d' := d[..|d| - 1];
      assert u[..|u| - 1] == x + "-" + d';
      assert u[|u| - 1] == d[|d| - 1];
      LastDashBeforeDigits(x, d');
    }
  }

  /** `x-n` determines `x` and `n`: decimal digits contain no `-`. */
  lemma SuffixSplit(x: string, y: string, n: nat, m: nat)
    requires x + "-" + Decimal(n) == y + "-" + Decimal(m)
    ensures x == y && n == m
  {
    var u := x + "-" + Decimal(n);
    var dn, dm := Decimal(n), Decimal(m);
    LastDashBeforeDigits(x, dn);
    LastDashBeforeDigits(y, dm);
    assert dn == u[|u| - |dn|..] == dm;
    assert x == u[..|x|] == y;
    DecimalRoundTrip(n);
    DecimalRoundTrip(m);
  }

  /** No slug is another slug followed by `-` and a count of two or more. */
  ghost predicate NoSuffixedSlug(bases: seq<string>) {
    forall j, k, n :: 0 <= j < |bases| && 0 <= k < |bases| && n >= 2 ==> bases[j] != bases[k] + "-" + Decimal(n)
  }

  /** The ids are pairwise distinct unless a slug looks like another slug
      with a count suffix, which is how "A", "A", "A 2" collide. */
  lemma DistinctIds(bases: seq<string>)
    requires NoSuffixedSlug(bases)
    ensures forall j, k :: 0 <= j < k < |bases| ==> IdAt(bases, j) != IdAt(bases, k)
  {
    forall j, k | 0 <= j < k < |bases| ensures IdAt(bases, j) != IdAt(bases, k) {
      var m1 := Occurrences(bases[..j + 1], bases[j]);
      var m2 := Occurrences(bases[..k + 1], bases[k]);
      if bases[j] == bases[k] {
        LaterSightingCountsMore(bases, j, k);
        if m1 >= 2 && IdAt(bases, j) == IdAt(bases, k) {
          SuffixSplit(bases[j], bases[k], m1, m2);
        }
        if m1 < 2 {
          assert |IdAt(bases, j)| < |IdAt(bases, k)|;
        }
      } else if m1 >= 2 && m2 >= 2 && IdAt(bases, j) == IdAt(bases, k) {
        SuffixSplit(bases[j], bases[k], m1, m2);
      }
    }
  }

  /** The slugs of the visited headings, in document order. */
  function PickedBases(elems: seq<Element>): (r: seq<string>)
    ensures |r| == |Picked(elems)|
  {
    var ps := Picked(elems);
    seq(|ps|, i requires 0 <= i < |ps| => Slug(Trim(ps[i].content)))
  }

  /** In a document where no slug is another slug with a count suffix, every
      outline entry has its own id. */
  lemma ExtractIdsDistinct(elems: seq<Element>)
    requires NoSuffixedSlug(PickedBases(elems))
    ensures var out := Extract(elems).outline;
      forall j, k :: 0 <= j < k < |out| ==> out[j].id != out[k].id
  {
    OutlineEntries(elems);
    DistinctIds(PickedBases(elems));
  }

  // ---------------------------------------------------------------------
  // Worked documents

  lemma {:induction false} AllPicked(elems: seq<Element>)
    requires forall i :: 0 <= i < |elems| ==> elems[i].level <= 3
    ensures Picked(elems) == elems
  {
    if elems != [] {
      AllPicked(elems[..|elems| - 1]);
    }
  }

  lemma SlugOfIntro()
    ensures Slug("Intro") == "intro"
  {
    SlugOfWord("Intro");
    assert ToLowerAscii("Intro") == "intro";
  }

  lemma SlugOfA()
    ensures Slug("A") == "a"
    ensures Slug("A 2") == "a-2"
  {
    SlugOfWord("A");
    assert ToLowerAscii("A") == "a";
    KeepKeptChars("A 2");
    assert CollapseSpaces("A 2") == "A-2";
    assert ToLowerAscii("A-2") == "a-2";
  }

  /** The ids the reference assigns to a run of slugs. */
  function IdsOf(bases: seq<string>): (r: seq<string>)
    ensures |r| == |bases| && forall i :: 0 <= i < |bases| ==> r[i] == IdAt(bases, i)
  {
    seq(|bases|, i requires 0 <= i < |bases| => IdAt(bases, i))
  }

  lemma OutlineIdsAre(elems: seq<Element>)
    ensures OutlineIds(Extract(elems).outline) == IdsOf(PickedBases(elems))
  {
    OutlineEntries(elems);
  }

  lemma IntroBases()
    ensures PickedBases([Element(2, "Intro"), Element(3, "Intro")]) == ["intro", "intro"]
  {
    var elems := [Element(2, "Intro"), Element(3, "Intro")];
    AllPicked(elems);
    TrimOfTrimmed("Intro");
    SlugOfIntro();
  }

  lemma IntroIds()
    ensures IdsOf(["intro", "intro"]) == ["intro", "intro-2"]
  {
    var bases := ["intro", "intro"];
    assert bases[..1][..0] == [];
    assert Occurrences(bases[..1], "intro") == 1;
    assert bases[..2][..1] == bases[..1];
    assert Occurrences(bases[..2], "intro") == 2;
    assert Decimal(2) == "2";
    assert IdAt(bases, 0) == "intro";
    assert IdAt(bases, 1) == "intro-2";
  }

  /** A repeated heading gets `-2`. */
  lemma TwoIntros()
    ensures OutlineIds(Extract([Element(2, "Intro"), Element(3, "Intro")]).outline) == ["intro", "intro-2"]
  {
    OutlineIdsAre([Element(2, "Intro"), Element(3, "Intro")]);
    IntroBases();
    IntroIds();
  }

  lemma ABases()
    ensures PickedBases([Element(1, "A"), Element(1, "A"), Element(1, "A 2")]) == ["a", "a", "a-2"]
  {
    var elems := [Element(1, "A"), Element(1, "A"), Element(1, "A 2")];
    AllPicked(elems);
    TrimOfTrimmed("A");
    TrimOfTrimmed("A 2");
    SlugOfA();
  }

  lemma AIds()
    ensures IdsOf(["a", "a", "a-2"]) == ["a", "a-2", "a-2"]
  {
    var bases := ["a", "a", "a-2"];
    assert bases[..1][..0] == [];
    assert Occurrences(bases[..1], "a") == 1;
    assert bases[..2][..1] == bases[..1];
    assert Occurrences(bases[..2], "a") == 2;
    assert bases[..3][..2] == bases[..2];
    assert bases[..2][..1] == bases[..1];
    assert Occurrences(bases[..1], "a-2") == 0;
    assert Occurrences(bases[..2], "a-2") == 0;
    assert Occurrences(bases[..3], "a-2") == 1;
    assert Decimal(2) == "2";
    assert IdAt(bases, 0) == "a";
    assert IdAt(bases, 1) == "a-2";
    assert IdAt(bases, 2) == "a-2";
  }

  /** Ids can repeat: the third heading's own slug is the suffixed id of the
      second, and the suffixed id is never counted. */
  lemma DuplicateIdsPossible()
    ensures OutlineIds(Extract([Element(1, "A"), Element(1, "A"), Element(1, "A 2")]).outline) == ["a", "a-2", "a-2"]
  {
    OutlineIdsAre([Element(1, "A"), Element(1, "A"), Element(1, "A 2")]);
    ABases();
    AIds();
  }

  /** The first sighting of a slug keeps it, whatever the slug is. */
  lemma FirstSightingKeepsSlug(elems: seq<Element>, i: nat)
    requires i < |PickedBases(elems)|
    requires forall j :: 0 <= j < i ==> PickedBases(elems)[j] != PickedBases(elems)[i]
    ensures var out := Extract(elems).outline; i < |out| && out[i].id == PickedBases(elems)[i]
  {
    OutlineEntries(elems);
    var bases := PickedBases(elems);
    assert Occurrences(bases[..i], bases[i]) == 0 by {
      OccurrencesAbsent(bases[..i], bases[i]);
    }
    assert bases[..i + 1][..i] == bases[..i];
  }

  lemma {:induction false} OccurrencesAbsent(xs: seq<string>, x: string)
    requires forall j :: 0 <= j < |xs| ==> xs[j] != x
    ensures Occurrences(xs, x) == 0
  {
    if xs != [] {
      OccurrencesAbsent(xs[..|xs| - 1], x);
    }
  }

  // ---------------------------------------------------------------------
  // The counter as written: a plain object literal

  /** What `headingCounter[id]` reads: a number the loop stored, `NaN`, or
      a property every object literal inherits from `Object.prototype`. A
      key the loop never stored and that is not inherited reads
      `undefined`, which behaves like `Count(0)` below. */
  datatype Slot = Count(n: nat) | NotANumber | Inherited

  /** `{}` inherits `constructor`; the other inherited property names all
      contain an upper-case letter or `_`, which no slug does. */
  function Lookup(counter: map<string, Slot>, key: string): Slot {
    if key in counter then counter[key]
    else if key == "constructor" then Inherited
    else Count(0)
  }

  /** JavaScript truthiness of the slot: `0` and `NaN` are falsy, a function
      is truthy. */
  predicate Truthy(v: Slot) {
    match v
    case Count(n) => n != 0
    case NotANumber => false
    case Inherited => true
  }

  /** `++` on the slot: a function converts to `NaN`. */
  function Increment(v: Slot): Slot {
    match v
    case Count(n) => Count(n + 1)
    case _ => NotANumber
  }

  /** The slot inside a template literal. */
  function Show(v: Slot): string {
    match v
    case Count(n) => Decimal(n)
    case NotANumber => "NaN"
    case Inherited => "function Object() { [native code] }"
  }

  function AssignAsWritten(base: string, counter: map<string, Slot>): (string, map<string, Slot>) {
    var cur := Lookup(counter, base);
    if Truthy(cur) then
      var next := Increment(cur);
      (base + "-" + Show(next), counter[base := next])
    else
      (base, counter[base := Count(1)])
  }

  function WalkAsWritten(ls: seq<Option<Labeled>>): (r: (Extraction, map<string, Slot>))
    ensures |r.0.anchors| == |ls|
  {
    if ls == [] then (Extraction([], []), map[])
    else
      var prev := WalkAsWritten(ls[..|ls| - 1]);
      match ls[|ls| - 1]
      case Some(h) =>
        var (id, counter) := AssignAsWritten(h.base, prev.1);
        (Extraction(prev.0.outline + [HeadingEntry(id, h.text, h.level)], prev.0.anchors + [Some(id)]), counter)
      case None =>
        (Extraction(prev.0.outline, prev.0.anchors + [None]), prev.1)
  }

  /** The extractor exactly as written, with `let headingCounter = {}`. */
  function ExtractAsWritten(elems: seq<Element>): Extraction {
    WalkAsWritten(Labels(elems)).0
  }

  /** The two counters hold the same numbers. */
  ghost predicate SameCounts(counter: Counter, slots: map<string, Slot>) {
    (forall k :: k in counter <==> k in slots)
    && forall k :: k in counter ==> slots[k] == Count(counter[k])
  }

  /** Unless some heading's slug is `constructor`, the extractor as written
      and the corrected one agree. */
  lemma {:induction false} AsWrittenAgrees(ls: seq<Option<Labeled>>)
    requires forall i :: 0 <= i < |ls| && ls[i].Some? ==> ls[i].value.base != "constructor"
    ensures WalkAsWritten(ls).0 == Walk(ls).0
    ensures SameCounts(Walk(ls).1, WalkAsWritten(ls).1)
  {
    if ls != [] {
      var init := ls[..|ls| - 1];
      AsWrittenAgrees(init);
      match ls[|ls| - 1]
      case Some(h) =>
        assert h.base != "constructor";
      case None =>
    }
  }

  lemma LowerWordIsSlug(s: string)
    requires forall i :: 0 <= i < |s| ==> IsAsciiLower(s[i])
    ensures IsSlug(s)
  {
  }

  lemma SlugOfConstructor()
    ensures Slug("constructor") == "constructor"
  {
    LowerWordIsSlug("constructor");
    SlugOfSlug("constructor");
  }

  lemma ConstructorLabel(level: TagLevel)
    requires level <= 3
    ensures Label(Element(level, "constructor")) == Some(Labeled(level, "constructor", "constructor"))
  {
    TrimOfTrimmed("constructor");
    SlugOfConstructor();
  }

  /** A heading reading `constructor` gets the id `constructor-NaN` from the
      extractor as written: the lookup finds the inherited constructor
      function, which is truthy and increments to `NaN`. */
  lemma ConstructorNaN()
    ensures var out := ExtractAsWritten([Element(2, "constructor")]).outline; |out| == 1 && out[0].id == "constructor-NaN"
  {
    ConstructorLabels();
    ConstructorWalk(Labeled(2, "constructor", "constructor"));
  }

  lemma ConstructorLabels()
    ensures Labels([Element(2, "constructor")]) == [Some(Labeled(2, "constructor", "constructor"))]
  {
    ConstructorLabel(2);
  }

  lemma ConstructorWalk(h: Labeled)
    requires h.base == "constructor"
    ensures WalkAsWritten([Some(h)]).0.outline == [HeadingEntry("constructor-NaN", h.text, h.level)]
  {
    var ls := [Some(h)];
    assert ls[..0] == [];
    var empty: map<string, Slot> := map[];
    assert WalkAsWritten(ls[..0]) == (Extraction([], []), empty);
    assert Lookup(empty, h.base) == Inherited;
    assert Show(Increment(Inherited)) == "NaN";
    assert AssignAsWritten(h.base, empty).0 == "constructor-NaN";
  }

  /** The corrected extractor gives the same heading its own slug. */
  lemma ConstructorKeepsSlug()
    ensures var out := Extract([Element(2, "constructor")]).outline; |out| == 1 && out[0].id == "constructor"
  {
    ConstructorLabels();
    LoneHeadingKeepsSlug(Labeled(2, "constructor", "constructor"));
  }

  /** A lone heading keeps its slug. */
  lemma LoneHeadingKeepsSlug(h: Labeled)
    ensures Walk([Some(h)]).0.outline == [HeadingEntry(h.base, h.text, h.level)]
  {
    var ls := [Some(h)];
    assert ls[..0] == [];
    var empty: Counter := map[];
    assert Walk(ls[..0]) == (Extraction([], []), empty);
    assert Assign(h.base, empty).0 == h.base;
  }
}

=== FILE: index.dfy ===
/** The combined post list of src/App.jsx: de-duplication by sha or path,
    the stable sort by date, newest first, the merge of an edited post, and
    the page and selection state behind `handleNavigate`. */
module PostIndex {
  import opened Strings
  import opened Posts

  // ---------------------------------------------------------------------
  // De-duplication

  /** The key `fetchAllPosts` files a post under: its sha, or failing that
      its path; a post with neither is dropped. Both kinds of key share one
      `Map`. */
  function KeyOf(p: Post): Option<string> {
    if p.sha != [] then Some(p.sha) else if p.path != [] then Some(p.path) else None
  }

  /** The `forEach` over the combined list: the map's values in insertion
      order, and its key set. */
  function Dedup(ps: seq<Post>): (r: (seq<Post>, set<string>))
  {
    if ps == [] then ([], {})
    else
      var prev := Dedup(ps[..|ps| - 1]);
      var p := ps[|ps| - 1];
      match KeyOf(p)
      case Some(k) => if k in prev.1 then prev else (prev.0 + [p], prev.1 + {k})
      case None => prev
  }

  function Unique(ps: seq<Post>): seq<Post> {
    Dedup(ps).0
  }

  /** Reference: `ps[i]` is the first post carrying its key. */
  predicate FirstOfKey(ps: seq<Post>, i: nat)
    requires i < |ps|
  {
    KeyOf(ps[i]).Some? && forall j :: 0 <= j < i ==> KeyOf(ps[j]) != KeyOf(ps[i])
  }

  /** Reference: the first post of every key, in list order. */
  function Firsts(ps: seq<Post>): seq<Post> {
    if ps == [] then []
    else
      var init := Firsts(ps[..|ps| - 1]);
      if FirstOfKey(ps, |ps| - 1) then init + [ps[|ps| - 1]] else init
  }

  /** The keys of a list. */
  function KeySet(ps: seq<Post>): set<string> {
    if ps == [] then {}
    else KeySet(ps[..|ps| - 1]) + match KeyOf(ps[|ps| - 1]) case Some(k) => {k} case None => {}
  }

  lemma {:induction false} KeySetMembers(ps: seq<Post>, k: string)
    ensures k in KeySet(ps) <==> exists i :: 0 <= i < |ps| && KeyOf(ps[i]) == Some(k)
  {
    if ps != [] {
      var init := ps[..|ps| - 1];
      KeySetMembers(init, k);
      if k in KeySet(init) {
        var i :| 0 <= i < |init| && KeyOf(init[i]) == Some(k);
        assert ps[i] == init[i];
      }
      if i :| 0 <= i < |ps| && KeyOf(ps[i]) == Some(k) {
        if i < |init| {
          assert ps[i] == init[i];
        }
      }
    }
  }

  /** The last post is the first of its key iff its key is new. */
  lemma FirstOfKeyLast(ps: seq<Post>)
    requires ps != []
    ensures var n := |ps| - 1;
      FirstOfKey(ps, n) <==> (KeyOf(ps[n]).Some? && KeyOf(ps[n]).value !in KeySet(ps[..n]))
  {
    var n := |ps| - 1;
    var init := ps[..n];
    if KeyOf(ps[n]).Some? {
      var k := KeyOf(ps[n]).value;
      KeySetMembers(init, k);
      if k in KeySet(init) {
        var i :| 0 <= i < |init| && KeyOf(init[i]) == Some(k);
        assert KeyOf(ps[i]) == KeyOf(ps[n]);
      } else {
        forall j | 0 <= j < n ensures KeyOf(ps[j]) != KeyOf(ps[n]) {
          assert ps[j] == init[j];
        }
      }
    }
  }

  /** The loop's invariant: the map's keys are the keys met so far, and its
      values are the reference's first posts, one per key. */
  lemma {:induction false} DedupInvariant(ps: seq<Post>)
    ensures Dedup(ps).1 == KeySet(ps)
    ensures Dedup(ps).0 == Firsts(ps)
    ensures |Dedup(ps).0| == |Dedup(ps).1|
  {
    if ps != [] {
      DedupInvariant(ps[..|ps| - 1]);
      FirstOfKeyLast(ps);
    }
  }

  /** The reference keeps posts with keys, all of them distinct. */
  lemma {:induction false} FirstsDistinct(ps: seq<Post>)
    ensures forall i :: 0 <= i < |Firsts(ps)| ==> KeyOf(Firsts(ps)[i]).Some? && KeyOf(Firsts(ps)[i]).value in KeySet(ps)
    ensures forall i, j :: 0 <= i < j < |Firsts(ps)| ==> KeyOf(Firsts(ps)[i]) != KeyOf(Firsts(ps)[j])
  {
    if ps != [] {
      var n := |ps| - 1;
      var init := ps[..n];
      FirstsDistinct(init);
      FirstOfKeyLast(ps);
      var v := Firsts(init);
      var u := Firsts(ps);
      assert KeySet(init) <= KeySet(ps);
      if FirstOfKey(ps, n) {
        assert u == v + [ps[n]];
        assert KeyOf(ps[n]).value in KeySet(ps);
        forall i | 0 <= i < |v| ensures KeyOf(u[i]) != KeyOf(ps[n]) {
          assert u[i] == v[i];
          assert KeyOf(v[i]).value in KeySet(init);
        }
      } else {
        assert u == v;
      }
    }
  }

  /** The reference keeps a post for every key. */
  lemma {:induction false} FirstsCover(ps: seq<Post>, k: string)
    requires k in KeySet(ps)
    ensures exists j :: 0 <= j < |Firsts(ps)| && KeyOf(Firsts(ps)[j]) == Some(k)
  {
    var init := ps[..|ps| - 1];
    var u := Firsts(ps);
    FirstOfKeyLast(ps);
    if k in KeySet(init) {
      FirstsCover(init, k);
      var j :| 0 <= j < |Firsts(init)| && KeyOf(Firsts(init)[j]) == Some(k);
      assert u[j] == Firsts(init)[j];
    } else {
      assert KeyOf(u[|u| - 1]) == Some(k);
    }
  }

  /** De-duplication keeps exactly one post per key: every kept post has a
      key, no two kept posts share one, and every key of the combined list
      is kept, by its first post. */
  lemma UniqueKeys(ps: seq<Post>, k: string)
    ensures forall i :: 0 <= i < |Unique(ps)| ==> KeyOf(Unique(ps)[i]).Some?
    ensures forall i, j :: 0 <= i < j < |Unique(ps)| ==> KeyOf(Unique(ps)[i]) != KeyOf(Unique(ps)[j])
    ensures (exists i :: 0 <= i < |ps| && KeyOf(ps[i]) == Some(k))
      <==> (exists j :: 0 <= j < |Unique(ps)| && KeyOf(Unique(ps)[j]) == Some(k))
  {
    DedupInvariant(ps);
    FirstsDistinct(ps);
    KeySetMembers(ps, k);
    var u := Unique(ps);
    assert u == Firsts(ps);
    if k in KeySet(ps) {
      FirstsCover(ps, k);
      var j :| 0 <= j < |Firsts(ps)| && KeyOf(Firsts(ps)[j]) == Some(k);
      assert KeyOf(u[j]) == Some(k);
    }
  }

  // ---------------------------------------------------------------------
  // Sorting by date, newest first

  /** Places `p` before the first post that is not newer. */
  function Insert(p: Post, s: seq<Post>): (r: seq<Post>)
    ensures multiset(r) == multiset(s) + multiset{p}
  {
    if s == [] || p.date >= s[0].date then [p] + s
    else
      assert s == [s[0]] + s[1..];
      [s[0]] + Insert(p, s[1..])
  }

  predicate Descending(s: seq<Post>) {
    forall i, j :: 0 <= i < j < |s| ==> s[i].date >= s[j].date
  }

  /** The list ordered by date, latest first, with posts of equal date in
      their original order (the sort of JavaScript is stable); written as an
      insertion sort. */
  function SortByDate(ps: seq<Post>): (r: seq<Post>)
    ensures multiset(r) == multiset(ps)
    ensures |r| == |ps|
  {
    if ps == [] then []
    else
      assert ps == [ps[0]] + ps[1..];
      Insert(ps[0], SortByDate(ps[1..]))
  }

  lemma {:induction false} InsertDescending(p: Post, s: seq<Post>)
    requires Descending(s)
    ensures Descending(Insert(p, s))
  {
    if s != [] && p.date < s[0].date {
      InsertDescending(p, s[1..]);
      var r := Insert(p, s[1..]);
      forall i | 0 <= i < |r| ensures s[0].date >= r[i].date {
        assert r[i] in multiset(r);
        assert r[i] in multiset(s[1..]) + multiset{p};
        if r[i] != p {
          var k :| 0 <= k < |s[1..]| && s[1..][k] == r[i];
          assert s[k + 1] == r[i];
        }
      }
    }
  }

  lemma {:induction false} SortDescending(ps: seq<Post>)
    ensures Descending(SortByDate(ps))
  {
    if ps != [] {
      SortDescending(ps[1..]);
      InsertDescending(ps[0], SortByDate(ps[1..]));
    }
  }

  /** The posts of one date, in order. */
  function OfDate(s: seq<Post>, d: nat): seq<Post> {
    if s == [] then [] else (if s[0].date == d then [s[0]] else []) + OfDate(s[1..], d)
  }

  lemma OfDateCons(x: Post, t: seq<Post>, d: nat)
    ensures OfDate([x] + t, d) == (if x.date == d then [x] else []) + OfDate(t, d)
  {
    assert ([x] + t)[1..] == t;
  }

  lemma {:induction false} InsertOfDate(p: Post, s: seq<Post>, d: nat)
    ensures OfDate(Insert(p, s), d) == OfDate([p] + s, d)
  {
    if s != [] && p.date < s[0].date {
      var rest := OfDate(s[1..], d);
      var a := if s[0].date == d then [s[0]] else [];
      var b := if p.date == d then [p] else [];
      assert OfDate(Insert(p, s), d) == a + (b + rest) by {
        var t := Insert(p, s[1..]);
        assert Insert(p, s) == [s[0]] + t;
        OfDateCons(s[0], t, d);
        InsertOfDate(p, s[1..], d);
        OfDateCons(p, s[1..], d);
      }
      assert OfDate([p] + s, d) == b + (a + rest) by {
        assert [s[0]] + s[1..] == s;
        OfDateCons(s[0], s[1..], d);
        OfDateCons(p, s, d);
      }
      // At most one of the two posts has date `d`.
      assert a + (b + rest) == b + (a + rest) by {
        if p.date == d {
          assert a == [];
        } else {
          assert b == [];
        }
      }
    }
  }

  /** Stability: the posts of every date keep their relative order. */
  lemma {:induction false} SortStable(ps: seq<Post>, d: nat)
    ensures OfDate(SortByDate(ps), d) == OfDate(ps, d)
  {
    if ps != [] {
      SortStable(ps[1..], d);
      InsertOfDate(ps[0], SortByDate(ps[1..]), d);
      assert ([ps[0]] + SortByDate(ps[1..]))[1..] == SortByDate(ps[1..]);
    }
  }

  /** `fetchAllPosts`: the union of both directories, de-duplicated and
      sorted. */
  function AllPosts(lists: seq<seq<Post>>): seq<Post> {
    SortByDate(Unique(Flatten(lists)))
  }

  function Flatten(lists: seq<seq<Post>>): seq<Post> {
    if lists == [] then [] else lists[0] + Flatten(lists[1..])
  }

  /** Every post of a directory list survives into the combined list, or
      another post with its key does. */
  lemma AllPostsKeepsKeys(lists: seq<seq<Post>>, k: string)
    ensures (exists i :: 0 <= i < |Flatten(lists)| && KeyOf(Flatten(lists)[i]) == Some(k))
      <==> (exists p :: p in AllPosts(lists) && KeyOf(p) == Some(k))
  {
    var u := Unique(Flatten(lists));
    UniqueKeys(Flatten(lists), k);
    var r := AllPosts(lists);
    assert multiset(r) == multiset(u);
    if j :| 0 <= j < |u| && KeyOf(u[j]) == Some(k) {
      assert u[j] in multiset(r);
      assert u[j] in r;
    }
    if p :| p in r && KeyOf(p) == Some(k) {
      assert p in multiset(u);
      var j :| 0 <= j < |u| && u[j] == p;
      assert KeyOf(u[j]) == Some(k);
      assert exists i :: 0 <= i < |Flatten(lists)| && KeyOf(Flatten(lists)[i]) == Some(k);
    }
  }

  // ---------------------------------------------------------------------
  // Merging an edited post

  /** An update applies to a post with the same path, or with the same
      directory and file name; two missing paths count as equal, as two
      `undefined` do. */
  predicate SamePost(p: Post, u: Post) {
    p.path == u.path || (p.sourceDir == u.sourceDir && p.name == u.name)
  }

  /** The `map` step: `{ ...p, ...u }` for the matching posts. The edited
      post is built by spreading a listed post, so it carries every field a
      listed post has and the merge is `u` itself. */
  function Replace(ps: seq<Post>, u: Post): (r: seq<Post>)
    ensures |r| == |ps|
  {
    seq(|ps|, i requires 0 <= i < |ps| => if SamePost(ps[i], u) then u else ps[i])
  }

  /** `handlePostUpdateSuccess`: merge, then sort again. */
  function ApplyUpdate(ps: seq<Post>, u: Post): seq<Post> {
    SortByDate(Replace(ps, u))
  }

  /** The merged list has the same length, is sorted newest first, and holds
      exactly the posts that do not match the edited one, plus the edited
      post if some post matched. */
  lemma UpdateMerges(ps: seq<Post>, u: Post, q: Post)
    ensures |ApplyUpdate(ps, u)| == |ps|
    ensures Descending(ApplyUpdate(ps, u))
    ensures q in ApplyUpdate(ps, u) <==>
      (q in ps && !SamePost(q, u)) || (q == u && exists p :: p in ps && SamePost(p, u))
  {
    var m := Replace(ps, u);
    var r := ApplyUpdate(ps, u);
    SortDescending(m);
    assert q in r <==> q in multiset(m);
    if q in m {
      var i :| 0 <= i < |m| && m[i] == q;
      assert ps[i] in ps;
    }
    if q in ps && !SamePost(q, u) {
      var i :| 0 <= i < |ps| && ps[i] == q;
      assert m[i] == q;
    }
    if p :| p in ps && SamePost(p, u) {
      var i :| 0 <= i < |ps| && ps[i] == p;
      assert m[i] == u;
    }
  }

  /** Posts that do not match keep their number of copies. */
  lemma UpdateKeepsOthers(ps: seq<Post>, u: Post, q: Post)
    requires !SamePost(q, u) && q != u
    ensures multiset(ApplyUpdate(ps, u))[q] == multiset(ps)[q]
  {
    ReplaceCount(ps, u, q);
  }

  lemma {:induction false} ReplaceCount(ps: seq<Post>, u: Post, q: Post)
    requires !SamePost(q, u) && q != u
    ensures multiset(Replace(ps, u))[q] == multiset(ps)[q]
  {
    if ps != [] {
      var init := ps[..|ps| - 1];
      ReplaceCount(init, u, q);
      assert Replace(ps, u) == Replace(init, u) + [Replace(ps, u)[|ps| - 1]];
      assert ps == init + [ps[|ps| - 1]];
    }
  }

  // ---------------------------------------------------------------------
  // Page and selection

  /** The current page and the selected post. */
  datatype Screen = Screen(page: string, selected: Option<Post>)

  /** The pages only an administrator may open. */
  predicate Restricted(page: string) {
    page == "write" || page == "edit"
  }

  /** `handleNavigate(page, postData)`; the login prompt and the scrolling
      are side effects. */
  function Navigate(s: Screen, page: string, postData: Option<Post>, isAdmin: bool): (r: Screen)
    ensures Restricted(page) && !isAdmin ==> r == s
  {
    if Restricted(page) && !isAdmin then s
    else
      var selected :=
        if postData.Some? then postData
        else if page != "edit" && page != "view" then None
        else s.selected;
      Screen(page, selected)
  }

  /** `handlePostClick`. */
  function ClickPost(s: Screen, post: Post): Screen {
    Screen("view", Some(post))
  }

  /** `handleStartEdit`. */
  function StartEdit(s: Screen, post: Post, isAdmin: bool): (r: Screen)
    ensures !isAdmin ==> r == s
  {
    if !isAdmin then s else Screen("edit", Some(post))
  }

  /** `handlePostUpdateSuccess`, as far as the screen goes. */
  function UpdateDone(s: Screen, u: Post): Screen {
    Screen("view", Some(u))
  }

  datatype Action =
    | NavigateTo(page: string, postData: Option<Post>)
    | Click(post: Post)
    | EditPost(post: Post)
    | Updated(post: Post)

  function Step(s: Screen, a: Action, isAdmin: bool): Screen {
    match a
    case NavigateTo(page, postData) => Navigate(s, page, postData, isAdmin)
    case Click(post) => ClickPost(s, post)
    case EditPost(post) => StartEdit(s, post, isAdmin)
    case Updated(post) => UpdateDone(s, post)
  }

  function Run(s: Screen, actions: seq<Action>, isAdmin: bool): Screen {
    if actions == [] then s
    else Step(Run(s, actions[..|actions| - 1], isAdmin), actions[|actions| - 1], isAdmin)
  }

  /** Whatever a visitor who is not an administrator does, they never reach
      the write or edit page. */
  lemma {:induction false} VisitorNeverEdits(s: Screen, actions: seq<Action>)
    requires !Restricted(s.page)
    ensures !Restricted(Run(s, actions, false).page)
  {
    if actions != [] {
      VisitorNeverEdits(s, actions[..|actions| - 1]);
    }
  }

  /** Navigation sets the page unless blocked; without post data the
      selection survives exactly on the edit and view pages. */
  lemma NavigateSelection(s: Screen, page: string, postData: Option<Post>, isAdmin: bool)
    requires !(Restricted(page) && !isAdmin)
    ensures Navigate(s, page, postData, isAdmin).page == page
    ensures postData.Some? ==> Navigate(s, page, postData, isAdmin).selected == postData
    ensures postData.None? ==>
      (Navigate(s, page, postData, isAdmin).selected == s.selected
       || Navigate(s, page, postData, isAdmin).selected == None)
    ensures postData.None? && s.selected.Some? ==>
      (Navigate(s, page, postData, isAdmin).selected == s.selected <==> page == "edit" || page == "view")
  {
  }
}

=== FILE: inline.dfy ===
/** The inline substitutions and the list rules of `parseMarkdown`
    (src/utils/markdownParser.js:75-85) and its behaviour on the empty text
    (lines 87 and 98). */
module InlineFacts {
  import opened Strings
  import opened Passes
  import opened Markdown
  import opened EscapeFacts
  import opened ProtectFacts
  import opened LineFacts

  /** A global replace that matches only once, over `s[p..e]`, emits the
      text before the match, the replacement and the text after it. */
  lemma ReplaceOnce(rule: Rule, s: string, p: nat, e: nat, o: string)
    requires p < e <= |s|
    requires forall i :: 0 <= i < p ==> MatchAt(rule, s, i).None?
    requires MatchAt(rule, s, p) == Some(Hit(e, o))
    requires forall i :: e <= i < |s| ==> MatchAt(rule, s, i).None?
    ensures ReplaceAll(rule, s) == s[..p] + o + s[e..]
  {
    ReplaceSkip(rule, s, 0, p);
    MatchedStep(rule, s, p, e, o);
    ReplaceSkip(rule, s, e, |s|);
    var x, y := s[0..p], ReplaceFrom(rule, s, e);
    assert ReplaceFrom(rule, s, 0) == x + (o + y);
    assert x + (o + y) == x + o + y;
    assert y == s[e..|s|];
    assert x == s[..p] && s[e..|s|] == s[e..];
  }

  lemma MatchedStep(rule: Rule, s: string, p: nat, e: nat, o: string)
    requires p < e <= |s|
    requires MatchAt(rule, s, p) == Some(Hit(e, o))
    ensures ReplaceFrom(rule, s, p) == o + ReplaceFrom(rule, s, e)
  {
    ReplaceStep(rule, s, p);
  }

  /** Bold and italic start with `*`, a link with `[`. */
  lemma NoStarNoMatch(s: string, i: nat)
    requires i < |s| && s[i] != '*'
    ensures MatchAt(Strong, s, i).None? && MatchAt(Emphasis, s, i).None?
  {
    if i + 2 <= |s| {
      assert s[i..i + 2][0] == s[i];
    }
  }

  lemma NoBracketNoMatch(s: string, i: nat)
    requires i < |s| && s[i] != '['
    ensures MatchAt(Link, s, i).None?
  {
  }

  /** The pieces of `a + m + b`. */
  /** A text with exactly one match, of its middle piece, has that piece
      replaced. */
  lemma SpanReplaced(rule: Rule, a: string, m: string, b: string, o: string)
    requires m != []
    requires forall i :: 0 <= i < |a| ==> MatchAt(rule, a + m + b, i).None?
    requires MatchAt(rule, a + m + b, |a|) == Some(Hit(|a| + |m|, o))
    requires forall i :: |a| + |m| <= i < |a + m + b| ==> MatchAt(rule, a + m + b, i).None?
    ensures ReplaceAll(rule, a + m + b) == a + o + b
  {
    ThreePieces(a, m, b);
    ReplaceOnce(rule, a + m + b, |a|, |a| + |m|, o);
  }

  lemma ThreePieces(a: string, m: string, b: string)
    ensures HasAt(a + m + b, |a|, m)
    ensures (a + m + b)[..|a|] == a && (a + m + b)[|a| + |m|..] == b
  {
    var s := a + m + b;
    assert s[|a|..|a| + |m|] == m;
  }

  /** Inside an occurrence of `u`, the characters of `u` are read. */
  lemma HasAtChars(s: string, p: nat, u: string)
    requires HasAt(s, p, u)
    ensures forall k :: 0 <= k < |u| ==> s[p + k] == u[k]
  {
    forall k | 0 <= k < |u| ensures s[p + k] == u[k] {
      assert s[p..p + |u|][k] == s[p + k];
    }
  }

  /** What the bold expression reads at an occurrence of `**x**`. */
  lemma StrongMatch(s: string, p: nat, x: string)
    requires HasAt(s, p, "**" + x + "**") && '*' !in x && x != []
    ensures MatchAt(Strong, s, p) == Some(Hit(p + |x| + 4, "<strong>" + x + "</strong>"))
  {
    var q := p + 2 + |x|;
    HasAtConcat(s, p, "**" + x, "**");
    HasAtConcat(s, p, "**", x);
    HasAtChars(s, p + 2, x);
    HasAtChars(s, q, "**");
    RunWithoutAt(s, p + 2, q, '*');
  }

  lemma EmphasisMatch(s: string, p: nat, x: string)
    requires HasAt(s, p, "*" + x + "*") && '*' !in x && x != []
    ensures MatchAt(Emphasis, s, p) == Some(Hit(p + |x| + 2, "<em>" + x + "</em>"))
  {
    var q := p + 1 + |x|;
    HasAtConcat(s, p, "*" + x, "*");
    HasAtConcat(s, p, "*", x);
    HasAtChars(s, p, "*");
    HasAtChars(s, p + 1, x);
    HasAtChars(s, q, "*");
    RunWithoutAt(s, p + 1, q, '*');
  }

  /** The characters of an occurrence of `[t](u)`. */
  lemma LinkShape(s: string, p: nat, t: string, u: string)
    requires HasAt(s, p, "[" + t + "](" + u + ")")
    ensures var ta := p + 1 + |t|; var ub := ta + 2 + |u|;
      ub < |s| && s[p] == '[' && s[ta] == ']' && s[ub] == ')' && HasAt(s, ta, "](")
      && s[p + 1..ta] == t && s[ta + 2..ub] == u
  {
    var m := "[" + t + "](" + u + ")";
    var ta := p + 1 + |t|;
    var ub := ta + 2 + |u|;
    HasAtChars(s, p, m);
    assert s[p] == m[0] == '[';
    assert s[ta] == m[1 + |t|] == ']';
    assert s[ta + 1] == m[2 + |t|] == '(';
    assert s[ub] == m[3 + |t| + |u|] == ')';
    forall k | 0 <= k < |t| ensures s[p + 1 + k] == t[k] {
      assert m[1 + k] == t[k];
    }
    forall k | 0 <= k < |u| ensures s[ta + 2 + k] == u[k] {
      assert m[3 + |t| + k] == u[k];
    }
    assert s[p + 1..ta] == t;
    assert s[ta + 2..ub] == u;
    assert s[ta..ta + 2] == "](";
  }

  lemma LinkMatch(s: string, p: nat, t: string, u: string)
    requires HasAt(s, p, "[" + t + "](" + u + ")")
    requires t != [] && ']' !in t && u != [] && ')' !in u
    ensures MatchAt(Link, s, p) == Some(Hit(p + |t| + |u| + 4, LinkHtml(t, u)))
  {
    var ta := p + 1 + |t|;
    var ub := ta + 2 + |u|;
    LinkShape(s, p, t, u);
    RunWithoutAt(s, p + 1, ta, ']');
    RunWithoutAt(s, ta + 2, ub, ')');
    assert MatchLink(s, p) == Some(Hit(ub + 1, LinkHtml(t, u)));
  }

  /** A text free of `c` at every index in `[lo, hi)`. */
  predicate FreeOf(s: string, lo: nat, hi: nat, c: char)
    requires lo <= hi <= |s|
  {
    forall i :: lo <= i < hi ==> s[i] != c
  }

  /** `a + m + b` is free of `c` outside `m` when `a` and `b` are. */
  lemma OutsideFree(a: string, m: string, b: string, c: char)
    requires c !in a && c !in b
    ensures FreeOf(a + m + b, 0, |a|, c)
    ensures FreeOf(a + m + b, |a| + |m|, |a + m + b|, c)
  {
    var s := a + m + b;
    forall i | |a| + |m| <= i < |s| ensures s[i] != c {
      assert s[i] == b[i - |a| - |m|];
    }
  }

  lemma StarFreeMisses(s: string, lo: nat, hi: nat)
    requires lo <= hi <= |s| && FreeOf(s, lo, hi, '*')
    ensures forall i :: lo <= i < hi ==> MatchAt(Strong, s, i).None? && MatchAt(Emphasis, s, i).None?
  {
    forall i | lo <= i < hi
      ensures MatchAt(Strong, s, i).None? && MatchAt(Emphasis, s, i).None?
    {
      NoStarNoMatch(s, i);
    }
  }

  lemma BracketFreeMisses(s: string, lo: nat, hi: nat)
    requires lo <= hi <= |s| && FreeOf(s, lo, hi, '[')
    ensures forall i :: lo <= i < hi ==> MatchAt(Link, s, i).None?
  {
    forall i | lo <= i < hi ensures MatchAt(Link, s, i).None? {
      NoBracketNoMatch(s, i);
    }
  }

  /** Lines 78-79: `**x**` with `x` free of `*` becomes `<strong>x</strong>`;
      `x` may span lines, since `[^*]` also matches line terminators. */
  lemma StrongSpan(a: string, x: string, b: string)
    requires '*' !in a && '*' !in x && '*' !in b && x != []
    ensures ReplaceAll(Strong, a + "**" + x + "**" + b) == a + "<strong>" + x + "</strong>" + b
  {
    StrongSpanPieces(a, x, b);
    assert a + ("**" + x + "**") + b == a + "**" + x + "**" + b;
    assert a + ("<strong>" + x + "</strong>") + b == a + "<strong>" + x + "</strong>" + b;
  }

  lemma StrongSpanPieces(a: string, x: string, b: string)
    requires '*' !in a && '*' !in x && '*' !in b && x != []
    ensures ReplaceAll(Strong, a + ("**" + x + "**") + b) == a + ("<strong>" + x + "</strong>") + b
  {
    var m := "**" + x + "**";
    var s := a + m + b;
    ThreePieces(a, m, b);
    OutsideFree(a, m, b, '*');
    StarFreeMisses(s, 0, |a|);
    StarFreeMisses(s, |a| + |m|, |s|);
    StrongMatch(s, |a|, x);
    SpanReplaced(Strong, a, m, b, "<strong>" + x + "</strong>");
  }

  /** Line 79: `*x*` with `x` free of `*` becomes `<em>x</em>`. */
  lemma EmphasisSpan(a: string, x: string, b: string)
    requires '*' !in a && '*' !in x && '*' !in b && x != []
    ensures ReplaceAll(Emphasis, a + "*" + x + "*" + b) == a + "<em>" + x + "</em>" + b
  {
    EmphasisSpanPieces(a, x, b);
    assert a + ("*" + x + "*") + b == a + "*" + x + "*" + b;
    assert a + ("<em>" + x + "</em>") + b == a + "<em>" + x + "</em>" + b;
  }

  lemma EmphasisSpanPieces(a: string, x: string, b: string)
    requires '*' !in a && '*' !in x && '*' !in b && x != []
    ensures ReplaceAll(Emphasis, a + ("*" + x + "*") + b) == a + ("<em>" + x + "</em>") + b
  {
    var m := "*" + x + "*";
    var s := a + m + b;
    ThreePieces(a, m, b);
    OutsideFree(a, m, b, '*');
    StarFreeMisses(s, 0, |a|);
    StarFreeMisses(s, |a| + |m|, |s|);
    EmphasisMatch(s, |a|, x);
    SpanReplaced(Emphasis, a, m, b, "<em>" + x + "</em>");
  }

  /** A text without `*` passes the italic rule unchanged. */
  lemma NoStarEmphasis(s: string)
    requires '*' !in s
    ensures ReplaceAll(Emphasis, s) == s
  {
    forall i | 0 <= i < |s| ensures MatchAt(Emphasis, s, i).None? {
      NoStarNoMatch(s, i);
    }
    ReplaceNoMatch(Emphasis, s);
  }

  /** The two inline emphasis rules sit at 10 and 11 of the chain. */
  lemma BoldThenItalicRules()
    ensures BlockRules[10..12] == [Strong, Emphasis]
  {
  }

  lemma ApplyTwo(r1: Rule, r2: Rule, s: string)
    ensures ApplyAll([r1, r2], s) == ReplaceAll(r2, ReplaceAll(r1, s))
  {
    var t := ReplaceAll(r1, s);
    assert [r1, r2][1..] == [r2];
    assert ApplyAll([r1, r2], s) == ApplyAll([r2], t);
    assert [r2][1..] == [];
    assert ApplyAll([r2], t) == ApplyAll([], ReplaceAll(r2, t));
  }

  lemma NoStarInStrong(a: string, x: string, b: string)
    requires '*' !in a && '*' !in x && '*' !in b
    ensures '*' !in a + "<strong>" + x + "</strong>" + b
  {
    assert '*' !in "<strong>" && '*' !in "</strong>";
  }

  /** Bold runs before italic, so `**x**` ends up as `<strong>x</strong>`
      and is not read as italic. */
  lemma BoldBeforeItalic(a: string, x: string, b: string)
    requires '*' !in a && '*' !in x && '*' !in b && x != []
    ensures ApplyAll([Strong, Emphasis], a + "**" + x + "**" + b)
      == a + "<strong>" + x + "</strong>" + b
  {
    var s := a + "**" + x + "**" + b;
    var r := a + "<strong>" + x + "</strong>" + b;
    StrongSpan(a, x, b);
    NoStarInStrong(a, x, b);
    NoStarEmphasis(r);
    ApplyTwo(Strong, Emphasis, s);
  }

  /** Line 80: `[t](u)` becomes an anchor that opens in a new tab. */
  lemma LinkSpan(a: string, t: string, u: string, b: string)
    requires '[' !in a && '[' !in b
    requires t != [] && ']' !in t && u != [] && ')' !in u
    ensures ReplaceAll(Link, a + "[" + t + "](" + u + ")" + b) == a + LinkHtml(t, u) + b
  {
    LinkSpanPieces(a, t, u, b);
    assert a + ("[" + t + "](" + u + ")") + b == a + "[" + t + "](" + u + ")" + b;
  }

  lemma LinkSpanPieces(a: string, t: string, u: string, b: string)
    requires '[' !in a && '[' !in b
    requires t != [] && ']' !in t && u != [] && ')' !in u
    ensures ReplaceAll(Link, a + ("[" + t + "](" + u + ")") + b) == a + (LinkHtml(t, u)) + b
  {
    var m := "[" + t + "](" + u + ")";
    var s := a + m + b;
    ThreePieces(a, m, b);
    OutsideFree(a, m, b, '[');
    BracketFreeMisses(s, 0, |a|);
    BracketFreeMisses(s, |a| + |m|, |s|);
    LinkMatch(s, |a|, t, u);
    SpanReplaced(Link, a, m, b, LinkHtml(t, u));
  }

  /** Line 85: every `⇒` becomes `→`, one character at a time. */
  lemma ArrowEverywhere(s: string)
    ensures ReplaceAll(Literal("⇒", "→"), s) == Substitute('⇒', "→", s)
    ensures '⇒' !in ReplaceAll(Literal("⇒", "→"), s)
    ensures |ReplaceAll(Literal("⇒", "→"), s)| == |s|
  {
    LiteralChar('⇒', "→", s);
    SubstituteReplaces(s);
  }

  lemma {:induction false} SubstituteReplaces(s: string)
    ensures '⇒' !in Substitute('⇒', "→", s) && |Substitute('⇒', "→", s)| == |s|
  {
    if s != [] {
      SubstituteReplaces(s[1..]);
    }
  }

  /** Lines 75-76: a `- ` or `* ` line becomes a list item. */
  lemma BulletLine(m: char, x: string)
    requires SingleLine(x) && !IsSpace(m)
    ensures ReplaceAll(Bullet(m), [m] + " " + x) == ListItemHtml(x)
  {
    var s := [m] + " " + x;
    assert SpaceRunEnd(s, 0) == 0;
    LineEndAt(s, 2, |s|);
    assert s[2..] == x;
    ReplaceStep(Bullet(m), s, 0);
  }

  /** Line 77: `N. text` becomes a list item. */
  lemma NumberedLine(digits: string, x: string)
    requires digits != [] && AllDigits(digits) && SingleLine(x)
    ensures ReplaceAll(Numbered, digits + ". " + x) == ListItemHtml(x)
  {
    var s := digits + ". " + x;
    var d := |digits|;
    assert SpaceRunEnd(s, 0) == 0;
    assert s[d] == '.' && s[d + 1] == ' ';
    DigitRunEndAt(s, 0, d);
    assert DigitRunEnd(s, SpaceRunEnd(s, 0)) == d;
    LineEndAt(s, d + 2, |s|);
    assert s[d + 2..|s|] == x;
    assert MatchNumbered(s, 0) == Some(Hit(|s|, ListItemHtml(x)));
    ReplaceStep(Numbered, s, 0);
  }

  /** `^\s*` may start on an empty line and run over the line break into the
      item: the blank line before a list item disappears. */
  lemma BulletSwallowsBlankLine()
    ensures ReplaceAll(Bullet('-'), "a\n\n- x") == "a\n<li>x</li>"
  {
    var s := "a\n\n- x";
    var r := Bullet('-');
    assert MatchAt(r, s, 0).None?;
    assert MatchAt(r, s, 1).None?;
    assert AtLineStart(s, 2);
    assert SpaceRunEnd(s, 2) == 3;
    assert s[3] == '-' && s[4] == ' ';
    assert LineEnd(s, 5) == 6;
    assert s[5..6] == "x";
    assert ListItemHtml("x") == "<li>x</li>";
    assert MatchAt(r, s, 2) == Some(Hit(6, "<li>x</li>"));
    ReplaceStep(r, s, 0);
    ReplaceStep(r, s, 1);
    ReplaceStep(r, s, 2);
  }

  // ---------------------------------------------------------------------
  // The empty text

  lemma {:induction false} ApplyAllEmpty(rules: seq<Rule>)
    ensures ApplyAll(rules, "") == ""
  {
    if rules != [] {
      ApplyAllEmpty(rules[1..]);
    }
  }

  /** The rules that leave the empty paragraph alone: the heading unwraps
      and literals longer than it. */
  predicate KeepsEmptyParagraph(r: Rule) {
    r.UnwrapHeadingOpen? || r.UnwrapHeadingClose? || (r.Literal? && |r.from| > 7)
  }

  lemma UnwrapOpenMisses(s: string, i: nat)
    requires s == "<p></p>" && i < |s|
    ensures MatchUnwrapOpen(s, i).None?
  {
    if i + 5 <= |s| {
      assert s[i..i + 5][3] == s[i + 3];
    }
  }

  lemma UnwrapCloseMisses(s: string, i: nat)
    requires s == "<p></p>" && i < |s|
    ensures MatchUnwrapClose(s, i).None?
  {
    if i + 3 <= |s| {
      assert s[i..i + 3][2] == s[i + 2];
    }
  }

  lemma EmptyParagraphKept(r: Rule)
    requires KeepsEmptyParagraph(r)
    ensures ReplaceAll(r, "<p></p>") == "<p></p>"
  {
    var s := "<p></p>";
    forall i | 0 <= i < |s| ensures MatchAt(r, s, i).None? {
      if r.UnwrapHeadingOpen? {
        UnwrapOpenMisses(s, i);
      } else if r.UnwrapHeadingClose? {
        UnwrapCloseMisses(s, i);
      }
    }
    ReplaceNoMatch(r, s);
  }

  lemma {:induction false} KeptThrough(rules: seq<Rule>, w: string)
    requires w == "<p></p>"
    requires forall k :: 0 <= k < |rules| ==> KeepsEmptyParagraph(rules[k])
    ensures ApplyAll(rules, w) == w
  {
    if rules != [] {
      EmptyParagraphKept(rules[0]);
      KeptThrough(rules[1..], w);
    }
  }

  lemma EmptyParagraphRemoved()
    ensures ReplaceAll(Literal("<p></p>", ""), "<p></p>") == ""
  {
    ReplaceStep(Literal("<p></p>", ""), "<p></p>", 0);
  }

  /** The clean-up chain around its eighth rule, which deletes `<p></p>`. */
  lemma CleanupAroundEmpty()
    ensures CleanupRules == CleanupRules[..7] + ([Literal("<p></p>", "")] + CleanupRules[8..])
    ensures forall k :: 0 <= k < 7 ==> KeepsEmptyParagraph(CleanupRules[..7][k])
  {
  }

  /** Lines 87 and 98: the empty text is wrapped as `<p></p>` and that empty
      paragraph is removed again by the eighth clean-up rule. */
  lemma EmptyParagraphs()
    ensures Paragraphs("") == ""
  {
    var w := "<p></p>";
    var drop := Literal("<p></p>", "");
    var first := CleanupRules[..7];
    var rest := CleanupRules[8..];
    assert Paragraphs("") == ApplyAll(first + ([drop] + rest), w) by {
      assert "<p>" + "" + "</p>" == w;
      CleanupAroundEmpty();
    }
    assert ApplyAll(first, w) == w by {
      CleanupAroundEmpty();
      KeptThrough(first, w);
    }
    assert ApplyAll([drop] + rest, w) == "" by {
      ApplyAllAppend([drop], rest, w);
      EmptyParagraphRemoved();
      assert ApplyAll([drop], w) == ApplyAll([], "");
      ApplyAllEmpty(rest);
    }
    ApplyAllAppend(first, [drop] + rest, w);
  }

  /** The empty markdown text renders to the empty string. */
  lemma RenderEmpty()
    ensures Render("") == Some("")
  {
    var fenced := ProtectFences("");
    assert fenced == ([], []);
    var inlined := ProtectInline(fenced.0);
    assert inlined == ([], []);
    SplitNoSeparator("", '\n');
    assert ConvertTablesFrom([""], 0) == [""];
    assert ConvertTables("") == "";
    ApplyAllEmpty(BlockRules);
    EmptyParagraphs();
    assert Prepare("") == Staged("", [], []);
  }
}

=== FILE: lines.dfy ===
/** The line-anchored substitutions of `parseMarkdown`
    (src/utils/markdownParser.js:68-74 and 84): headings, the horizontal rule
    and quotes. Their expressions are anchored with `^` and end with `$` (or
    with `.*$`) under the `m` flag, so each one rewrites a line on its own:
    a global replace over a text is the rewrite of each of its lines. */
module LineFacts {
  import opened Strings
  import opened Passes
  import opened Markdown

  /** A line: no line terminator inside. */
  predicate SingleLine(l: string) {
    forall k :: 0 <= k < |l| ==> !IsLineTerminator(l[k])
  }

  /** The rules that act on whole lines. */
  predicate LineLocal(r: Rule) {
    r.Heading? || r.HorizontalRule? || r.Quote?
  }

  /** The rule matches the whole line. */
  predicate Fires(r: Rule, l: string)
    requires LineLocal(r)
  {
    match r
    case Heading(k) => StartsWith(l, Hashes(k) + " ")
    case HorizontalRule => l == "---"
    case Quote => StartsWith(l, "> ")
  }

  /** What a line-local rule does to one line. */
  function LineRewrite(r: Rule, l: string): (out: string)
    requires LineLocal(r)
  {
    if !Fires(r, l) then l
    else match r
      case Heading(k) => HeadingHtml(k, l[k + 1..])
      case HorizontalRule => "<hr>"
      case Quote => "<blockquote>" + l[2..] + "</blockquote>"
  }

  // ---------------------------------------------------------------------
  // Shifting a match into a longer text

  lemma SliceShift(u: string, v: string, a: nat, b: nat)
    requires a <= b <= |v|
    ensures (u + v)[|u| + a..|u| + b] == v[a..b]
  {
  }

  lemma HasAtShift(u: string, v: string, q: nat, w: string)
    requires q <= |v|
    ensures HasAt(u + v, |u| + q, w) == HasAt(v, q, w)
  {
    if q + |w| <= |v| {
      SliceShift(u, v, q, q + |w|);
    }
  }

  lemma {:induction false} LineEndShift(u: string, v: string, q: nat)
    requires q <= |v|
    ensures LineEnd(u + v, |u| + q) == |u| + LineEnd(v, q)
    decreases |v| - q
  {
    if q < |v| {
      assert (u + v)[|u| + q] == v[q];
      LineEndShift(u, v, q + 1);
    }
  }

  /** What `^` sees at `|u| + q` of `u + v` is what it sees at `q` of `v`. */
  predicate SameLineStart(u: string, v: string, q: nat) {
    q > 0 || u == [] || IsLineTerminator(u[|u| - 1])
  }

  lemma AtLineStartShift(u: string, v: string, q: nat)
    requires q <= |v| && SameLineStart(u, v, q)
    ensures AtLineStart(u + v, |u| + q) == AtLineStart(v, q)
  {
    if q > 0 {
      assert (u + v)[|u| + q - 1] == v[q - 1];
    }
  }

  lemma HeadingShift(k: Level, u: string, v: string, q: nat)
    requires q < |v| && SameLineStart(u, v, q)
    ensures MatchHeading(k, u + v, |u| + q) == ShiftHit(MatchHeading(k, v, q), |u|)
  {
    AtLineStartShift(u, v, q);
    HasAtShift(u, v, q, Hashes(k) + " ");
    if AtLineStart(v, q) && HasAt(v, q, Hashes(k) + " ") {
      LineEndShift(u, v, q + k + 1);
      SliceShift(u, v, q + k + 1, LineEnd(v, q + k + 1));
    }
  }

  lemma RuleShift(u: string, v: string, q: nat)
    requires q < |v| && SameLineStart(u, v, q)
    ensures MatchHorizontalRule(u + v, |u| + q) == ShiftHit(MatchHorizontalRule(v, q), |u|)
  {
    AtLineStartShift(u, v, q);
    HasAtShift(u, v, q, "---");
    if q + 3 < |v| {
      assert (u + v)[|u| + q + 3] == v[q + 3];
    }
  }

  lemma QuoteShift(u: string, v: string, q: nat)
    requires q < |v| && SameLineStart(u, v, q)
    ensures MatchQuote(u + v, |u| + q) == ShiftHit(MatchQuote(v, q), |u|)
  {
    AtLineStartShift(u, v, q);
    HasAtShift(u, v, q, "> ");
    if AtLineStart(v, q) && HasAt(v, q, "> ") {
      LineEndShift(u, v, q + 2);
      SliceShift(u, v, q + 2, LineEnd(v, q + 2));
    }
  }

  lemma MatchShift(r: Rule, u: string, v: string, q: nat)
    requires LineLocal(r) && q < |v| && SameLineStart(u, v, q)
    ensures MatchAt(r, u + v, |u| + q) == ShiftHit(MatchAt(r, v, q), |u|)
  {
    match r
    case Heading(k) => HeadingShift(k, u, v, q);
    case HorizontalRule => RuleShift(u, v, q);
    case Quote => QuoteShift(u, v, q);
  }

  /** After a line terminator, the scan of `u + v` is the scan of `v`. */
  lemma ReplaceSuffix(r: Rule, u: string, v: string)
    requires LineLocal(r) && SameLineStart(u, v, 0)
    ensures ReplaceFrom(r, u + v, |u|) == ReplaceAll(r, v)
  {
    forall i | 0 <= i < |v|
      ensures AgreeShifted(r, u + v, v, |u|, i)
    {
      MatchShift(r, u, v, i);
      assert (u + v)[|u| + i] == v[i];
    }
    ReplaceShift(r, u + v, v, |u|, 0);
  }

  // ---------------------------------------------------------------------
  // A match inside the first line stays inside it

  lemma HasAtLine(a: string, t: string, p: nat, w: string)
    requires SingleLine(a) && SingleLine(w) && p <= |a|
    requires t != [] && IsLineTerminator(t[0])
    ensures HasAt(a + t, p, w) == HasAt(a, p, w)
  {
    var s := a + t;
    if p + |w| <= |a| {
      assert s[p..p + |w|] == a[p..p + |w|];
    } else if p + |w| <= |s| {
      assert s[p..p + |w|][|a| - p] == t[0];
      assert !IsLineTerminator(w[|a| - p]);
    }
  }

  lemma {:induction false} LineEndAt(s: string, p: nat, e: nat)
    requires p <= e <= |s|
    requires forall k :: p <= k < e ==> !IsLineTerminator(s[k])
    requires e == |s| || IsLineTerminator(s[e])
    ensures LineEnd(s, p) == e
    decreases e - p
  {
    if p < e {
      LineEndAt(s, p + 1, e);
    }
  }

  lemma HeadingInLine(k: Level, a: string, t: string, p: nat)
    requires SingleLine(a) && p < |a|
    requires t != [] && IsLineTerminator(t[0])
    ensures MatchHeading(k, a + t, p) == MatchHeading(k, a, p)
  {
    var s := a + t;
    assert s[|a|] == t[0];
    assert AtLineStart(s, p) == AtLineStart(a, p);
    HasAtLine(a, t, p, Hashes(k) + " ");
    if AtLineStart(a, p) && HasAt(a, p, Hashes(k) + " ") {
      assert forall i :: 0 <= i < |a| ==> s[i] == a[i];
      LineEndAt(s, p + k + 1, |a|);
      LineEndAt(a, p + k + 1, |a|);
      assert s[p + k + 1..|a|] == a[p + k + 1..|a|];
    }
  }

  lemma RuleInLine(a: string, t: string, p: nat)
    requires SingleLine(a) && p < |a|
    requires t != [] && IsLineTerminator(t[0])
    ensures MatchHorizontalRule(a + t, p) == MatchHorizontalRule(a, p)
  {
    var s := a + t;
    assert s[|a|] == t[0];
    assert AtLineStart(s, p) == AtLineStart(a, p);
    HasAtLine(a, t, p, "---");
    if p + 3 < |a| {
      assert s[p + 3] == a[p + 3];
    }
  }

  lemma QuoteInLine(a: string, t: string, p: nat)
    requires SingleLine(a) && p < |a|
    requires t != [] && IsLineTerminator(t[0])
    ensures MatchQuote(a + t, p) == MatchQuote(a, p)
  {
    var s := a + t;
    assert s[|a|] == t[0];
    assert AtLineStart(s, p) == AtLineStart(a, p);
    HasAtLine(a, t, p, "> ");
    if AtLineStart(a, p) && HasAt(a, p, "> ") {
      assert forall i :: 0 <= i < |a| ==> s[i] == a[i];
      LineEndAt(s, p + 2, |a|);
      LineEndAt(a, p + 2, |a|);
      assert s[p + 2..|a|] == a[p + 2..|a|];
    }
  }

  lemma MatchInLine(r: Rule, a: string, t: string, p: nat)
    requires LineLocal(r) && SingleLine(a) && p < |a|
    requires t != [] && IsLineTerminator(t[0])
    ensures MatchAt(r, a + t, p) == MatchAt(r, a, p)
  {
    match r
    case Heading(k) => HeadingInLine(k, a, t, p);
    case HorizontalRule => RuleInLine(a, t, p);
    case Quote => QuoteInLine(a, t, p);
  }

  lemma ReplacePrefix(r: Rule, a: string, t: string)
    requires LineLocal(r) && SingleLine(a)
    requires t != [] && IsLineTerminator(t[0])
    ensures ReplaceAll(r, a + t) == ReplaceAll(r, a) + ReplaceFrom(r, a + t, |a|)
  {
    forall i | 0 <= i < |a|
      ensures Agree(r, a + t, a, i)
    {
      MatchInLine(r, a, t, i);
      assert (a + t)[i] == a[i];
    }
    ReplaceCut(r, a + t, a, 0);
  }

  /** A line terminator is never the start of a match of these rules. */
  lemma NoMatchAtTerminator(r: Rule, s: string, p: nat)
    requires LineLocal(r) && p < |s| && IsLineTerminator(s[p])
    ensures MatchAt(r, s, p).None?
  {
    match r
    case Heading(k) =>
      if p + k + 1 <= |s| {
        assert s[p..p + k + 1][0] == s[p];
        assert (Hashes(k) + " ")[0] == '#';
      }
    case HorizontalRule =>
      if p + 3 <= |s| {
        assert s[p..p + 3][0] == s[p];
      }
    case Quote =>
      if p + 2 <= |s| {
        assert s[p..p + 2][0] == s[p];
      }
  }

  /** Locality: the replace over `a`, a terminator and `b` is the replace over
      `a`, the terminator, and the replace over `b`. */
  lemma SplitAtTerminator(r: Rule, a: string, c: char, b: string)
    requires LineLocal(r) && SingleLine(a) && IsLineTerminator(c)
    ensures ReplaceAll(r, a + [c] + b) == ReplaceAll(r, a) + [c] + ReplaceAll(r, b)
  {
    var t := [c] + b;
    assert a + [c] + b == a + t;
    ReplacePrefix(r, a, t);
    var s := a + t;
    assert s[|a|] == c;
    NoMatchAtTerminator(r, s, |a|);
    assert ReplaceFrom(r, s, |a|) == [c] + ReplaceFrom(r, s, |a| + 1);
    assert s == (a + [c]) + b;
    ReplaceSuffix(r, a + [c], b);
  }

  /** Inside a line `^` does not hold, so nothing matches there. */
  lemma NoMatchInsideLine(r: Rule, l: string, i: nat)
    requires LineLocal(r) && SingleLine(l) && 0 < i < |l|
    ensures MatchAt(r, l, i).None?
  {
    assert !AtLineStart(l, i);
  }

  lemma StartsWithIsHasAt(l: string, w: string)
    ensures StartsWith(l, w) == HasAt(l, 0, w)
  {
    if |w| <= |l| {
      assert l[0..|w|] == l[..|w|];
    }
  }

  /** At the start of a line the rule matches exactly when it fires, and
      then the match is the whole line. */
  lemma HeadingAtLineStart(k: Level, l: string)
    requires SingleLine(l) && l != []
    ensures MatchHeading(k, l, 0)
      == if Fires(Heading(k), l) then Some(Hit(|l|, LineRewrite(Heading(k), l))) else None
  {
    StartsWithIsHasAt(l, Hashes(k) + " ");
    if HasAt(l, 0, Hashes(k) + " ") {
      LineEndAt(l, k + 1, |l|);
      assert l[k + 1..|l|] == l[k + 1..];
    }
  }

  lemma RuleAtLineStart(l: string)
    requires SingleLine(l) && l != []
    ensures MatchHorizontalRule(l, 0)
      == if Fires(HorizontalRule, l) then Some(Hit(|l|, LineRewrite(HorizontalRule, l))) else None
  {
    if 3 < |l| {
      assert !IsLineTerminator(l[3]);
    }
    if |l| == 3 {
      assert l[0..3] == l;
    }
  }

  lemma QuoteAtLineStart(l: string)
    requires SingleLine(l) && l != []
    ensures MatchQuote(l, 0)
      == if Fires(Quote, l) then Some(Hit(|l|, LineRewrite(Quote, l))) else None
  {
    StartsWithIsHasAt(l, "> ");
    if HasAt(l, 0, "> ") {
      LineEndAt(l, 2, |l|);
      assert l[2..|l|] == l[2..];
    }
  }

  lemma LineAtStart(r: Rule, l: string)
    requires LineLocal(r) && SingleLine(l) && l != []
    ensures MatchAt(r, l, 0)
      == if Fires(r, l) then Some(Hit(|l|, LineRewrite(r, l))) else None
  {
    match r
    case Heading(k) => HeadingAtLineStart(k, l);
    case HorizontalRule => RuleAtLineStart(l);
    case Quote => QuoteAtLineStart(l);
  }

  /** On one line, the global replace is the line rewrite. */
  lemma OneLine(r: Rule, l: string)
    requires LineLocal(r) && SingleLine(l)
    ensures ReplaceAll(r, l) == LineRewrite(r, l)
  {
    if l == [] {
      match r
      case Heading(k) =>
      case HorizontalRule =>
      case Quote =>
    } else {
      ReplaceStep(r, l, 0);
      LineAtStart(r, l);
      if !Fires(r, l) {
        forall i | 1 <= i < |l| ensures MatchAt(r, l, i).None? {
          NoMatchInsideLine(r, l, i);
        }
        ReplaceSkip(r, l, 1, |l|);
        assert l == [l[0]] + l[1..];
      }
    }
  }

  // ---------------------------------------------------------------------
  // Whole texts of `\n`-separated lines

  function MapRewrite(r: Rule, lines: seq<string>): (out: seq<string>)
    requires LineLocal(r)
    ensures |out| == |lines|
    ensures forall i :: 0 <= i < |lines| ==> out[i] == LineRewrite(r, lines[i])
  {
    seq(|lines|, i requires 0 <= i < |lines| => LineRewrite(r, lines[i]))
  }

  /** A line-local replace over lines joined by `\n` rewrites each line. */
  lemma {:induction false} ReplaceLines(r: Rule, lines: seq<string>)
    requires LineLocal(r) && |lines| >= 1
    requires forall i :: 0 <= i < |lines| ==> SingleLine(lines[i])
    ensures ReplaceAll(r, Join(lines, "\n")) == Join(MapRewrite(r, lines), "\n")
  {
    if |lines| == 1 {
      OneLine(r, lines[0]);
    } else {
      var x, rest := lines[0], lines[1..];
      var j := Join(rest, "\n");
      assert Join(lines, "\n") == x + "\n" + j by {
        assert lines == [x] + rest;
        JoinCons(x, rest, "\n");
      }
      assert ReplaceAll(r, x + "\n" + j) == LineRewrite(r, x) + "\n" + ReplaceAll(r, j) by {
        SplitAtTerminator(r, x, '\n', j);
        OneLine(r, x);
      }
      ReplaceLines(r, rest);
      assert Join(MapRewrite(r, lines), "\n") == LineRewrite(r, x) + "\n" + Join(MapRewrite(r, rest), "\n") by {
        assert MapRewrite(r, lines) == [LineRewrite(r, x)] + MapRewrite(r, rest);
        JoinCons(LineRewrite(r, x), MapRewrite(r, rest), "\n");
      }
    }
  }

  /** The rewrite of a line is again a line. */
  lemma SingleLineConcat(a: string, b: string)
    requires SingleLine(a) && SingleLine(b)
    ensures SingleLine(a + b)
  {
    assert forall k :: |a| <= k < |a + b| ==> (a + b)[k] == b[k - |a|];
  }

  lemma RewriteKeepsLine(r: Rule, l: string)
    requires LineLocal(r) && SingleLine(l)
    ensures SingleLine(LineRewrite(r, l))
  {
    if Fires(r, l) {
      match r
      case Heading(k) =>
        var text := l[k + 1..];
        var tag := HeadingTag(k);
        assert SingleLine(text);
        assert SingleLine(tag);
        SingleLineConcat("<", tag);
        SingleLineConcat("<" + tag, ">");
        SingleLineConcat("<" + tag + ">", text);
        SingleLineConcat("<" + tag + ">" + text, "</");
        SingleLineConcat("<" + tag + ">" + text + "</", tag);
        SingleLineConcat("<" + tag + ">" + text + "</" + tag, ">");
      case HorizontalRule =>
      case Quote =>
        var text := l[2..];
        assert SingleLine(text);
        SingleLineConcat("<blockquote>", text);
        SingleLineConcat("<blockquote>" + text, "</blockquote>");
    }
  }

  predicate AllLineLocal(rules: seq<Rule>) {
    forall i :: 0 <= i < |rules| ==> LineLocal(rules[i])
  }

  /** A chain of line-local rules applied to one line. */
  function ApplyLine(rules: seq<Rule>, l: string): string
    requires AllLineLocal(rules)
    decreases |rules|
  {
    if rules == [] then l else ApplyLine(rules[1..], LineRewrite(rules[0], l))
  }

  function MapApplyLine(rules: seq<Rule>, lines: seq<string>): (out: seq<string>)
    requires AllLineLocal(rules)
    ensures |out| == |lines|
    ensures forall i :: 0 <= i < |lines| ==> out[i] == ApplyLine(rules, lines[i])
  {
    seq(|lines|, i requires 0 <= i < |lines| => ApplyLine(rules, lines[i]))
  }

  /** A chain of line-local replaces over `\n`-joined lines is the chain
      applied to every line. */
  lemma {:induction false} ApplyLines(rules: seq<Rule>, lines: seq<string>)
    requires AllLineLocal(rules) && |lines| >= 1
    requires forall i :: 0 <= i < |lines| ==> SingleLine(lines[i])
    ensures ApplyAll(rules, Join(lines, "\n")) == Join(MapApplyLine(rules, lines), "\n")
    decreases |rules|
  {
    if rules == [] {
      assert MapApplyLine(rules, lines) == lines;
    } else {
      var r := rules[0];
      ReplaceLines(r, lines);
      var next := MapRewrite(r, lines);
      forall i | 0 <= i < |next| ensures SingleLine(next[i]) {
        RewriteKeepsLine(r, lines[i]);
      }
      ApplyLines(rules[1..], next);
      assert MapApplyLine(rules[1..], next) == MapApplyLine(rules, lines);
    }
  }

  // ---------------------------------------------------------------------
  // Headings and the horizontal rule, lines 68-74

  /** The number of `#` a line starts with. */
  function LeadingHashes(l: string): (n: nat)
    ensures n <= |l|
    ensures forall k :: 0 <= k < n ==> l[k] == '#'
    ensures n == |l| || l[n] != '#'
  {
    if l == [] || l[0] != '#' then 0 else 1 + LeadingHashes(l[1..])
  }

  /** The reference reading of a line: one to six `#` and a space make a
      heading of that level; a line that is exactly `---` is a rule; any
      other line is left alone. */
  function LineBlock(l: string): string {
    var h := LeadingHashes(l);
    if 1 <= h <= 6 && h < |l| && l[h] == ' ' then HeadingHtml(h, l[h + 1..])
    else if l == "---" then "<hr>"
    else l
  }

  const HeadingRules: seq<Rule> := BlockRules[..7]

  /** `k` hashes and a space start the line exactly when the line has `k`
      leading hashes followed by a space. */
  lemma HashesPrefix(l: string, k: Level)
    ensures StartsWith(l, Hashes(k) + " ")
      <==> (LeadingHashes(l) == k && k < |l| && l[k] == ' ')
  {
    if StartsWith(l, Hashes(k) + " ") {
      HashesPrefixCounts(l, k);
    }
    if LeadingHashes(l) == k && k < |l| && l[k] == ' ' {
      assert l[..k + 1] == Hashes(k) + " ";
    }
  }

  lemma HashesPrefixCounts(l: string, k: Level)
    requires StartsWith(l, Hashes(k) + " ")
    ensures LeadingHashes(l) == k && k < |l| && l[k] == ' '
  {
    var w := Hashes(k) + " ";
    assert forall i :: 0 <= i < k ==> l[i] == w[i];
    assert l[k] == w[k];
  }

  /** A heading element starts with `<`, so no later rule of the chain sees
      a heading or a rule in it. */
  lemma HtmlNotReread(k: Level, text: string, j: Level)
    ensures !StartsWith(HeadingHtml(k, text), Hashes(j) + " ")
    ensures HeadingHtml(k, text) != "---"
  {
    var o := HeadingHtml(k, text);
    var w := Hashes(j) + " ";
    assert o[0] == '<';
    assert w[0] == '#';
    if |w| <= |o| {
      assert o[..|w|][0] == o[0];
    }
  }

  lemma HeadingStep(l: string, k: Level)
    ensures LineRewrite(Heading(k), l)
      == if LeadingHashes(l) == k && k < |l| && l[k] == ' ' then HeadingHtml(k, l[k + 1..]) else l
  {
    HashesPrefix(l, k);
  }

  lemma ApplyLineSnoc(rules: seq<Rule>, r: Rule, l: string)
    requires AllLineLocal(rules) && LineLocal(r)
    ensures AllLineLocal(rules + [r])
    ensures ApplyLine(rules + [r], l) == LineRewrite(r, ApplyLine(rules, l))
    decreases |rules|
  {
    if rules != [] {
      assert (rules + [r])[1..] == rules[1..] + [r];
      ApplyLineSnoc(rules[1..], r, LineRewrite(rules[0], l));
    } else {
      assert rules + [r] == [r];
    }
  }

  /** The chain of lines 68-74 as nested rewrites. */
  lemma HeadingChainUnfolded(l: string)
    ensures ApplyLine(HeadingRules, l) == LineRewrite(HorizontalRule, HeadingsDown(6, l))
  {
    var r0: seq<Rule> := [];
    var r1 := r0 + [Heading(6)];
    var r2 := r1 + [Heading(5)];
    var r3 := r2 + [Heading(4)];
    var r4 := r3 + [Heading(3)];
    var r5 := r4 + [Heading(2)];
    var r6 := r5 + [Heading(1)];
    var r7 := r6 + [HorizontalRule];
    assert HeadingRules == r7;
    ApplyLineSnoc(r0, Heading(6), l);
    ApplyLineSnoc(r1, Heading(5), l);
    ApplyLineSnoc(r2, Heading(4), l);
    ApplyLineSnoc(r3, Heading(3), l);
    ApplyLineSnoc(r4, Heading(2), l);
    ApplyLineSnoc(r5, Heading(1), l);
    ApplyLineSnoc(r6, HorizontalRule, l);
    var x6 := LineRewrite(Heading(6), l);
    var x5 := LineRewrite(Heading(5), x6);
    var x4 := LineRewrite(Heading(4), x5);
    var x3 := LineRewrite(Heading(3), x4);
    var x2 := LineRewrite(Heading(2), x3);
    var x1 := LineRewrite(Heading(1), x2);
    assert HeadingsDown(1, x2) == x1;
    assert HeadingsDown(2, x3) == HeadingsDown(1, x2);
    assert HeadingsDown(3, x4) == HeadingsDown(2, x3);
    assert HeadingsDown(4, x5) == HeadingsDown(3, x4);
    assert HeadingsDown(5, x6) == HeadingsDown(4, x5);
    assert HeadingsDown(6, l) == HeadingsDown(5, x6);
  }

  /** The heading replaces for levels `k` down to 1, in that order. */
  function HeadingsDown(k: nat, l: string): string
    requires k <= 6
  {
    if k == 0 then l else HeadingsDown(k - 1, LineRewrite(Heading(k), l))
  }

  /** The heading replaces for levels `k` down to 1 turn a line with one to
      `k` hashes and a space into its heading and leave any other line
      alone; a heading they produce is not read again. */
  lemma {:induction false} HeadingsDownReads(k: nat, l: string)
    requires k <= 6
    ensures var h := LeadingHashes(l);
      HeadingsDown(k, l)
        == if 1 <= h <= k && h < |l| && l[h] == ' ' then HeadingHtml(h, l[h + 1..]) else l
  {
    if k > 0 {
      var h := LeadingHashes(l);
      HeadingStep(l, k);
      if h == k && k < |l| && l[k] == ' ' {
        var o := HeadingHtml(k, l[k + 1..]);
        assert LineRewrite(Heading(k), l) == o;
        HeadingsDownReads(k - 1, o);
        assert o[0] == '<';
        assert LeadingHashes(o) == 0;
      } else {
        assert LineRewrite(Heading(k), l) == l;
        HeadingsDownReads(k - 1, l);
      }
    }
  }

  /** The six heading replaces, longest first, and the rule replace read
      each line as `LineBlock` does. */
  lemma HeadingChainIsLineBlock(l: string)
    ensures ApplyLine(HeadingRules, l) == LineBlock(l)
  {
    HeadingChainUnfolded(l);
    HeadingsDownReads(6, l);
    var h := LeadingHashes(l);
    if 1 <= h <= 6 && h < |l| && l[h] == ' ' {
      HtmlNotReread(h, l[h + 1..], 1);
    }
  }

  function MapLineBlock(lines: seq<string>): (out: seq<string>)
    ensures |out| == |lines|
    ensures forall i :: 0 <= i < |lines| ==> out[i] == LineBlock(lines[i])
  {
    seq(|lines|, i requires 0 <= i < |lines| => LineBlock(lines[i]))
  }

  lemma ChainOnEveryLine(lines: seq<string>)
    ensures AllLineLocal(HeadingRules)
    ensures MapApplyLine(HeadingRules, lines) == MapLineBlock(lines)
  {
    assert AllLineLocal(HeadingRules);
    forall i | 0 <= i < |lines|
      ensures MapApplyLine(HeadingRules, lines)[i] == MapLineBlock(lines)[i]
    {
      HeadingChainIsLineBlock(lines[i]);
    }
  }

  /** Lines 68-74 over a text whose only line terminator is `\n`: every line
      is read on its own, as `LineBlock` reads it. */
  lemma HeadingPasses(s: string)
    requires forall k :: 0 <= k < |s| ==> s[k] == '\n' || !IsLineTerminator(s[k])
    ensures ApplyAll(HeadingRules, s) == Join(MapLineBlock(Split(s, '\n')), "\n")
  {
    var lines := Split(s, '\n');
    forall i | 0 <= i < |lines| ensures SingleLine(lines[i]) {
      PieceOfSplit(s, i);
    }
    ChainOnEveryLine(lines);
    ApplyLines(HeadingRules, lines);
  }

  /** Every piece of `Split(s, c)` is made of characters of `s`. */
  lemma PieceOfSplit(s: string, i: nat)
    requires i < |Split(s, '\n')|
    requires forall k :: 0 <= k < |s| ==> s[k] == '\n' || !IsLineTerminator(s[k])
    ensures SingleLine(Split(s, '\n')[i])
  {
    var parts := Split(s, '\n');
    forall k | 0 <= k < |parts[i]| ensures !IsLineTerminator(parts[i][k]) {
      JoinedPiece(parts, "\n", i, k);
      assert parts[i][k] != '\n';
    }
  }

  /** A character of a piece is a character of the joined text. */
  lemma {:induction false} JoinedPiece(parts: seq<string>, sep: string, i: nat, k: nat)
    requires i < |parts| && k < |parts[i]|
    ensures parts[i][k] in Join(parts, sep)
  {
    if |parts| == 1 {
    } else if i == 0 {
      assert Join(parts, sep) == parts[0] + sep + Join(parts[1..], sep);
      assert Join(parts, sep)[k] == parts[0][k];
    } else {
      JoinedPiece(parts[1..], sep, i - 1, k);
      assert Join(parts, sep) == parts[0] + sep + Join(parts[1..], sep);
    }
  }
}

=== FILE: markdown.dfy ===
/** `parseMarkdown` (src/utils/markdownParser.js), stage by stage:
    fenced code blocks and inline code spans are replaced by numbered
    placeholders, pipe tables are converted line by line, the block and inline
    substitutions run, the text is wrapped in paragraphs and cleaned up, and
    the placeholders are resolved to escaped code. A placeholder whose number
    has no entry in its table makes the source throw a `TypeError`; the model
    returns `None` there. */
module Markdown {
  import opened Strings
  import opened Passes

  /** One captured fenced block: the language tag ("" when absent) and the
      trimmed code. */
  datatype CodeBlock = CodeBlock(lang: string, code: string)

  /** A match of /```(\w+)?\n([\s\S]*?)```/: tag, body and the index just
      after the closing fence. */
  datatype Fence = Fence(lang: string, body: string, end: nat)

  const BlockPrefix: string := "___CODEBLOCK_"
  const InlinePrefix: string := "___INLINECODE_"
  const MarkerEnd: string := "___"

  function BlockMarker(i: nat): string {
    BlockPrefix + Decimal(i) + MarkerEnd
  }

  function InlineMarker(i: nat): string {
    InlinePrefix + Decimal(i) + MarkerEnd
  }

  // ---------------------------------------------------------------------
  // Stage 1: fenced code blocks

  /** Where a greedy `\w*` starting at `p` stops. */
  function WordRunEnd(s: string, p: nat): (e: nat)
    requires p <= |s|
    ensures p <= e <= |s|
    ensures e == |s| || !IsWordChar(s[e])
    ensures forall k :: p <= k < e ==> IsWordChar(s[k])
    decreases |s| - p
  {
    if p == |s| || !IsWordChar(s[p]) then p else WordRunEnd(s, p + 1)
  }

  /** The first "```" at or after `p` (what the lazy `[\s\S]*?` stops at). */
  function FindFence(s: string, p: nat): (r: Option<nat>)
    requires p <= |s|
    ensures r.Some? ==> p <= r.value && HasAt(s, r.value, "```")
    ensures r.Some? ==> forall k :: p <= k < r.value ==> !HasAt(s, k, "```")
    ensures r.None? ==> forall k :: p <= k <= |s| ==> !HasAt(s, k, "```")
    decreases |s| - p
  {
    if p + 3 > |s| then None
    else if HasAt(s, p, "```") then Some(p)
    else FindFence(s, p + 1)
  }

  predicate AllWordChars(w: string) {
    forall k :: 0 <= k < |w| ==> IsWordChar(w[k])
  }

  function FenceAt(s: string, p: nat): (r: Option<Fence>)
    requires p <= |s|
    ensures r.Some? ==> p < r.value.end <= |s| && AllWordChars(r.value.lang)
  {
    if HasAt(s, p, "```") then
      var w := WordRunEnd(s, p + 3);
      if w < |s| && s[w] == '\n' then
        match FindFence(s, w + 1)
        case Some(q) => Some(Fence(s[p + 3..w], s[w + 1..q], q + 3))
        case None => None
      else None
    else None
  }

  /** Stage 1 from index `p`, numbering new blocks from `n`: the protected
      text and the captured blocks. */
  function ProtectFencesFrom(s: string, p: nat, n: nat): (r: (string, seq<CodeBlock>))
    requires p <= |s|
    ensures forall b :: b in r.1 ==> AllWordChars(b.lang) && (b.code == [] || (!IsSpace(b.code[0]) && !IsSpace(b.code[|b.code| - 1])))
    decreases |s| - p
  {
    if p == |s| then ([], [])
    else match FenceAt(s, p)
      case Some(f) =>
        var rest := ProtectFencesFrom(s, f.end, n + 1);
        (BlockMarker(n) + rest.0, [CodeBlock(f.lang, Trim(f.body))] + rest.1)
      case None =>
        var rest := ProtectFencesFrom(s, p + 1, n);
        ([s[p]] + rest.0, rest.1)
  }

  function ProtectFences(s: string): (string, seq<CodeBlock>) {
    ProtectFencesFrom(s, 0, 0)
  }

  // ---------------------------------------------------------------------
  // Stage 2: inline code

  /** A match of /`([^`]+)`/ at `p`: the index after it and the code. */
  function InlineAt(s: string, p: nat): (r: Option<(nat, string)>)
    requires p <= |s|
    ensures r.Some? ==> p < r.value.0 <= |s|
  {
    if p < |s| && s[p] == '`' then
      var q := RunWithout(s, p + 1, '`');
      if p + 1 < q < |s| then Some((q + 1, s[p + 1..q])) else None
    else None
  }

  function ProtectInlineFrom(s: string, p: nat, n: nat): (r: (string, seq<string>))
    requires p <= |s|
    ensures forall c :: c in r.1 ==> c != [] && '`' !in c
    decreases |s| - p
  {
    if p == |s| then ([], [])
    else match InlineAt(s, p)
      case Some((e, code)) =>
        var rest := ProtectInlineFrom(s, e, n + 1);
        (InlineMarker(n) + rest.0, [code] + rest.1)
      case None =>
        var rest := ProtectInlineFrom(s, p + 1, n);
        ([s[p]] + rest.0, rest.1)
  }

  function ProtectInline(s: string): (string, seq<string>) {
    ProtectInlineFrom(s, 0, 0)
  }

  // ---------------------------------------------------------------------
  // Stage 3: pipe tables

  datatype TableBlock = TableBlock(header: seq<string>, rows: seq<seq<string>>)

  /** A table cell: non-empty, trimmed, free of pipes. */
  predicate CleanCell(c: string) {
    c != [] && '|' !in c && !IsSpace(c[0]) && !IsSpace(c[|c| - 1])
  }

  function TrimEach(parts: seq<string>): (r: seq<string>)
    ensures |r| == |parts|
    ensures forall i :: 0 <= i < |r| ==> r[i] == Trim(parts[i])
  {
    seq(|parts|, i requires 0 <= i < |parts| => Trim(parts[i]))
  }

  function DropEmpty(parts: seq<string>): (r: seq<string>)
    ensures forall x :: x in r ==> x != [] && x in parts
    ensures |r| <= |parts|
  {
    if parts == [] then []
    else if parts[0] == [] then DropEmpty(parts[1..])
    else [parts[0]] + DropEmpty(parts[1..])
  }

  /** The cells of a table line: the pieces between pipes, trimmed, with
      the empty ones dropped. */
  function Cells(line: string): (cells: seq<string>)
    ensures forall c :: c in cells ==> CleanCell(c)
  {
    var trimmed := TrimEach(Split(line, '|'));
    TrimmedPiecesClean(Split(line, '|'));
    DropEmpty(trimmed)
  }

  /** The trimmed pieces between pipes are pipe-free, and the non-empty ones
      are clean cells. */
  lemma TrimmedPiecesClean(pieces: seq<string>)
    requires forall i :: 0 <= i < |pieces| ==> '|' !in pieces[i]
    ensures forall c :: c in TrimEach(pieces) && c != [] ==> CleanCell(c)
  {
    var trimmed := TrimEach(pieces);
    forall i | 0 <= i < |trimmed| && trimmed[i] != [] ensures CleanCell(trimmed[i]) {
      TrimKeepsAbsent(pieces[i], '|');
    }
  }

  /** Body rows: one per line from the third on, skipping lines with no cell. */
  function BodyRows(lines: seq<string>): (rows: seq<seq<string>>)
    ensures forall i :: 0 <= i < |rows| ==> rows[i] != []
    ensures |rows| <= |lines|
  {
    if lines == [] then []
    else if Cells(lines[0]) == [] then BodyRows(lines[1..])
    else [Cells(lines[0])] + BodyRows(lines[1..])
  }

  /** The header comes from the first line and the rows from the third line on. */
  function ParseTable(lines: seq<string>): TableBlock
    requires |lines| >= 2
  {
    TableBlock(Cells(lines[0]), BodyRows(lines[2..]))
  }

  function HeaderCells(cells: seq<string>): string {
    if cells == [] then [] else "<th>" + cells[0] + "</th>\n" + HeaderCells(cells[1..])
  }

  function DataCells(cells: seq<string>): string {
    if cells == [] then [] else "<td>" + cells[0] + "</td>\n" + DataCells(cells[1..])
  }

  function RowsHtml(rows: seq<seq<string>>): string {
    if rows == [] then [] else "<tr>\n" + DataCells(rows[0]) + "</tr>\n" + RowsHtml(rows[1..])
  }

  function TableHtml(t: TableBlock): string {
    "<div class=\"table-wrapper\">"
    + "<table>\n<thead>\n<tr>\n" + HeaderCells(t.header) + "</tr>\n</thead>\n<tbody>\n"
    + RowsHtml(t.rows) + "</tbody>\n</table>"
    + "</div>"
  }

  predicate HasPipe(line: string) { '|' in line }

  /** A table starts at line `i`: it has a pipe, and the next line has a pipe
      and a hyphen. */
  predicate StartsTable(lines: seq<string>, i: nat) {
    i + 1 < |lines| && HasPipe(lines[i]) && HasPipe(lines[i + 1]) && '-' in lines[i + 1]
  }

  /** The end of the run of pipe lines starting at `i`. */
  function PipeRunEnd(lines: seq<string>, i: nat): (j: nat)
    requires i <= |lines|
    ensures i <= j <= |lines|
    ensures forall k :: i <= k < j ==> HasPipe(lines[k])
    ensures j == |lines| || !HasPipe(lines[j])
    decreases |lines| - i
  {
    if i == |lines| || !HasPipe(lines[i]) then i else PipeRunEnd(lines, i + 1)
  }

  /** The line loop of stage 3 from line `i`. */
  function ConvertTablesFrom(lines: seq<string>, i: nat): (out: seq<string>)
    requires i <= |lines|
    ensures |out| <= |lines| - i
    decreases |lines| - i
  {
    if i == |lines| then []
    else if StartsTable(lines, i) then
      var j := PipeRunEnd(lines, i);
      [TableHtml(ParseTable(lines[i..j]))] + ConvertTablesFrom(lines, j)
    else [lines[i]] + ConvertTablesFrom(lines, i + 1)
  }

  function ConvertTables(s: string): string {
    Join(ConvertTablesFrom(Split(s, '\n'), 0), "\n")
  }

  // ---------------------------------------------------------------------
  // Stages 4 to 7: substitutions, paragraphs, cleanup

  /** Lines 67-86 of the source, in order. */
  const BlockRules: seq<Rule> := [
    Heading(6), Heading(5), Heading(4), Heading(3), Heading(2), Heading(1),
    HorizontalRule, Bullet('-'), Bullet('*'), Numbered,
    Strong, Emphasis, Link, Quote,
    Literal("⇒", "→"), Literal("\n\n", "</p><p>")
  ]

  /** Lines 88-102 of the source, in order. */
  const CleanupRules: seq<Rule> := [
    UnwrapHeadingOpen, UnwrapHeadingClose,
    Literal("<p><blockquote>", "<blockquote>"), Literal("</blockquote></p>", "</blockquote>"),
    Literal("<p><hr></p>", "<hr>"), Literal("<p><table", "<table"), Literal("</table></p>", "</table>"),
    Literal("<p></p>", ""),
    Literal("<p><li>", "<ul><li>"), Literal("</li></p>", "</li></ul>"),
    Literal("</li><br><li>", "</li><li>"), Literal("</ul><ul>", "")
  ]

  function Paragraphs(s: string): string {
    ApplyAll(CleanupRules, "<p>" + s + "</p>")
  }

  // ---------------------------------------------------------------------
  // Stage 8: placeholders

  /** The five `.replace` calls that escape code, `&` first. */
  const EscapeRules: seq<Rule> := [
    Literal("&", "&amp;"), Literal("<", "&lt;"), Literal(">", "&gt;"),
    Literal("\"", "&quot;"), Literal("'", "&#039;")
  ]

  function Escape(s: string): string {
    ApplyAll(EscapeRules, s)
  }

  function BlockHtml(b: CodeBlock): string {
    var cls := if b.lang != [] then "language-" + b.lang else "language-plaintext";
    "<pre><code class=\"" + cls + "\">" + Escape(b.code) + "</code></pre>"
  }

  function InlineHtml(code: string): string {
    "<code>" + Escape(code) + "</code>"
  }

  /** A match of /PREFIX(\d+)___/ at `p`: the index after it and the number. */
  function RefAt(s: string, p: nat, prefix: string): (r: Option<(nat, nat)>)
    requires p <= |s|
    ensures r.Some? ==> p < r.value.0 <= |s|
  {
    if HasAt(s, p, prefix) then
      var d := DigitRunEnd(s, p + |prefix|);
      if p + |prefix| < d && HasAt(s, d, MarkerEnd) then
        Some((d + 3, DecimalValue(s[p + |prefix|..d])))
      else None
    else None
  }

  /** Resolving block placeholders from `p`; `None` when a number has no block. */
  function ResolveBlocksFrom(s: string, p: nat, blocks: seq<CodeBlock>): Option<string>
    requires p <= |s|
    decreases |s| - p
  {
    if p == |s| then Some([])
    else match RefAt(s, p, BlockPrefix)
      case Some((e, i)) =>
        if i < |blocks| then
          match ResolveBlocksFrom(s, e, blocks)
          case Some(rest) => Some(BlockHtml(blocks[i]) + rest)
          case None => None
        else None
      case None =>
        match ResolveBlocksFrom(s, p + 1, blocks)
        case Some(rest) => Some([s[p]] + rest)
        case None => None
  }

  function ResolveInlineFrom(s: string, p: nat, codes: seq<string>): Option<string>
    requires p <= |s|
    decreases |s| - p
  {
    if p == |s| then Some([])
    else match RefAt(s, p, InlinePrefix)
      case Some((e, i)) =>
        if i < |codes| then
          match ResolveInlineFrom(s, e, codes)
          case Some(rest) => Some(InlineHtml(codes[i]) + rest)
          case None => None
        else None
      case None =>
        match ResolveInlineFrom(s, p + 1, codes)
        case Some(rest) => Some([s[p]] + rest)
        case None => None
  }

  // ---------------------------------------------------------------------
  // The whole renderer

  /** The text handed to placeholder resolution, with the two tables. */
  datatype Staged = Staged(text: string, blocks: seq<CodeBlock>, codes: seq<string>)

  function Prepare(markdown: string): Staged {
    var fenced := ProtectFences(markdown);
    var inlined := ProtectInline(fenced.0);
    var tabled := ConvertTables(inlined.0);
    var substituted := ApplyAll(BlockRules, tabled);
    Staged(Paragraphs(substituted), fenced.1, inlined.1)
  }

  function Render(markdown: string): Option<string> {
    var st := Prepare(markdown);
    match ResolveBlocksFrom(st.text, 0, st.blocks)
    case None => None
    case Some(t) => ResolveInlineFrom(t, 0, st.codes)
  }
}

=== FILE: paging.dfy ===
/** The page arithmetic of src/components/PostList.jsx: ten posts a page,
    the number of pages, the window a page shows and the page buttons. */
module Paging {

  const PostsPerPage: nat := 10

  /** The number of pages: `n` divided by ten, rounded up. */
  function TotalPages(n: nat): (t: nat)
    ensures t * PostsPerPage >= n
    ensures t == 0 || (t - 1) * PostsPerPage < n
  {
    (n + PostsPerPage - 1) / PostsPerPage
  }

  /** `posts.slice(start, end)` for non-negative bounds: both are clamped to
      the length. */
  function Slice<T>(s: seq<T>, start: nat, end: nat): (r: seq<T>)
    ensures |r| <= if end >= start then end - start else 0
    ensures start <= end <= |s| ==> r == s[start..end]
  {
    var a := if start <= |s| then start else |s|;
    var b := if end <= |s| then end else |s|;
    if a <= b then s[a..b] else []
  }

  /** The posts page `page` shows: from `(page - 1) * 10` up to `page * 10`.
      Pages are counted from 1; the buttons never leave that range. */
  function Window<T>(posts: seq<T>, page: nat): (r: seq<T>)
    requires page >= 1
    ensures |r| <= PostsPerPage
    ensures page <= TotalPages(|posts|) ==> |r| >= 1
    ensures page > TotalPages(|posts|) ==> r == []
  {
    Slice(posts, (page - 1) * PostsPerPage, page * PostsPerPage)
  }

  /** The pagination controls appear only with more than one page. */
  predicate ShowControls(n: nat) {
    TotalPages(n) > 1
  }

  /** The controls appear exactly when there are more posts than one page
      holds. */
  lemma ShowControlsIff(n: nat)
    ensures ShowControls(n) <==> n > PostsPerPage
  {
  }

  /** The three controls: "previous", "next" and a numbered button. */
  datatype Control = Previous | Next | Number(index: nat)

  /** `setCurrentPage` for each control: `Math.max(prev - 1, 1)`,
      `Math.min(prev + 1, totalPages)` and `index + 1` for the button of
      `index`, which the buttons offer only below `totalPages`. */
  function Press(page: nat, c: Control, total: nat): (r: nat)
    requires c.Number? ==> c.index < total
  {
    match c
    case Previous => if page - 1 >= 1 then page - 1 else 1
    case Next => if page + 1 <= total then page + 1 else total
    case Number(index) => index + 1
  }

  /** Pressing any control keeps the page within `[1, totalPages]`. */
  lemma PressStaysInRange(page: nat, c: Control, total: nat)
    requires 1 <= page <= total
    requires c.Number? ==> c.index < total
    ensures 1 <= Press(page, c, total) <= total
  {
  }

  /** The pages 1 to `k`, in order. */
  function Pages<T>(posts: seq<T>, k: nat): seq<T> {
    if k == 0 then [] else Pages(posts, k - 1) + Window(posts, k)
  }

  lemma {:induction false} PagesPrefix<T>(posts: seq<T>, k: nat)
    requires k * PostsPerPage <= |posts|
    ensures Pages(posts, k) == posts[..k * PostsPerPage]
  {
    if k > 0 {
      PagesPrefix(posts, k - 1);
      assert posts[..k * PostsPerPage]
        == posts[..(k - 1) * PostsPerPage] + posts[(k - 1) * PostsPerPage..k * PostsPerPage];
    }
  }

  /** The last page starts after all full pages before it. */
  lemma LastPageStart(n: nat) returns (q: nat)
    requires TotalPages(n) > 0
    ensures q == (TotalPages(n) - 1) * PostsPerPage
    ensures q < n <= TotalPages(n) * PostsPerPage
  {
    q := (TotalPages(n) - 1) * PostsPerPage;
  }

  /** The last page shows everything from its start on. */
  lemma LastWindow<T>(posts: seq<T>, t: nat, q: nat)
    requires t >= 1 && q == (t - 1) * PostsPerPage
    requires q < |posts| <= t * PostsPerPage
    ensures Window(posts, t) == posts[q..]
  {
    assert (t - 1) * PostsPerPage == q;
    assert Slice(posts, q, t * PostsPerPage) == posts[q..|posts|];
  }

  /** `t` pages, the last of them partly filled, hold exactly the list. */
  lemma PagesOfCount<T>(posts: seq<T>, t: nat)
    requires t >= 1 && (t - 1) * PostsPerPage < |posts| <= t * PostsPerPage
    ensures Pages(posts, t) == posts
  {
    var q := (t - 1) * PostsPerPage;
    PagesPrefix(posts, t - 1);
    LastWindow(posts, t, q);
    assert Pages(posts, t) == posts[..q] + posts[q..];
  }

  /** The windows of pages 1 to `totalPages`, in order, are the whole list:
      every post is on exactly one page. */
  lemma PagesCoverAll<T>(posts: seq<T>)
    ensures Pages(posts, TotalPages(|posts|)) == posts
  {
    if |posts| > 0 {
      var q := LastPageStart(|posts|);
      PagesOfCount(posts, TotalPages(|posts|));
    }
  }
}

=== FILE: passes.dfy ===
/** The substitution passes of `parseMarkdown` (src/utils/markdownParser.js).
    Each `html.replace(/re/g, ...)` call is a `Rule`: `MatchAt(rule, s, p)` says
    whether the regular expression matches at position `p` of `s` and, if so,
    where the match ends and what replaces it; `ReplaceFrom` is the global
    left-to-right scan of `String.prototype.replace`. Every expression used by
    the renderer is free of real backtracking (each repetition stops at a
    character it cannot consume, and that character is the one the rest of the
    expression needs), so one greedy reading decides each match. */
module Passes {
  import opened Strings

  /** The digit of an `<hN>` element. */
  type Level = k: nat | 1 <= k <= 6 witness 1

  /** A match: the index just after it and its replacement text. */
  datatype Hit = Hit(end: nat, out: string)

  datatype Rule =
    | Heading(level: Level)           // /^#{k} (.*$)/gim         -> <hk>$1</hk>
    | HorizontalRule                  // /^---$/gim                -> <hr>
    | Bullet(marker: char)            // /^\s*\- (.*$)/gim, /^\s*\* (.*$)/gim -> <li>$1</li>
    | Numbered                        // /^\s*\d+\. (.*$)/gim      -> <li>$1</li>
    | Strong                          // /\*\*([^*]+)\*\*/g        -> <strong>$1</strong>
    | Emphasis                        // /\*([^*]+)\*/g            -> <em>$1</em>
    | Link                            // /\[([^\]]+)\]\(([^)]+)\)/g -> anchor
    | Quote                           // /^> (.*$)/gim             -> <blockquote>$1</blockquote>
    | Literal(from: string, to: string)  // a fixed text and its replacement
    | UnwrapHeadingOpen               // /<p>(<h[1-6]>)/g          -> $1
    | UnwrapHeadingClose              // /(<\/h[1-6]>)<\/p>/g      -> $1

  /** `w` occurs in `s` at index `p`. */
  predicate HasAt(s: string, p: nat, w: string) {
    p + |w| <= |s| && s[p..p + |w|] == w
  }

  /** `^` of a multi-line expression holds at `p`. */
  predicate AtLineStart(s: string, p: nat)
    requires p <= |s|
  {
    p == 0 || IsLineTerminator(s[p - 1])
  }

  /** Where `.*$` starting at `p` stops: the next line terminator or the end. */
  function LineEnd(s: string, p: nat): (e: nat)
    requires p <= |s|
    ensures p <= e <= |s|
    ensures e == |s| || IsLineTerminator(s[e])
    ensures forall k :: p <= k < e ==> !IsLineTerminator(s[k])
    decreases |s| - p
  {
    if p == |s| || IsLineTerminator(s[p]) then p else LineEnd(s, p + 1)
  }

  /** Where a greedy `\s*` starting at `p` stops. */
  function SpaceRunEnd(s: string, p: nat): (e: nat)
    requires p <= |s|
    ensures p <= e <= |s|
    ensures e == |s| || !IsSpace(s[e])
    ensures forall k :: p <= k < e ==> IsSpace(s[k])
    decreases |s| - p
  {
    if p == |s| || !IsSpace(s[p]) then p else SpaceRunEnd(s, p + 1)
  }

  /** Where a greedy `\d*` starting at `p` stops. */
  function DigitRunEnd(s: string, p: nat): (e: nat)
    requires p <= |s|
    ensures p <= e <= |s|
    ensures e == |s| || !IsDigit(s[e])
    ensures forall k :: p <= k < e ==> IsDigit(s[k])
    decreases |s| - p
  {
    if p == |s| || !IsDigit(s[p]) then p else DigitRunEnd(s, p + 1)
  }

  /** Where a greedy `[^c]*` starting at `p` stops: at the next `c` or the end. */
  function RunWithout(s: string, p: nat, c: char): (e: nat)
    requires p <= |s|
    ensures p <= e <= |s|
    ensures e == |s| || s[e] == c
    ensures forall k :: p <= k < e ==> s[k] != c
    decreases |s| - p
  {
    if p == |s| || s[p] == c then p else RunWithout(s, p + 1, c)
  }

  function Hashes(k: nat): (r: string)
    ensures |r| == k && forall i :: 0 <= i < k ==> r[i] == '#'
  {
    seq(k, i => '#')
  }

  /** The tag name `hk`. */
  function HeadingTag(k: Level): string {
    "h" + [DigitChar(k)]
  }

  function HeadingHtml(k: Level, text: string): string {
    "<" + HeadingTag(k) + ">" + text + "</" + HeadingTag(k) + ">"
  }

  function ListItemHtml(text: string): string {
    "<li>" + text + "</li>"
  }

  /** The anchor a markdown link becomes. */
  function LinkHtml(text: string, url: string): string {
    "<a href=\"" + url + "\" target=\"_blank\" rel=\"noopener noreferrer\">" + text + "</a>"
  }

  function MatchHeading(k: Level, s: string, p: nat): (h: Option<Hit>)
    requires p < |s|
    ensures h.Some? ==> p < h.value.end <= |s|
  {
    if AtLineStart(s, p) && HasAt(s, p, Hashes(k) + " ") then
      var e := LineEnd(s, p + k + 1);
      Some(Hit(e, HeadingHtml(k, s[p + k + 1..e])))
    else None
  }

  function MatchHorizontalRule(s: string, p: nat): (h: Option<Hit>)
    requires p < |s|
    ensures h.Some? ==> p < h.value.end <= |s|
  {
    if AtLineStart(s, p) && HasAt(s, p, "---") && (p + 3 == |s| || IsLineTerminator(s[p + 3])) then
      Some(Hit(p + 3, "<hr>"))
    else None
  }

  function MatchBullet(m: char, s: string, p: nat): (h: Option<Hit>)
    requires p < |s|
    ensures h.Some? ==> p < h.value.end <= |s|
  {
    if AtLineStart(s, p) then
      var q := SpaceRunEnd(s, p);
      if q + 2 <= |s| && s[q] == m && s[q + 1] == ' ' then
        var e := LineEnd(s, q + 2);
        Some(Hit(e, ListItemHtml(s[q + 2..e])))
      else None
    else None
  }

  function MatchNumbered(s: string, p: nat): (h: Option<Hit>)
    requires p < |s|
    ensures h.Some? ==> p < h.value.end <= |s|
  {
    if AtLineStart(s, p) then
      var q := SpaceRunEnd(s, p);
      var d := DigitRunEnd(s, q);
      if q < d && d + 2 <= |s| && s[d] == '.' && s[d + 1] == ' ' then
        var e := LineEnd(s, d + 2);
        Some(Hit(e, ListItemHtml(s[d + 2..e])))
      else None
    else None
  }

  function MatchStrong(s: string, p: nat): (h: Option<Hit>)
    requires p < |s|
    ensures h.Some? ==> p < h.value.end <= |s|
  {
    if HasAt(s, p, "**") then
      var q := RunWithout(s, p + 2, '*');
      if p + 2 < q && HasAt(s, q, "**") then
        Some(Hit(q + 2, "<strong>" + s[p + 2..q] + "</strong>"))
      else None
    else None
  }

  function MatchEmphasis(s: string, p: nat): (h: Option<Hit>)
    requires p < |s|
    ensures h.Some? ==> p < h.value.end <= |s|
  {
    if s[p] == '*' then
      var q := RunWithout(s, p + 1, '*');
      if p + 1 < q < |s| then
        Some(Hit(q + 1, "<em>" + s[p + 1..q] + "</em>"))
      else None
    else None
  }

  function MatchLink(s: string, p: nat): (h: Option<Hit>)
    requires p < |s|
    ensures h.Some? ==> p < h.value.end <= |s|
  {
    if s[p] == '[' then
      var a := RunWithout(s, p + 1, ']');
      if p + 1 < a && HasAt(s, a, "](") then
        var b := RunWithout(s, a + 2, ')');
        if a + 2 < b < |s| then
          Some(Hit(b + 1, LinkHtml(s[p + 1..a], s[a + 2..b])))
        else None
      else None
    else None
  }

  function MatchQuote(s: string, p: nat): (h: Option<Hit>)
    requires p < |s|
    ensures h.Some? ==> p < h.value.end <= |s|
  {
    if AtLineStart(s, p) && HasAt(s, p, "> ") then
      var e := LineEnd(s, p + 2);
      Some(Hit(e, "<blockquote>" + s[p + 2..e] + "</blockquote>"))
    else None
  }

  function MatchLiteral(from: string, to: string, s: string, p: nat): (h: Option<Hit>)
    requires p < |s|
    ensures h.Some? ==> p < h.value.end <= |s|
  {
    if |from| > 0 && HasAt(s, p, from) then Some(Hit(p + |from|, to)) else None
  }

  predicate IsHeadingDigit(c: char) { '1' <= c <= '6' }

  function MatchUnwrapOpen(s: string, p: nat): (h: Option<Hit>)
    requires p < |s|
    ensures h.Some? ==> p < h.value.end <= |s|
  {
    if HasAt(s, p, "<p><h") && p + 7 <= |s| && IsHeadingDigit(s[p + 5]) && s[p + 6] == '>' then
      Some(Hit(p + 7, s[p + 3..p + 7]))
    else None
  }

  function MatchUnwrapClose(s: string, p: nat): (h: Option<Hit>)
    requires p < |s|
    ensures h.Some? ==> p < h.value.end <= |s|
  {
    if HasAt(s, p, "</h") && p + 9 <= |s| && IsHeadingDigit(s[p + 3]) && s[p + 4..p + 9] == "></p>" then
      Some(Hit(p + 9, s[p..p + 5]))
    else None
  }

  function MatchAt(rule: Rule, s: string, p: nat): (h: Option<Hit>)
    requires p < |s|
    ensures h.Some? ==> p < h.value.end <= |s|
  {
    match rule
    case Heading(k) => MatchHeading(k, s, p)
    case HorizontalRule => MatchHorizontalRule(s, p)
    case Bullet(m) => MatchBullet(m, s, p)
    case Numbered => MatchNumbered(s, p)
    case Strong => MatchStrong(s, p)
    case Emphasis => MatchEmphasis(s, p)
    case Link => MatchLink(s, p)
    case Quote => MatchQuote(s, p)
    case Literal(from, to) => MatchLiteral(from, to, s, p)
    case UnwrapHeadingOpen => MatchUnwrapOpen(s, p)
    case UnwrapHeadingClose => MatchUnwrapClose(s, p)
  }

  /** What the expression matches at each index of `s`. */
  function MatchTable(rule: Rule, s: string): (t: seq<Option<Hit>>)
    ensures |t| == |s|
    ensures forall i :: 0 <= i < |s| ==> t[i] == MatchAt(rule, s, i)
    ensures Advancing(t)
  {
    seq(|s|, i requires 0 <= i < |s| => MatchAt(rule, s, i))
  }

  /** Every match recorded in `t` ends after its start and within `t`. */
  predicate Advancing(t: seq<Option<Hit>>) {
    forall i :: 0 <= i < |t| && t[i].Some? ==> i < t[i].value.end <= |t|
  }

  /** The global scan of `replace` from index `p`, given the match at each
      index: where there is none, one character is copied and the scan moves
      on by one; where there is one, the replacement is emitted and the scan
      resumes after the match. */
  function Scan(t: seq<Option<Hit>>, s: string, p: nat): string
    requires |t| == |s| && Advancing(t) && p <= |s|
    decreases |s| - p
  {
    if p == |s| then []
    else match t[p]
      case Some(h) => h.out + Scan(t, s, h.end)
      case None => [s[p]] + Scan(t, s, p + 1)
  }

  /** `s.replace(re, ...)` from index `p`. Matches are tried against the
      original string throughout. */
  function ReplaceFrom(rule: Rule, s: string, p: nat): string
    requires p <= |s|
  {
    Scan(MatchTable(rule, s), s, p)
  }

  function ReplaceAll(rule: Rule, s: string): string {
    ReplaceFrom(rule, s, 0)
  }

  /** A chain of `.replace(...)` calls, applied left to right. */
  function ApplyAll(rules: seq<Rule>, s: string): string
    decreases |rules|
  {
    if rules == [] then s else ApplyAll(rules[1..], ReplaceAll(rules[0], s))
  }

  // ---------------------------------------------------------------------
  // Generic facts about the scan, for any table of matches

  lemma {:induction false} ScanSkip(t: seq<Option<Hit>>, s: string, p: nat, q: nat)
    requires |t| == |s| && Advancing(t) && p <= q <= |s|
    requires forall i :: p <= i < q ==> t[i].None?
    ensures Scan(t, s, p) == s[p..q] + Scan(t, s, q)
    decreases q - p
  {
    if p < q {
      assert t[p].None?;
      assert Scan(t, s, p) == [s[p]] + Scan(t, s, p + 1);
      ScanSkip(t, s, p + 1, q);
      assert s[p..q] == [s[p]] + s[p + 1..q];
    }
  }

  /** Two scans that meet the same matches and characters on `[p, |a|)`
      emit the same text there. */
  lemma {:induction false} ScanCut(ts: seq<Option<Hit>>, s: string, ta: seq<Option<Hit>>, a: string, p: nat)
    requires |ts| == |s| && Advancing(ts) && |ta| == |a| && Advancing(ta)
    requires p <= |a| <= |s|
    requires forall i :: p <= i < |a| ==> s[i] == a[i] && ts[i] == ta[i]
    ensures Scan(ts, s, p) == Scan(ta, a, p) + Scan(ts, s, |a|)
    decreases |a| - p
  {
    if p < |a| {
      match ta[p]
      case Some(h) =>
        assert Scan(ts, s, p) == h.out + Scan(ts, s, h.end);
        ScanCut(ts, s, ta, a, h.end);
        assert h.out + (Scan(ta, a, h.end) + Scan(ts, s, |a|))
          == (h.out + Scan(ta, a, h.end)) + Scan(ts, s, |a|);
      case None =>
        assert Scan(ts, s, p) == [a[p]] + Scan(ts, s, p + 1);
        ScanCut(ts, s, ta, a, p + 1);
        assert [a[p]] + (Scan(ta, a, p + 1) + Scan(ts, s, |a|))
          == ([a[p]] + Scan(ta, a, p + 1)) + Scan(ts, s, |a|);
    }
  }

  /** A hit moved `d` positions to the right. */
  function ShiftHit(h: Option<Hit>, d: nat): Option<Hit> {
    match h
    case None => None
    case Some(x) => Some(Hit(d + x.end, x.out))
  }

  /** What the scan emits at `q`, and the index it goes on from. */
  function StepOut(t: seq<Option<Hit>>, s: string, q: nat): string
    requires |t| == |s| && q < |s|
  {
    match t[q]
    case Some(h) => h.out
    case None => [s[q]]
  }

  function StepEnd(t: seq<Option<Hit>>, q: nat): (e: nat)
    requires Advancing(t) && q < |t|
    ensures q < e <= |t|
  {
    match t[q]
    case Some(h) => h.end
    case None => q + 1
  }

  lemma ScanStep(t: seq<Option<Hit>>, s: string, q: nat)
    requires |t| == |s| && Advancing(t) && q < |s|
    ensures Scan(t, s, q) == StepOut(t, s, q) + Scan(t, s, StepEnd(t, q))
  {
  }

  /** Index `i` of `t` reads as index `d + i` of `s`, matches included. */
  predicate ShiftedAt(ts: seq<Option<Hit>>, s: string, tt: seq<Option<Hit>>, t: string, d: nat, i: nat)
    requires |ts| == |s| && |tt| == |t| && i < |t| && |s| == d + |t|
  {
    s[d + i] == t[i] && ts[d + i] == ShiftHit(tt[i], d)
  }

  /** One step of a shifted scan emits what the scan of `t` emits. */
  lemma ShiftedStep(ts: seq<Option<Hit>>, s: string, tt: seq<Option<Hit>>, t: string, d: nat, q: nat)
    requires |ts| == |s| && Advancing(ts) && |tt| == |t| && Advancing(tt)
    requires q < |t| && |s| == d + |t|
    requires ShiftedAt(ts, s, tt, t, d, q)
    ensures StepOut(ts, s, d + q) == StepOut(tt, t, q)
    ensures StepEnd(ts, d + q) == d + StepEnd(tt, q)
  {
  }

  /** A scan of `t` placed at offset `d` of `s`, whose matches are those of
      `t` moved by `d`, emits what the scan of `t` emits. */
  lemma {:induction false} ScanShift(ts: seq<Option<Hit>>, s: string, tt: seq<Option<Hit>>, t: string, d: nat, q: nat)
    requires |ts| == |s| && Advancing(ts) && |tt| == |t| && Advancing(tt)
    requires q <= |t| && |s| == d + |t|
    requires forall i :: q <= i < |t| ==> ShiftedAt(ts, s, tt, t, d, i)
    ensures Scan(ts, s, d + q) == Scan(tt, t, q)
    decreases |t| - q
  {
    if q < |t| {
      ShiftedStep(ts, s, tt, t, d, q);
      ScanStep(ts, s, d + q);
      ScanStep(tt, t, q);
      ScanShift(ts, s, tt, t, d, StepEnd(tt, q));
    }
  }

  // ---------------------------------------------------------------------
  // The same facts for the scan of one expression

  /** A stretch where the expression never matches is copied verbatim. */
  lemma ReplaceSkip(rule: Rule, s: string, p: nat, q: nat)
    requires p <= q <= |s|
    requires forall i :: p <= i < q ==> MatchAt(rule, s, i).None?
    ensures ReplaceFrom(rule, s, p) == s[p..q] + ReplaceFrom(rule, s, q)
  {
    ScanSkip(MatchTable(rule, s), s, p, q);
  }

  /** A string in which the expression never matches is left unchanged. */
  lemma ReplaceNoMatch(rule: Rule, s: string)
    requires forall i :: 0 <= i < |s| ==> MatchAt(rule, s, i).None?
    ensures ReplaceAll(rule, s) == s
  {
    ReplaceSkip(rule, s, 0, |s|);
  }

  /** The chain is a composition: applying `a + b` is applying `a`, then `b`. */
  lemma {:induction false} ApplyAllAppend(a: seq<Rule>, b: seq<Rule>, s: string)
    ensures ApplyAll(a + b, s) == ApplyAll(b, ApplyAll(a, s))
    decreases |a|
  {
    if a == [] {
      assert a + b == b;
    } else {
      assert (a + b)[1..] == a[1..] + b;
      ApplyAllAppend(a[1..], b, ReplaceAll(a[0], s));
    }
  }

  /** What one step of the scan emits at `p`, and where it goes on. */
  function Emitted(rule: Rule, s: string, p: nat): string
    requires p < |s|
  {
    match MatchAt(rule, s, p)
    case None => [s[p]]
    case Some(h) => h.out
  }

  function NextPos(rule: Rule, s: string, p: nat): (q: nat)
    requires p < |s|
    ensures p < q <= |s|
  {
    match MatchAt(rule, s, p)
    case None => p + 1
    case Some(h) => h.end
  }

  lemma ReplaceStep(rule: Rule, s: string, p: nat)
    requires p < |s|
    ensures ReplaceFrom(rule, s, p) == Emitted(rule, s, p) + ReplaceFrom(rule, s, NextPos(rule, s, p))
  {
    var t := MatchTable(rule, s);
    assert t[p] == MatchAt(rule, s, p);
  }

  /** At `p`, `s` and its prefix `a` hold the same character and the
      expression matches alike. */
  predicate Agree(rule: Rule, s: string, a: string, p: nat)
    requires p < |a| <= |s|
  {
    s[p] == a[p] && MatchAt(rule, s, p) == MatchAt(rule, a, p)
  }

  /** When the expression matches alike in `s` and its prefix `a`, the
      scan of `s` emits the scan of `a` first. */
  lemma ReplaceCut(rule: Rule, s: string, a: string, p: nat)
    requires p <= |a| <= |s|
    requires forall i :: p <= i < |a| ==> Agree(rule, s, a, i)
    ensures ReplaceFrom(rule, s, p) == ReplaceFrom(rule, a, p) + ReplaceFrom(rule, s, |a|)
  {
    var ts, ta := MatchTable(rule, s), MatchTable(rule, a);
    forall i | p <= i < |a| ensures s[i] == a[i] && ts[i] == ta[i] {
      assert Agree(rule, s, a, i);
    }
    ScanCut(ts, s, ta, a, p);
  }

  /** Position `i` of `t` reads as position `d + i` of `s`. */
  predicate AgreeShifted(rule: Rule, s: string, t: string, d: nat, i: nat)
    requires i < |t| && |s| == d + |t|
  {
    s[d + i] == t[i] && MatchAt(rule, s, d + i) == ShiftHit(MatchAt(rule, t, i), d)
  }

  /** When `t` sits at offset `d` of `s` and the expression matches at each
      position of `t` as it matches at the same position of `s`, the scans
      agree from there on. */
  lemma ReplaceShift(rule: Rule, s: string, t: string, d: nat, q: nat)
    requires q <= |t| && |s| == d + |t|
    requires forall i :: q <= i < |t| ==> AgreeShifted(rule, s, t, d, i)
    ensures ReplaceFrom(rule, s, d + q) == ReplaceFrom(rule, t, q)
  {
    var ts, tt := MatchTable(rule, s), MatchTable(rule, t);
    forall i | q <= i < |t| ensures ShiftedAt(ts, s, tt, t, d, i) {
      assert AgreeShifted(rule, s, t, d, i);
    }
    ScanShift(ts, s, tt, t, d, q);
  }
}

=== FILE: plain.dfy ===
/** `parseMarkdown` (src/utils/markdownParser.js) on text with no markup in
    it: a run of word characters passes the sixteen substitutions of lines
    67-86 unchanged, and text without a tag comes out of the paragraph
    wrapping and clean-up of lines 87-102 as one paragraph. */
module PlainText {
  import opened Strings
  import opened Passes
  import opened Markdown

  // ---------------------------------------------------------------------
  // Substitutions

  /** A run of word characters that does not start with a digit. */
  predicate WordText(s: string) {
    AllWordChars(s) && (s != [] ==> !IsDigit(s[0]))
  }

  /** The rules that need a character other than a word character to fire:
      everything in the substitution stage. */
  predicate WordInert(r: Rule) {
    match r
    case Bullet(m) => !IsWordChar(m)
    case Literal(from, _) => |from| > 0 && !IsWordChar(from[0])
    case UnwrapHeadingOpen => false
    case UnwrapHeadingClose => false
    case _ => true
  }

  /** Word characters end no line, so only the start is a line start. */
  lemma WordLineStart(s: string, i: nat)
    requires i < |s| && AllWordChars(s) && AtLineStart(s, i)
    ensures i == 0
  {
    if i > 0 {
      assert IsWordChar(s[i - 1]);
    }
  }

  /** The first character of a match at `i`. */
  lemma FirstOfMatch(s: string, i: nat, w: string)
    requires i < |s| && |w| > 0 && HasAt(s, i, w)
    ensures s[i] == w[0]
  {
    assert s[i] == s[i..i + |w|][0];
  }

  lemma WordRuleMisses(r: Rule, s: string, i: nat)
    requires WordInert(r) && WordText(s) && i < |s|
    ensures MatchAt(r, s, i).None?
  {
    assert IsWordChar(s[i]);
    match r
    case Heading(k) =>
      if HasAt(s, i, Hashes(k) + " ") {
        FirstOfMatch(s, i, Hashes(k) + " ");
      }
    case HorizontalRule =>
      if HasAt(s, i, "---") {
        FirstOfMatch(s, i, "---");
      }
    case Bullet(m) =>
      if AtLineStart(s, i) {
        WordLineStart(s, i);
        assert SpaceRunEnd(s, 0) == 0;
      }
    case Numbered =>
      if AtLineStart(s, i) {
        WordLineStart(s, i);
        assert SpaceRunEnd(s, 0) == 0;
        assert DigitRunEnd(s, 0) == 0;
      }
    case Strong =>
      if HasAt(s, i, "**") {
        FirstOfMatch(s, i, "**");
      }
    case Emphasis =>
    case Link =>
    case Quote =>
      if HasAt(s, i, "> ") {
        FirstOfMatch(s, i, "> ");
      }
    case Literal(from, to) =>
      if HasAt(s, i, from) {
        FirstOfMatch(s, i, from);
      }
  }

  lemma {:induction false} WordThrough(rules: seq<Rule>, s: string)
    requires WordText(s)
    requires forall k :: 0 <= k < |rules| ==> WordInert(rules[k])
    ensures ApplyAll(rules, s) == s
    decreases |rules|
  {
    if rules != [] {
      forall i | 0 <= i < |s| ensures MatchAt(rules[0], s, i).None? {
        WordRuleMisses(rules[0], s, i);
      }
      ReplaceNoMatch(rules[0], s);
      WordThrough(rules[1..], s);
    }
  }

  lemma BlockRulesInert()
    ensures forall k :: 0 <= k < |BlockRules| ==> WordInert(BlockRules[k])
  {
    assert WordInert(BlockRules[14]) && WordInert(BlockRules[15]);
  }

  /** A run of word characters not starting with a digit has nothing for
      any of the sixteen substitutions to rewrite. */
  lemma WordTextSubstituted(s: string)
    requires WordText(s)
    ensures ApplyAll(BlockRules, s) == s
  {
    BlockRulesInert();
    WordThrough(BlockRules, s);
  }

  // ---------------------------------------------------------------------
  // Paragraphs

  /** The text wrapped as one paragraph. */
  function Wrapped(x: string): string {
    "<p>" + x + "</p>"
  }

  /** What the wrapped text holds at `i`. */
  lemma WrappedAt(x: string, i: nat)
    requires i < |Wrapped(x)|
    ensures 3 <= i < |x| + 3 ==> Wrapped(x)[i] == x[i - 3]
    ensures |x| + 3 < i ==> Wrapped(x)[i] != '<'
  {
    var w := Wrapped(x);
    assert w == "<p>" + x + "</p>";
    assert w[|x| + 3..] == "</p>";
    assert |x| + 3 < i ==> w[i] == w[|x| + 3..][i - |x| - 3];
  }

  /** Where the wrapped text has a `<`, and what surrounds it. */
  lemma WrappedShape(x: string)
    requires x != [] && '<' !in x
    ensures |Wrapped(x)| == |x| + 7
    ensures Wrapped(x)[1] == 'p' && Wrapped(x)[3] == x[0]
    ensures forall i :: 0 <= i < |Wrapped(x)| && Wrapped(x)[i] == '<' ==> i == 0 || i == |x| + 3
  {
    var w := Wrapped(x);
    assert w == "<p>" + (x + "</p>");
    forall i | 0 <= i < |w| && w[i] == '<' ensures i == 0 || i == |x| + 3 {
      WrappedAt(x, i);
    }
  }

  /** A literal the wrapped text cannot hold: it starts with `<`, is longer
      than the closing tag, and either does not start like the opening tag
      or has a second `<` where the text begins. */
  predicate MissesWrapped(from: string) {
    |from| > 4 && from[0] == '<' && (from[1] != 'p' || from[3] == '<')
  }

  /** The rules none of which matches anywhere in a wrapped plain text. */
  predicate MissesPlain(r: Rule) {
    r.UnwrapHeadingOpen? || r.UnwrapHeadingClose? || (r.Literal? && MissesWrapped(r.from))
  }

  lemma LiteralMisses(x: string, from: string, to: string, i: nat)
    requires x != [] && '<' !in x && MissesWrapped(from) && i < |Wrapped(x)|
    ensures MatchLiteral(from, to, Wrapped(x), i).None?
  {
    var w := Wrapped(x);
    WrappedShape(x);
    assert i + |from| <= |w| ==> w[i..i + |from|][0] == w[i];
    assert |from| <= |w| ==> w[0..|from|][1] == w[1] && w[0..|from|][3] == w[3];
  }

  lemma UnwrapOpenMissesPlain(x: string, i: nat)
    requires x != [] && '<' !in x && i < |Wrapped(x)|
    ensures MatchUnwrapOpen(Wrapped(x), i).None?
  {
    var w := Wrapped(x);
    WrappedShape(x);
    assert i + 5 <= |w| ==> w[i..i + 5][0] == w[i] && w[i..i + 5][3] == w[i + 3];
  }

  lemma UnwrapCloseMissesPlain(x: string, i: nat)
    requires x != [] && '<' !in x && i < |Wrapped(x)|
    ensures MatchUnwrapClose(Wrapped(x), i).None?
  {
    var w := Wrapped(x);
    WrappedShape(x);
    assert i + 3 <= |w| ==> w[i..i + 3][0] == w[i] && w[i..i + 3][1] == w[i + 1];
  }

  lemma RuleMissesPlain(r: Rule, x: string)
    requires x != [] && '<' !in x && MissesPlain(r)
    ensures forall i :: 0 <= i < |Wrapped(x)| ==> MatchAt(r, Wrapped(x), i).None?
  {
    forall i | 0 <= i < |Wrapped(x)| ensures MatchAt(r, Wrapped(x), i).None? {
      match r
      case UnwrapHeadingOpen => UnwrapOpenMissesPlain(x, i);
      case UnwrapHeadingClose => UnwrapCloseMissesPlain(x, i);
      case Literal(from, to) => LiteralMisses(x, from, to, i);
    }
  }

  lemma {:induction false} PlainThrough(rules: seq<Rule>, x: string)
    requires x != [] && '<' !in x
    requires forall k :: 0 <= k < |rules| ==> MissesPlain(rules[k])
    ensures ApplyAll(rules, Wrapped(x)) == Wrapped(x)
    decreases |rules|
  {
    if rules != [] {
      RuleMissesPlain(rules[0], x);
      ReplaceNoMatch(rules[0], Wrapped(x));
      PlainThrough(rules[1..], x);
    }
  }

  lemma CleanupMissesPlainHead()
    ensures forall k :: 0 <= k < 4 ==> MissesPlain(CleanupRules[k])
  {
    assert MissesPlain(CleanupRules[2]) && MissesPlain(CleanupRules[3]);
  }

  lemma CleanupMissesPlainMiddle()
    ensures forall k :: 4 <= k < 8 ==> MissesPlain(CleanupRules[k])
  {
    assert MissesPlain(CleanupRules[4]) && MissesPlain(CleanupRules[5]);
    assert MissesPlain(CleanupRules[6]) && MissesPlain(CleanupRules[7]);
  }

  lemma CleanupMissesPlainTail()
    ensures forall k :: 8 <= k < |CleanupRules| ==> MissesPlain(CleanupRules[k])
  {
    assert MissesPlain(CleanupRules[8]) && MissesPlain(CleanupRules[9]);
    assert MissesPlain(CleanupRules[10]) && MissesPlain(CleanupRules[11]);
  }

  /** Text without a tag comes out of the paragraph stage as exactly one
      paragraph around it. */
  lemma PlainParagraph(x: string)
    requires x != [] && '<' !in x
    ensures Paragraphs(x) == "<p>" + x + "</p>"
  {
    CleanupMissesPlainHead();
    CleanupMissesPlainMiddle();
    CleanupMissesPlainTail();
    PlainThrough(CleanupRules, x);
  }
}

=== FILE: planner.dfy ===
/** The plan book of src/components/PlanningCalendar.jsx: the `YYYY-MM-DD`
    key of a day, adding and deleting the plans of a day, and the dot a
    month tile shows. */
module Planner {
  import opened Strings

  // ---------------------------------------------------------------------
  // Date keys

  /** What the calendar's `Date` yields: `getFullYear()`, `getMonth()`
      (counted from 0) and `getDate()`. */
  datatype Day = Day(year: int, monthIndex: nat, date: nat)

  predicate ValidDay(d: Day) {
    d.monthIndex < 12 && 1 <= d.date <= 31
  }

  /** `String(year)`: no padding, a minus sign before negative years. */
  function YearText(year: int): string {
    if year < 0 then "-" + Decimal(-year) else Decimal(year)
  }

  /** A number in decimal, with a leading zero when it has one digit. */
  function TwoDigits(n: nat): (r: string)
    ensures AllDigits(r) && |r| >= 2
    ensures 1 <= n < 100 ==> |r| == 2
  {
    DecimalWidth(n);
    PadStart2(Decimal(n))
  }

  lemma DecimalWidth(n: nat)
    ensures n >= 10 ==> |Decimal(n)| >= 2
    ensures n < 100 ==> |Decimal(n)| <= 2
  {
  }

  /** `formatDate`: `year-MM-DD`, or `""` without a date. */
  function FormatDate(d: Option<Day>): (r: string)
    ensures d.None? <==> r == []
  {
    match d
    case None => ""
    case Some(day) => YearText(day.year) + "-" + TwoDigits(day.monthIndex + 1) + "-" + TwoDigits(day.date)
  }

  /** Reading a key back: three dash-separated runs of digits. Keys of
      years before year 0 are not read. */
  function ParseKey(key: string): Option<Day> {
    var parts := Split(key, '-');
    if |parts| == 3 && AllDigits(parts[0]) && AllDigits(parts[1]) && AllDigits(parts[2])
       && DecimalValue(parts[1]) >= 1
    then Some(Day(DecimalValue(parts[0]), DecimalValue(parts[1]) - 1, DecimalValue(parts[2])))
    else None
  }

  lemma TwoDigitsValue(n: nat)
    ensures DecimalValue(TwoDigits(n)) == n
  {
    DecimalRoundTrip(n);
    if n < 10 {
      var s := TwoDigits(n);
      assert s == ['0'] + Decimal(n);
      assert s[..1] == ['0'];
    }
  }

  lemma DigitsNoDash(s: string)
    requires AllDigits(s)
    ensures '-' !in s
  {
  }

  /** Round trip: the key of a valid day in year 0 or later reads back as
      that day. */
  lemma FormatParse(d: Day)
    requires ValidDay(d) && d.year >= 0
    ensures ParseKey(FormatDate(Some(d))) == Some(d)
  {
    var y, m, n := YearText(d.year), TwoDigits(d.monthIndex + 1), TwoDigits(d.date);
    assert FormatDate(Some(d)) == y + "-" + m + "-" + n;
    SplitKey(y, m, n);
    DecimalRoundTrip(d.year);
    TwoDigitsValue(d.monthIndex + 1);
    TwoDigitsValue(d.date);
  }

  /** Three runs of digits joined by dashes split back into the three. */
  lemma SplitKey(y: string, m: string, n: string)
    requires AllDigits(y) && AllDigits(m) && AllDigits(n)
    ensures Split(y + "-" + m + "-" + n, '-') == [y, m, n]
  {
    DigitsNoDash(y);
    DigitsNoDash(m);
    DigitsNoDash(n);
    assert y + "-" + m + "-" + n == y + ['-'] + (m + ['-'] + n);
    SplitCons(y, '-', m + ['-'] + n);
    SplitCons(m, '-', n);
    SplitNoSeparator(n, '-');
  }

  /** The key of a day before year 0 is `-` followed by the key of the
      mirrored year. */
  lemma NegativeYearKey(d: Day)
    requires d.year < 0
    ensures FormatDate(Some(d)) == "-" + FormatDate(Some(d.(year := -d.year)))
  {
  }

  /** Different valid days get different keys, whatever their years. */
  lemma KeysDistinct(d: Day, e: Day)
    requires ValidDay(d) && ValidDay(e)
    requires d != e
    ensures FormatDate(Some(d)) != FormatDate(Some(e))
  {
    if d.year >= 0 && e.year >= 0 {
      FormatParse(d);
      FormatParse(e);
    } else if d.year < 0 && e.year < 0 {
      var d', e' := d.(year := -d.year), e.(year := -e.year);
      NegativeYearKey(d);
      NegativeYearKey(e);
      FormatParse(d');
      FormatParse(e');
      assert d' != e';
      assert FormatDate(Some(d))[1..] == FormatDate(Some(d'));
      assert FormatDate(Some(e))[1..] == FormatDate(Some(e'));
    } else {
      SignOfKey(d);
      SignOfKey(e);
    }
  }

  /** A key starts with `-` exactly when its year is negative. */
  lemma SignOfKey(d: Day)
    ensures var k := FormatDate(Some(d)); |k| > 0 && (k[0] == '-' <==> d.year < 0)
  {
    if d.year >= 0 {
      var y := Decimal(d.year);
      assert FormatDate(Some(d))[0] == y[0];
    }
  }

  // ---------------------------------------------------------------------
  // Plans

  /** `plans`: the plans of each day, by key. */
  type Plans = map<string, seq<string>>

  /** No day maps to an empty list. */
  ghost predicate NoEmptyDay(plans: Plans) {
    forall k :: k in plans ==> plans[k] != []
  }

  /** `handleAddPlan`: a blank input is refused; otherwise the trimmed input
      is appended to the day's list. */
  function AddPlan(plans: Plans, key: string, input: string): (r: Plans)
    ensures IsBlank(input) ==> r == plans
    ensures !IsBlank(input) ==>
      (key in r && r[key] == (if key in plans then plans[key] else []) + [Trim(input)]
       && r.Keys == plans.Keys + {key}
       && forall k :: k in plans && k != key ==> r[k] == plans[k])
  {
    if IsBlank(input) then plans
    else plans[key := (if key in plans then plans[key] else []) + [Trim(input)]]
  }

  /** The list without its element at `index`; an index outside the list
      removes nothing. */
  function RemoveAt(list: seq<string>, index: int): (r: seq<string>)
    ensures 0 <= index < |list| ==>
      (|r| == |list| - 1
       && (forall i :: 0 <= i < index ==> r[i] == list[i])
       && (forall i :: index <= i < |r| ==> r[i] == list[i + 1]))
    ensures !(0 <= index < |list|) ==> r == list
  {
    if 0 <= index < |list| then list[..index] + list[index + 1..] else list
  }

  /** `handleDeletePlan`: nothing for an unknown day; otherwise the plan at
      `index` goes, and the day goes with its last plan. */
  function DeletePlan(plans: Plans, key: string, index: int): (r: Plans)
    ensures key !in plans ==> r == plans
    ensures forall k :: k != key ==> (k in r <==> k in plans) && (k in r ==> r[k] == plans[k])
    ensures key in plans ==>
      ((key in r <==> RemoveAt(plans[key], index) != [])
       && (key in r ==> r[key] == RemoveAt(plans[key], index)))
  {
    if key !in plans then plans
    else
      var rest := RemoveAt(plans[key], index);
      if rest == [] then plans - {key} else plans[key := rest]
  }

  /** Adding keeps every day non-empty. */
  lemma AddKeepsDaysFilled(plans: Plans, key: string, input: string)
    requires NoEmptyDay(plans)
    ensures NoEmptyDay(AddPlan(plans, key, input))
  {
  }

  /** Deleting keeps every day non-empty: a day whose last plan goes is
      removed. */
  lemma DeleteKeepsDaysFilled(plans: Plans, key: string, index: int)
    requires NoEmptyDay(plans)
    ensures NoEmptyDay(DeletePlan(plans, key, index))
  {
  }

  /** Deleting the only plan of a day removes the day. */
  lemma DeleteLastPlan(plans: Plans, key: string)
    requires key in plans && |plans[key]| == 1
    ensures key !in DeletePlan(plans, key, 0)
    ensures DeletePlan(plans, key, 0) == plans - {key}
  {
  }

  /** `tileContent`: a month tile shows the dot when its day has a plan. */
  predicate Indicator(plans: Plans, view: string, key: string) {
    view == "month" && key in plans && |plans[key]| > 0
  }

  /** With no empty day, the dot marks exactly the days in the book. */
  lemma IndicatorMarksDays(plans: Plans, key: string)
    requires NoEmptyDay(plans)
    ensures Indicator(plans, "month", key) <==> key in plans
  {
  }

  /** After adding a plan its day shows the dot. */
  lemma AddShowsDot(plans: Plans, key: string, input: string)
    requires !IsBlank(input)
    ensures Indicator(AddPlan(plans, key, input), "month", key)
  {
  }
}

=== FILE: posts.dfy ===
/** The pure rules of the post index in src/App.jsx: which directory entries
    are posts, how a post's title, preview and date are derived from its file
    name and text, how the two directories' lists are de-duplicated and
    ordered by date, and the markdown text both editors save. */
module Posts {
  import opened Strings

  // ---------------------------------------------------------------------
  // Directory entries

  /** An entry of a contents listing. A missing field is the empty string,
      which JavaScript treats as falsy just like `undefined`. */
  datatype Entry = Entry(name: string, kind: string, path: string, sha: string)

  /** A post file: a file (not a directory) whose name ends in `.md`. */
  predicate IsMarkdownFile(f: Entry) {
    f.name != [] && EndsWith(f.name, ".md") && f.kind == "file"
  }

  /** The listing filtered to markdown files, in listing order. */
  function MarkdownFiles(files: seq<Entry>): (r: seq<Entry>)
    ensures |r| <= |files|
    ensures forall f :: f in r <==> f in files && IsMarkdownFile(f)
  {
    if files == [] then []
    else
      var rest := MarkdownFiles(files[1..]);
      assert files == [files[0]] + files[1..];
      if IsMarkdownFile(files[0]) then [files[0]] + rest else rest
  }

  // ---------------------------------------------------------------------
  // Post metadata

  /** A listed post: the entry's fields plus what the index derives. */
  datatype Post = Post(name: string, kind: string, path: string, sha: string,
                       title: string, preview: string, date: nat, sourceDir: string)

  /** The file name without a final `.md`. */
  function StripMd(name: string): string {
    if EndsWith(name, ".md") then name[..|name| - 3] else name
  }

  lemma StripMdRoundTrip(base: string)
    ensures StripMd(base + ".md") == base
  {
    assert (base + ".md")[|base|..] == ".md";
    assert (base + ".md")[..|base|] == base;
  }

  /** The first line is a title line: it starts with `# `. */
  predicate HasTitleLine(lines: seq<string>) {
    |lines| > 0 && StartsWith(lines[0], "# ")
  }

  /** The title: the first line after `# `, trimmed, when the text starts
      with such a line, and otherwise the file name without `.md`. */
  function DeriveTitle(name: string, text: string): (r: string)
    ensures var lines := Split(text, '\n');
      HasTitleLine(lines) ==> r == Trim(lines[0][2..])
    ensures !StartsWith(text, "# ") ==> r == StripMd(name)
  {
    var lines := Split(text, '\n');
    TitleLineIsTextStart(text);
    if HasTitleLine(lines) then Trim(lines[0][2..]) else StripMd(name)
  }

  /** The first line starts with `# ` exactly when the text does. */
  lemma TitleLineIsTextStart(text: string)
    ensures HasTitleLine(Split(text, '\n')) <==> StartsWith(text, "# ")
  {
    var lines := Split(text, '\n');
    var first := lines[0];
    if |lines| == 1 {
      assert Join(lines, "\n") == first;
    } else {
      JoinCons(first, lines[1..], "\n");
      assert lines == [first] + lines[1..];
      assert text == first + "\n" + Join(lines[1..], "\n");
      if StartsWith(text, "# ") {
        assert '\n' !in first;
        assert text[..2] == "# ";
        assert first[..2] == text[..2];
      }
    }
  }

  /** A line the preview shows: not blank and not starting with `#`. */
  predicate Shown(l: string) {
    !IsBlank(l) && !StartsWith(l, "#")
  }

  function ShownLines(lines: seq<string>): (r: seq<string>)
    ensures |r| <= |lines|
    ensures forall l :: l in r <==> l in lines && Shown(l)
  {
    if lines == [] then []
    else
      var rest := ShownLines(lines[1..]);
      assert lines == [lines[0]] + lines[1..];
      if Shown(lines[0]) then [lines[0]] + rest else rest
  }

  const PreviewLength: nat := 150

  /** `Prefix(s, 150) + "..."`, the shape of every preview. */
  function Clip(s: string): (r: string)
    ensures |r| <= PreviewLength + 3 && EndsWith(r, "...")
    ensures StartsWith(s, r[..|r| - 3])
    ensures |s| <= PreviewLength ==> r == s + "..."
    ensures |s| > PreviewLength ==> r == s[..PreviewLength] + "..."
  {
    var p := Prefix(s, PreviewLength);
    assert (p + "...")[..|p|] == p;
    p + "..."
  }

  /** The preview: the shown lines after any title line, joined with spaces
      and cut to 150 characters, then `...`. */
  function DerivePreview(text: string): (r: string)
    ensures |r| <= PreviewLength + 3 && EndsWith(r, "...")
  {
    var lines := Split(text, '\n');
    var start := if HasTitleLine(lines) then 1 else 0;
    Clip(Join(ShownLines(lines[start..]), " "))
  }

  /** Skipping the title line is redundant: it starts with `#` and the
      filter drops it anyway. */
  lemma PreviewIgnoresTitleLine(text: string)
    ensures DerivePreview(text) == Clip(Join(ShownLines(Split(text, '\n')), " "))
  {
    var lines := Split(text, '\n');
    if HasTitleLine(lines) {
      assert lines == [lines[0]] + lines[1..];
      assert lines[0][..1] == "#";
      assert !Shown(lines[0]);
    } else {
      assert lines[0..] == lines;
    }
  }

  /** A timestamp of exactly 13 digits, as `Date.now()` gives from 2001 to 2286. */
  predicate IsTimestamp(ts: nat) {
    Pow10(12) <= ts < Pow10(13)
  }

  /** `/^(\d{13})-/` on the file name, read as a number; 0 without a match.
      Thirteen digits stay below the largest valid `Date` time, so the
      `isNaN` fallback never applies to a match. */
  function ParseDate(name: string): (r: nat)
    ensures r < Pow10(13)
    ensures r != 0 ==> |name| >= 14 && AllDigits(name[..13]) && name[13] == '-'
  {
    if |name| >= 14 && AllDigits(name[..13]) && name[13] == '-' then
      DecimalBound(name[..13]);
      DecimalValue(name[..13])
    else 0
  }

  lemma {:induction false} DecimalBound(s: string)
    requires AllDigits(s)
    ensures DecimalValue(s) < Pow10(|s|)
  {
    if s != [] {
      DecimalBound(s[..|s| - 1]);
    }
  }

  /** A name that does not start with thirteen digits and `-` gets date 0. */
  lemma ParseDateNoStamp(name: string)
    requires forall d :: |d| == 13 && AllDigits(d) ==> !StartsWith(name, d + "-")
    ensures ParseDate(name) == 0
  {
    if |name| >= 14 && AllDigits(name[..13]) {
      var d := name[..13];
      assert !StartsWith(name, d + "-");
      assert name[..14] == d + [name[13]];
    }
  }

  /** Round trip: a 13-digit timestamp written in front of `-` is read back. */
  lemma ParseDateOfStamp(ts: nat, rest: string)
    requires IsTimestamp(ts)
    ensures ParseDate(Decimal(ts) + "-" + rest) == ts
  {
    var name := Decimal(ts) + "-" + rest;
    DecimalLength(ts, 13);
    assert name[..13] == Decimal(ts);
    assert name[13] == '-';
    DecimalRoundTrip(ts);
  }

  /** One post of a directory: `text` is the fetched file text, `None` when
      the response is not ok. */
  function ToPost(f: Entry, dir: string, text: Option<string>): (p: Post)
    ensures p.name == f.name && p.kind == f.kind && p.path == f.path && p.sha == f.sha && p.sourceDir == dir
    ensures text.None? ==> p.title == StripMd(f.name) && p.preview == "내용 로드 실패" && p.date == 0
    ensures text.Some? ==>
      (p.title == DeriveTitle(f.name, text.value) && p.preview == DerivePreview(text.value) && p.date == ParseDate(f.name))
  {
    match text
    case None => Post(f.name, f.kind, f.path, f.sha, StripMd(f.name), "내용 로드 실패", 0, dir)
    case Some(t) => Post(f.name, f.kind, f.path, f.sha, DeriveTitle(f.name, t), DerivePreview(t), ParseDate(f.name), dir)
  }

  function Fetched(contents: map<string, string>, name: string): Option<string> {
    if name in contents then Some(contents[name]) else None
  }

  function ToPosts(files: seq<Entry>, dir: string, contents: map<string, string>): (r: seq<Post>)
    ensures |r| == |files|
    ensures forall i :: 0 <= i < |files| ==> r[i] == ToPost(files[i], dir, Fetched(contents, files[i].name))
  {
    seq(|files|, i requires 0 <= i < |files| => ToPost(files[i], dir, Fetched(contents, files[i].name)))
  }

  function Titled(ps: seq<Post>): (r: seq<Post>)
    ensures |r| <= |ps|
    ensures forall p :: p in r <==> p in ps && p.title != []
  {
    if ps == [] then []
    else
      var rest := Titled(ps[1..]);
      assert ps == [ps[0]] + ps[1..];
      if ps[0].title != [] then [ps[0]] + rest else rest
  }

  /** The posts of one directory when every request resolves, `contents`
      holding the text of every file whose response is ok. */
  function DirectoryPosts(files: seq<Entry>, dir: string, contents: map<string, string>): seq<Post> {
    Titled(ToPosts(MarkdownFiles(files), dir, contents))
  }

  /** Every post of a directory comes from a markdown file of its listing,
      has a title, and its date is 0 or a 13-digit file-name prefix. */
  lemma DirectoryPostsFromMarkdown(files: seq<Entry>, dir: string, contents: map<string, string>)
    ensures forall p :: p in DirectoryPosts(files, dir, contents) ==>
      p.title != [] && p.sourceDir == dir
      && (exists f :: f in files && IsMarkdownFile(f) && f.name == p.name && f.path == p.path && f.sha == p.sha)
  {
    var md := MarkdownFiles(files);
    var all := ToPosts(md, dir, contents);
    forall p | p in DirectoryPosts(files, dir, contents)
      ensures p.title != [] && p.sourceDir == dir
      ensures exists f :: f in files && IsMarkdownFile(f) && f.name == p.name && f.path == p.path && f.sha == p.sha
    {
      var i :| 0 <= i < |all| && all[i] == p;
      assert md[i] in md;
    }
  }

  /** A markdown file whose text has a non-blank title line is listed. */
  lemma TitledFileListed(files: seq<Entry>, dir: string, contents: map<string, string>, f: Entry)
    requires f in files && IsMarkdownFile(f) && f.name in contents
    requires DeriveTitle(f.name, contents[f.name]) != []
    ensures ToPost(f, dir, Some(contents[f.name])) in DirectoryPosts(files, dir, contents)
  {
    var md := MarkdownFiles(files);
    var i :| 0 <= i < |md| && md[i] == f;
    assert ToPosts(md, dir, contents)[i] == ToPost(f, dir, Some(contents[f.name]));
  }

  /** Some markdown file of the listing has a fetch that rejects. */
  predicate AnyRejected(files: seq<Entry>, rejected: set<string>) {
    exists f :: f in files && IsMarkdownFile(f) && f.name in rejected
  }

  /** `fetchDirectoryContents` with every way its requests can end.
      `listing` is `None` when the listing response is not ok: a 404 returns
      `[]`, and any other status throws into the function's own catch, which
      returns `[]` as well. `rejected` names the files whose fetch or
      `text()` rejects: that rejects the `Promise.all`, and the catch returns
      `[]` for the whole directory. A markdown file in neither `contents`
      nor `rejected` got a response that is not ok. */
  function FetchDirectory(listing: Option<seq<Entry>>, dir: string, contents: map<string, string>,
                          rejected: set<string>): (r: seq<Post>)
    ensures listing.None? ==> r == []
    ensures listing.Some? && AnyRejected(listing.value, rejected) ==> r == []
    ensures r != [] ==> listing.Some? && r == DirectoryPosts(listing.value, dir, contents)
  {
    match listing
    case None => []
    case Some(files) => if AnyRejected(files, rejected) then [] else DirectoryPosts(files, dir, contents)
  }

  /** A markdown file whose text has a non-blank title line is listed
      exactly when no markdown file's fetch in its directory rejects. */
  lemma FetchedFileListed(files: seq<Entry>, dir: string, contents: map<string, string>,
                          rejected: set<string>, f: Entry)
    requires f in files && IsMarkdownFile(f) && f.name in contents
    requires DeriveTitle(f.name, contents[f.name]) != []
    ensures ToPost(f, dir, Some(contents[f.name])) in FetchDirectory(Some(files), dir, contents, rejected)
        <==> !AnyRejected(files, rejected)
  {
    if !AnyRejected(files, rejected) {
      TitledFileListed(files, dir, contents, f);
    }
  }

  // ---------------------------------------------------------------------
  // The text the editors save

  /** The text both editors save: `# `, the title, an empty line, then the
      body. */
  function Compose(title: string, content: string): string {
    "# " + title + "\n\n" + content
  }

  /** The first line of a composed text is its title line. */
  lemma SplitComposed(title: string, content: string)
    requires '\n' !in title
    ensures Split(Compose(title, content), '\n') == ["# " + title] + Split("\n" + content, '\n')
  {
    var first := "# " + title;
    assert '\n' !in first by {
      assert forall i :: 0 <= i < |first| ==> first[i] == (if i < 2 then "# "[i] else title[i - 2]);
    }
    assert Compose(title, content) == first + ['\n'] + ("\n" + content);
    SplitCons(first, '\n', "\n" + content);
  }

  /** Round trip: the index reads back the trimmed title of a composed text. */
  lemma ComposedTitle(name: string, title: string, content: string)
    requires '\n' !in title
    ensures DeriveTitle(name, Compose(title, content)) == Trim(title)
  {
    SplitComposed(title, content);
    var first := "# " + title;
    assert first[..2] == "# ";
    assert first[2..] == title;
  }
}

=== FILE: protect.dfy ===
/** Facts about the first two stages and the last one of `parseMarkdown`
    (src/utils/markdownParser.js:6-16 and 103-123): what a fence or a code
    span is replaced by, and how the numbered placeholder is read back. */
module ProtectFacts {
  import opened Strings
  import opened Passes
  import opened Markdown

  /** `u` occurs at `p`; inside it, occurrences of `w` in `s` are
      occurrences of `w` in `u`. */
  lemma HasAtSlice(s: string, p: nat, u: string, k: nat, j: nat)
    requires HasAt(s, p, u) && k <= j <= |u|
    ensures s[p + k..p + j] == u[k..j]
  {
    var v := s[p..p + |u|];
    assert v == u;
    forall t | 0 <= t < j - k
      ensures s[p + k..p + j][t] == u[k..j][t]
    {
      assert s[p + k + t] == v[k + t];
    }
  }

  lemma HasAtInside(s: string, p: nat, u: string, k: nat, w: string)
    requires HasAt(s, p, u) && k + |w| <= |u|
    ensures HasAt(s, p + k, w) <==> HasAt(u, k, w)
  {
    HasAtSlice(s, p, u, k, k + |w|);
  }

  lemma {:induction false} WordRunEndAt(s: string, p: nat, e: nat)
    requires p <= e <= |s|
    requires forall k :: p <= k < e ==> IsWordChar(s[k])
    requires e == |s| || !IsWordChar(s[e])
    ensures WordRunEnd(s, p) == e
    decreases e - p
  {
    if p < e {
      WordRunEndAt(s, p + 1, e);
    }
  }

  lemma {:induction false} DigitRunEndAt(s: string, p: nat, e: nat)
    requires p <= e <= |s|
    requires forall k :: p <= k < e ==> IsDigit(s[k])
    requires e == |s| || !IsDigit(s[e])
    ensures DigitRunEnd(s, p) == e
    decreases e - p
  {
    if p < e {
      DigitRunEndAt(s, p + 1, e);
    }
  }

  lemma {:induction false} FindFenceAt(s: string, p: nat, q: nat)
    requires p <= q && HasAt(s, q, "```")
    requires forall k :: p <= k < q ==> !HasAt(s, k, "```")
    ensures FindFence(s, p) == Some(q)
    decreases q - p
  {
    if p < q {
      FindFenceAt(s, p + 1, q);
    }
  }

  /** A body the lazy `[\s\S]*?` reads to its end: no closing fence starts
      inside it (one that starts in the body and runs into the fence counts). */
  predicate ClosesAtEnd(body: string) {
    forall k :: 0 <= k < |body| ==> !HasAt(body + "```", k, "```")
  }

  /** The lazy body stops at the fence that ends `body + "```"`. */
  lemma FindClosingFence(s: string, b: nat, body: string)
    requires HasAt(s, b, body + "```") && ClosesAtEnd(body)
    ensures FindFence(s, b) == Some(b + |body|)
    ensures s[b..b + |body|] == body
  {
    var tail := body + "```";
    forall k | b <= k < b + |body|
      ensures !HasAt(s, k, "```")
    {
      HasAtInside(s, b, tail, k - b, "```");
    }
    HasAtInside(s, b, tail, |body|, "```");
    FindFenceAt(s, b, b + |body|);
    HasAtSlice(s, b, tail, 0, |body|);
    assert tail[..|body|] == body;
  }

  /** The pieces of an occurrence of a fence: the opening backticks, the
      tag, the newline, and the body with the closing backticks. */
  lemma FenceParts(s: string, p: nat, lang: string, body: string)
    requires HasAt(s, p, "```" + lang + "\n" + body + "```")
    ensures HasAt(s, p, "```")
    ensures s[p + 3..p + 3 + |lang|] == lang
    ensures s[p + 3 + |lang|] == '\n'
    ensures HasAt(s, p + 4 + |lang|, body + "```")
  {
    var u := "```" + lang + "\n" + body + "```";
    assert HasAt(s, p, "```") by {
      HasAtInside(s, p, u, 0, "```");
      assert u[..3] == "```";
    }
    assert s[p + 3..p + 3 + |lang|] == lang by {
      HasAtSlice(s, p, u, 3, 3 + |lang|);
      assert u[3..3 + |lang|] == lang;
    }
    assert s[p + 3 + |lang|] == '\n' by {
      HasAtSlice(s, p, u, 3 + |lang|, 4 + |lang|);
      assert u[3 + |lang|] == '\n';
    }
    assert HasAt(s, p + 4 + |lang|, body + "```") by {
      assert u[4 + |lang|..|u|] == body + "```";
      HasAtSlice(s, p, u, 4 + |lang|, |u|);
    }
  }

  /** The fence read from its pieces. */
  lemma FenceFromParts(s: string, p: nat, lang: string, body: string)
    requires HasAt(s, p, "```") && p + 3 + |lang| < |s|
    requires s[p + 3..p + 3 + |lang|] == lang && s[p + 3 + |lang|] == '\n'
    requires HasAt(s, p + 4 + |lang|, body + "```")
    requires AllWordChars(lang) && ClosesAtEnd(body)
    ensures FenceAt(s, p) == Some(Fence(lang, body, p + |lang| + |body| + 7))
  {
    var w := p + 3 + |lang|;
    var b := p + 4 + |lang|;
    TagRunEnd(s, p + 3, lang);
    FindClosingFence(s, b, body);
    FenceFromRuns(s, p, lang, body, w, b);
  }

  /** The fence at `p` from where its tag ends, at `w`, and where its body
      starts, at `b`. */
  lemma FenceFromRuns(s: string, p: nat, lang: string, body: string, w: nat, b: nat)
    requires w == p + 3 + |lang| && b == w + 1 && w < |s|
    requires HasAt(s, p, "```") && s[p + 3..w] == lang && s[w] == '\n'
    requires WordRunEnd(s, p + 3) == w && b + |body| <= |s|
    requires FindFence(s, b) == Some(b + |body|) && s[b..b + |body|] == body
    ensures FenceAt(s, p) == Some(Fence(lang, body, p + |lang| + |body| + 7))
  {
    FenceAtOf(s, p, w, b + |body|);
  }

  /** The fence at `p` read from where its tag ends and where its closing
      fence starts. */
  lemma FenceAtOf(s: string, p: nat, w: nat, q: nat)
    requires HasAt(s, p, "```") && p + 3 <= w < |s| && s[w] == '\n'
    requires WordRunEnd(s, p + 3) == w && w + 1 <= q && FindFence(s, w + 1) == Some(q)
    ensures FenceAt(s, p) == Some(Fence(s[p + 3..w], s[w + 1..q], q + 3))
  {
  }

  /** A tag of word characters followed by a newline ends at the newline. */
  lemma TagRunEnd(s: string, a: nat, lang: string)
    requires a + |lang| < |s| && s[a..a + |lang|] == lang && s[a + |lang|] == '\n'
    requires AllWordChars(lang)
    ensures WordRunEnd(s, a) == a + |lang|
  {
    var w := a + |lang|;
    forall k | a <= k < w ensures IsWordChar(s[k]) {
      assert s[k] == s[a..w][k - a];
    }
    WordRunEndAt(s, a, w);
  }

  /** The opening fence, a word-character tag, a newline, a body and the
      closing fence form one match, ending right after the closing fence. */
  lemma FenceAtShape(s: string, p: nat, lang: string, body: string)
    requires HasAt(s, p, "```" + lang + "\n" + body + "```")
    requires AllWordChars(lang) && ClosesAtEnd(body)
    ensures FenceAt(s, p) == Some(Fence(lang, body, p + |lang| + |body| + 7))
  {
    FenceParts(s, p, lang, body);
    FenceFromParts(s, p, lang, body);
  }

  /** Stage 1 replaces the whole fence by the next block placeholder and
      records the tag and the trimmed body; no backtick of the fence is left
      for stage 2. */
  lemma FenceCaptured(s: string, p: nat, n: nat, lang: string, body: string)
    requires HasAt(s, p, "```" + lang + "\n" + body + "```")
    requires AllWordChars(lang) && ClosesAtEnd(body)
    ensures p + |lang| + |body| + 7 <= |s|
    ensures ProtectFencesFrom(s, p, n)
        == (BlockMarker(n) + ProtectFencesFrom(s, p + |lang| + |body| + 7, n + 1).0,
            [CodeBlock(lang, Trim(body))] + ProtectFencesFrom(s, p + |lang| + |body| + 7, n + 1).1)
    ensures '`' !in BlockMarker(n)
  {
    FenceAtShape(s, p, lang, body);
    FenceStep(s, p, n, lang, body, p + |lang| + |body| + 7);
    NoBacktickInMarker(n);
  }

  /** Stage 1 at a fence. */
  lemma FenceStep(s: string, p: nat, n: nat, lang: string, body: string, e: nat)
    requires p <= |s| && FenceAt(s, p) == Some(Fence(lang, body, e))
    ensures e <= |s|
    ensures ProtectFencesFrom(s, p, n)
        == (BlockMarker(n) + ProtectFencesFrom(s, e, n + 1).0,
            [CodeBlock(lang, Trim(body))] + ProtectFencesFrom(s, e, n + 1).1)
  {
  }

  lemma NoBacktickInMarker(n: nat)
    ensures '`' !in BlockMarker(n)
  {
    assert forall k :: 0 <= k < |Decimal(n)| ==> IsDigit(Decimal(n)[k]);
  }

  /** Without a fence opener the text passes stage 1 unchanged. */
  lemma {:induction false} NoFenceUnchanged(s: string, p: nat, n: nat)
    requires p <= |s|
    requires forall k :: p <= k < |s| ==> !HasAt(s, k, "```")
    ensures ProtectFencesFrom(s, p, n) == (s[p..], [])
    decreases |s| - p
  {
    if p < |s| {
      NoFenceUnchanged(s, p + 1, n);
      assert s[p..] == [s[p]] + s[p + 1..];
    }
  }

  /** A code span is replaced by the next inline placeholder. */
  lemma CodeSpanCaptured(s: string, p: nat, n: nat, code: string)
    requires HasAt(s, p, "`" + code + "`")
    requires code != [] && '`' !in code
    ensures var e := p + |code| + 2;
      e <= |s| &&
      ProtectInlineFrom(s, p, n)
        == (InlineMarker(n) + ProtectInlineFrom(s, e, n + 1).0,
            [code] + ProtectInlineFrom(s, e, n + 1).1)
  {
    var u := "`" + code + "`";
    HasAtSlice(s, p, u, 0, 1);
    assert u[0] == '`';
    HasAtSlice(s, p, u, 1, 1 + |code|);
    assert u[1..1 + |code|] == code;
    HasAtSlice(s, p, u, 1 + |code|, 2 + |code|);
    assert u[1 + |code|] == '`';
    RunWithoutAt(s, p + 1, p + 1 + |code|, '`');
  }

  lemma {:induction false} RunWithoutAt(s: string, p: nat, e: nat, c: char)
    requires p <= e <= |s|
    requires forall k :: p <= k < e ==> s[k] != c
    requires e == |s| || s[e] == c
    ensures RunWithout(s, p, c) == e
    decreases e - p
  {
    if p < e {
      RunWithoutAt(s, p + 1, e, c);
    }
  }

  /** Without a backtick the text passes stage 2 unchanged. */
  lemma {:induction false} NoBacktickUnchanged(s: string, p: nat, n: nat)
    requires p <= |s| && '`' !in s
    ensures ProtectInlineFrom(s, p, n) == (s[p..], [])
    decreases |s| - p
  {
    if p < |s| {
      assert s[p] != '`';
      assert InlineAt(s, p) == None;
      NoBacktickUnchanged(s, p + 1, n);
      assert ProtectInlineFrom(s, p, n) == ([s[p]] + ProtectInlineFrom(s, p + 1, n).0, ProtectInlineFrom(s, p + 1, n).1);
      assert s[p..] == [s[p]] + s[p + 1..];
    } else {
      assert ProtectInlineFrom(s, p, n) == ([], []);
      assert s[p..] == [];
      var e: seq<string> := [];
      assert ProtectInlineFrom(s, p, n).1 == e;
      assert ProtectInlineFrom(s, p, n).0 == s[p..];
    }
  }

  /** Reading a placeholder back: the expression /PREFIX(\d+)___/ matches
      the whole placeholder and yields the number written into it. */
  lemma MarkerReadBack(s: string, p: nat, prefix: string, i: nat)
    requires HasAt(s, p, prefix + Decimal(i) + MarkerEnd)
    ensures RefAt(s, p, prefix) == Some((p + |prefix| + |Decimal(i)| + 3, i))
  {
    var q := p + |prefix|;
    HasAtConcat(s, p, prefix + Decimal(i), MarkerEnd);
    HasAtConcat(s, p, prefix, Decimal(i));
    NumberRunEnd(s, q, i);
    RefAtOf(s, p, prefix, q + |Decimal(i)|);
  }

  /** The digits of a number followed by `___` form a maximal digit run
      that reads back as the number. */
  lemma NumberRunEnd(s: string, q: nat, i: nat)
    requires HasAt(s, q, Decimal(i)) && HasAt(s, q + |Decimal(i)|, MarkerEnd)
    ensures DigitRunEnd(s, q) == q + |Decimal(i)|
    ensures DecimalValue(s[q..q + |Decimal(i)|]) == i
  {
    var d := q + |Decimal(i)|;
    assert s[q..d] == Decimal(i);
    forall k | q <= k < d ensures IsDigit(s[k]) {
      assert s[k] == s[q..d][k - q];
    }
    assert s[d] == s[d..d + 3][0];
    DigitRunEndAt(s, q, d);
    DecimalRoundTrip(i);
  }

  /** A placeholder read from where its digit run ends. */
  lemma RefAtOf(s: string, p: nat, prefix: string, d: nat)
    requires HasAt(s, p, prefix) && p + |prefix| < d
    requires DigitRunEnd(s, p + |prefix|) == d && HasAt(s, d, MarkerEnd)
    ensures RefAt(s, p, prefix) == Some((d + 3, DecimalValue(s[p + |prefix|..d])))
  {
  }

  /** An occurrence of `a + b` is an occurrence of `a` followed by one of `b`. */
  lemma HasAtConcat(s: string, p: nat, a: string, b: string)
    requires HasAt(s, p, a + b)
    ensures HasAt(s, p, a) && HasAt(s, p + |a|, b)
  {
    HasAtSlice(s, p, a + b, 0, |a|);
    HasAtSlice(s, p, a + b, |a|, |a| + |b|);
    assert (a + b)[..|a|] == a;
    assert (a + b)[|a|..|a| + |b|] == b;
  }

  /** A block placeholder whose number has a block becomes that block's
      HTML; one whose number has none makes resolution fail, as the source's
      destructuring of `undefined` throws. */
  lemma BlockPlaceholderResolves(s: string, p: nat, i: nat, blocks: seq<CodeBlock>)
    requires HasAt(s, p, BlockMarker(i))
    ensures p + |BlockMarker(i)| <= |s|
    ensures i >= |blocks| ==> ResolveBlocksFrom(s, p, blocks) == None
    ensures i < |blocks| ==>
      ResolveBlocksFrom(s, p, blocks)
        == match ResolveBlocksFrom(s, p + |BlockMarker(i)|, blocks)
           case Some(rest) => Some(BlockHtml(blocks[i]) + rest)
           case None => None
  {
    MarkerReadBack(s, p, BlockPrefix, i);
    BlockStep(s, p, p + |BlockMarker(i)|, i, blocks);
  }

  /** Block resolution at a placeholder read as `(e, i)`. */
  lemma BlockStep(s: string, p: nat, e: nat, i: nat, blocks: seq<CodeBlock>)
    requires p < |s| && RefAt(s, p, BlockPrefix) == Some((e, i))
    ensures e <= |s|
    ensures i >= |blocks| ==> ResolveBlocksFrom(s, p, blocks) == None
    ensures i < |blocks| ==>
      ResolveBlocksFrom(s, p, blocks)
        == match ResolveBlocksFrom(s, e, blocks)
           case Some(rest) => Some(BlockHtml(blocks[i]) + rest)
           case None => None
  {
  }

  /** The same for an inline placeholder and the codes. */
  lemma InlinePlaceholderResolves(s: string, p: nat, i: nat, codes: seq<string>)
    requires HasAt(s, p, InlineMarker(i))
    ensures p + |InlineMarker(i)| <= |s|
    ensures i >= |codes| ==> ResolveInlineFrom(s, p, codes) == None
    ensures i < |codes| ==>
      ResolveInlineFrom(s, p, codes)
        == match ResolveInlineFrom(s, p + |InlineMarker(i)|, codes)
           case Some(rest) => Some(InlineHtml(codes[i]) + rest)
           case None => None
  {
    MarkerReadBack(s, p, InlinePrefix, i);
    InlineStep(s, p, p + |InlineMarker(i)|, i, codes);
  }

  /** Inline resolution at a placeholder read as `(e, i)`. */
  lemma InlineStep(s: string, p: nat, e: nat, i: nat, codes: seq<string>)
    requires p < |s| && RefAt(s, p, InlinePrefix) == Some((e, i))
    ensures e <= |s|
    ensures i >= |codes| ==> ResolveInlineFrom(s, p, codes) == None
    ensures i < |codes| ==>
      ResolveInlineFrom(s, p, codes)
        == match ResolveInlineFrom(s, e, codes)
           case Some(rest) => Some(InlineHtml(codes[i]) + rest)
           case None => None
  {
  }
}

=== FILE: reorder.dfy ===
/** `parseMarkdown` (src/utils/markdownParser.js) with its two resolution
    stages swapped: inline placeholders are resolved before block
    placeholders. A fenced block that the inline stage captured inside a code
    span then comes back with the span's code and is resolved with the other
    blocks, so no placeholder reaches the output. On text without `_` the
    renderer succeeds and its output holds no placeholder text at all. */
module InlineFirst {
  import opened Strings
  import opened Passes
  import opened Markdown
  import ProtectFacts
  import opened RenderSafety
  import Collisions

  /** The renderer with inline placeholders resolved first. */
  function RenderInlineFirst(markdown: string): Option<string> {
    var st := Prepare(markdown);
    match ResolveInlineFrom(st.text, 0, st.codes)
    case None => None
    case Some(t) => ResolveBlocksFrom(t, 0, st.blocks)
  }

  /** Every captured code span reads as plain characters, block placeholders
      below the block count and `_blank`. */
  predicate CodesClean(codes: seq<string>, nb: nat) {
    forall j :: 0 <= j < |codes| ==> Clean(codes[j], nb, 0)
  }

  // ---------------------------------------------------------------------
  // The captured code spans

  /** A code span lies between two backticks, so it is a clean slice. */
  lemma SpanCodeClean(s: string, p: nat, e: nat, code: string, nb: nat)
    requires p < |s| && Clean(s, nb, 0) && InlineAt(s, p) == Some((e, code))
    ensures Clean(code, nb, 0)
  {
    var q := RunWithout(s, p + 1, '`');
    assert s[p] == '`' && s[q] == '`';
    assert code == s[p + 1..q];
    CleanSlice(s, p + 1, q, nb, 0);
  }

  /** Stage 2 from `p` captures only clean code spans. */
  lemma {:induction false} SpansClean(s: string, p: nat, n: nat, nb: nat)
    requires p <= |s| && Clean(s, nb, 0)
    ensures CodesClean(ProtectInlineFrom(s, p, n).1, nb)
    decreases |s| - p
  {
    if p < |s| {
      match InlineAt(s, p)
      case Some((e, code)) =>
        SpansClean(s, e, n + 1, nb);
        SpanCodeClean(s, p, e, code, nb);
        SpanStep(s, p, n, e, code);
      case None =>
        SpansClean(s, p + 1, n, nb);
    }
  }

  /** On markdown without `_`, the captured code spans are clean for the
      captured blocks. */
  lemma PreparedCodesClean(s: string)
    requires '_' !in s
    ensures CodesClean(Prepare(s).codes, |Prepare(s).blocks|)
  {
    var fenced := ProtectFences(s);
    FencesClean(s, 0, 0);
    SpansClean(fenced.0, 0, 0, |fenced.1|);
  }

  // ---------------------------------------------------------------------
  // No inline placeholder inside the tokens inline resolution copies

  /** The first four characters of an inline prefix. */
  lemma InlineOpenerFour(s: string, k: nat)
    ensures HasAt(s, k, InlinePrefix) ==>
      s[k] == '_' && s[k + 1] == '_' && s[k + 2] == '_' && s[k + 3] == 'I'
  {
    if HasAt(s, k, InlinePrefix) {
      assert s[k..k + 14] == InlinePrefix;
    }
  }

  /** A block placeholder holds no `I`. */
  lemma NoIInBlockRef(s: string, p: nat, e: nat, i: nat)
    requires p <= |s| && RefAt(s, p, BlockPrefix) == Some((e, i))
    ensures forall j :: p <= j < e ==> s[j] != 'I'
  {
    var d := DigitRunEnd(s, p + 13);
    assert e == d + 3;
    assert s[p..p + 13] == BlockPrefix;
    assert s[d..d + 3] == MarkerEnd;
    forall j | p <= j < e ensures s[j] != 'I' {
      if j < p + 13 {
        assert s[j] == BlockPrefix[j - p];
      } else if j < d {
        assert IsDigit(s[j]);
      } else {
        assert s[j] == MarkerEnd[j - d];
      }
    }
  }

  /** After the reading's position a `_` starts `__` followed by `_`, or
      `_b`. */
  lemma LookAheadShape(s: string, e: nat, nb: nat, ni: nat)
    requires e < |s| && Lexes(s, e, nb, ni)
    ensures s[e] == '_' ==> e + 2 < |s| && (s[e + 1] == '_' || s[e + 1] == 'b')
    ensures s[e] == '_' && s[e + 1] == '_' ==> s[e + 2] == '_'
  {
    if s[e] == '_' {
      UnderscoreStartsToken(s, e, nb, ni);
      var (t, f) := TokenAt(s, e).value;
      TokenShape(s, e, t, f);
    }
  }

  /** An inline prefix in the closing `___` of a placeholder would be
      followed by `INLINECODE_`, after which the reading sees no digit. */
  lemma NoInlineRefAtClose(s: string, e: nat, nb: nat, ni: nat)
    requires 3 <= e <= |s| && Lexes(s, e, nb, ni)
    ensures RefAt(s, e - 3, InlinePrefix).None?
  {
    var k := e - 3;
    if HasAt(s, k, InlinePrefix) {
      assert s[k..k + 14] == InlinePrefix;
      assert InlinePrefix == ['_', '_', '_', 'I', 'N', 'L', 'I', 'N', 'E', 'C', 'O', 'D', 'E', '_'];
      forall j | e <= j < e + 10 ensures s[j] != '_' {
        assert s[j] == InlinePrefix[j - k];
      }
      LexesOver(s, e, e + 10, nb, ni);
      assert s[e + 10] == InlinePrefix[13];
      UnderscoreStartsToken(s, e + 10, nb, ni);
      var (t, f) := TokenAt(s, e + 10).value;
      TokenShape(s, e + 10, t, f);
      ProtectFacts.DigitRunEndAt(s, k + 14, k + 14);
    }
  }

  /** Nor can an inline prefix start in the last two characters of the
      closing `___`. */
  lemma NoInlineOpenerLate(s: string, e: nat, k: nat, nb: nat, ni: nat)
    requires 3 <= e <= |s| && e - 2 <= k < e && Lexes(s, e, nb, ni)
    requires forall j :: e - 3 <= j < e ==> s[j] == '_'
    ensures !HasAt(s, k, InlinePrefix)
  {
    InlineOpenerFour(s, k);
    if e < |s| {
      LookAheadShape(s, e, nb, ni);
    }
  }

  /** No inline placeholder starts inside a block placeholder that the
      reading passes over. */
  lemma NoInlineRefInBlock(s: string, p: nat, e: nat, i: nat, nb: nat, ni: nat)
    requires p <= |s| && RefAt(s, p, BlockPrefix) == Some((e, i)) && Lexes(s, e, nb, ni)
    ensures forall k :: p <= k < e ==> RefAt(s, k, InlinePrefix).None?
  {
    var d := DigitRunEnd(s, p + 13);
    assert s[d..d + 3] == MarkerEnd;
    NoIInBlockRef(s, p, e, i);
    forall k | p <= k < e ensures RefAt(s, k, InlinePrefix).None? {
      if k + 4 <= e {
        InlineOpenerFour(s, k);
      } else if k == e - 3 {
        NoInlineRefAtClose(s, e, nb, ni);
      } else {
        NoInlineOpenerLate(s, e, k, nb, ni);
      }
    }
  }

  lemma NoInlineRefInBlank(s: string, p: nat)
    requires p + 6 <= |s| && HasAt(s, p, Blank)
    ensures forall k :: p <= k < p + 6 ==> RefAt(s, k, InlinePrefix).None?
  {
    assert s[p..p + 6] == Blank;
    forall k | p <= k < p + 6 ensures RefAt(s, k, InlinePrefix).None? {
      InlineOpener(s, k);
      assert s[k] == Blank[k - p];
      assert k == p ==> s[k + 1] == 'b';
    }
  }

  // ---------------------------------------------------------------------
  // Inline resolution first

  /** The HTML of a clean code span is clean: escaping touches no token. */
  lemma InlineHtmlClean(code: string, nb: nat)
    requires Clean(code, nb, 0)
    ensures Clean(InlineHtml(code), nb, 0)
  {
    EscapeClean(code, nb);
    CleanWrapped("<code>", Escape(code), "</code>", nb, 0);
  }

  lemma EscapeClean(code: string, nb: nat)
    requires Clean(code, nb, 0)
    ensures Clean(Escape(code), nb, 0)
  {
    EscapeRulesSafe();
    ApplyAllClean(EscapeRules, code, nb, 0);
  }

  /** Each escape looks for one character other than a word character and
      writes no `_`. */
  lemma EscapeRulesSafe()
    ensures forall k :: 0 <= k < |EscapeRules| ==> SafeRule(EscapeRules[k])
  {
  }

  lemma CharCaseCodes(s: string, p: nat, codes: seq<string>, nb: nat)
    requires p < |s| && s[p] != '_'
    requires ResolveInlineFrom(s, p + 1, codes).Some? && Clean(ResolveInlineFrom(s, p + 1, codes).value, nb, 0)
    ensures ResolveInlineFrom(s, p, codes).Some? && Clean(ResolveInlineFrom(s, p, codes).value, nb, 0)
  {
    InlineOpener(s, p);
    CharThen(s[p], ResolveInlineFrom(s, p + 1, codes).value, nb, 0);
  }

  lemma SpanCaseCodes(s: string, p: nat, e: nat, i: nat, codes: seq<string>, nb: nat)
    requires p < |s| && RefAt(s, p, InlinePrefix) == Some((e, i)) && i < |codes|
    requires CodesClean(codes, nb)
    requires ResolveInlineFrom(s, e, codes).Some? && Clean(ResolveInlineFrom(s, e, codes).value, nb, 0)
    ensures ResolveInlineFrom(s, p, codes).Some? && Clean(ResolveInlineFrom(s, p, codes).value, nb, 0)
  {
    var rest := ResolveInlineFrom(s, e, codes).value;
    ProtectFacts.InlineStep(s, p, e, i, codes);
    InlineHtmlClean(codes[i], nb);
    CleanConcat(InlineHtml(codes[i]), rest, nb, 0);
  }

  /** The output of inline resolution over a token it copies. */
  lemma CopiedTokenCodes(s: string, p: nat, t: Token, e: nat, codes: seq<string>, nb: nat)
    requires p < |s| && s[p] == '_' && TokenAt(s, p) == Some((t, e)) && Allowed(t, nb, 0)
    requires forall k :: p <= k < e ==> RefAt(s, k, InlinePrefix).None?
    requires ResolveInlineFrom(s, e, codes).Some? && Clean(ResolveInlineFrom(s, e, codes).value, nb, 0)
    ensures ResolveInlineFrom(s, p, codes).Some? && Clean(ResolveInlineFrom(s, p, codes).value, nb, 0)
  {
    var rest := ResolveInlineFrom(s, e, codes).value;
    Collisions.ResolveInlineSkip(s, p, e, codes);
    var w := s[p..e];
    forall k | p <= k < e ensures s[k] == w[k - p + 0] { }
    assert Lexes(w, e - p, nb, 0);
    WindowStep(s, p, t, e, w, 0, e - p, nb, 0);
    CleanConcat(w, rest, nb, 0);
  }

  lemma TokenCaseCodes(s: string, p: nat, t: Token, e: nat, codes: seq<string>, nb: nat)
    requires p < |s| && s[p] == '_' && TokenAt(s, p) == Some((t, e)) && Allowed(t, nb, |codes|)
    requires Lexes(s, e, nb, |codes|) && CodesClean(codes, nb)
    requires ResolveInlineFrom(s, e, codes).Some? && Clean(ResolveInlineFrom(s, e, codes).value, nb, 0)
    ensures ResolveInlineFrom(s, p, codes).Some? && Clean(ResolveInlineFrom(s, p, codes).value, nb, 0)
  {
    match t
    case InlineToken(i) =>
      SpanCaseCodes(s, p, e, i, codes, nb);
    case BlockToken(i) =>
      NoInlineRefInBlock(s, p, e, i, nb, |codes|);
      CopiedTokenCodes(s, p, t, e, codes, nb);
    case BlankToken =>
      NoInlineRefInBlank(s, p);
      CopiedTokenCodes(s, p, t, e, codes, nb);
  }

  /** Inline resolution of a clean text with clean code spans succeeds and
      leaves only block placeholders, all in range. */
  lemma {:induction false} ResolveInlineClean(s: string, p: nat, codes: seq<string>, nb: nat)
    requires p <= |s| && Lexes(s, p, nb, |codes|) && CodesClean(codes, nb)
    ensures ResolveInlineFrom(s, p, codes).Some?
    ensures Clean(ResolveInlineFrom(s, p, codes).value, nb, 0)
    decreases |s| - p
  {
    if p == |s| {
    } else if s[p] != '_' {
      ResolveInlineClean(s, p + 1, codes, nb);
      CharCaseCodes(s, p, codes, nb);
    } else {
      var (t, e) := TokenAt(s, p).value;
      ResolveInlineClean(s, e, codes, nb);
      TokenCaseCodes(s, p, t, e, codes, nb);
    }
  }

  // ---------------------------------------------------------------------
  // The output

  /** In a text with no placeholder token, every `_` starts `_blank`. */
  lemma {:induction false} OnlyBlanks(s: string, p: nat)
    requires p <= |s| && Lexes(s, p, 0, 0)
    ensures forall k :: p <= k < |s| && s[k] == '_' ==> k + 1 < |s| && s[k + 1] == 'b'
    decreases |s| - p
  {
    if p < |s| {
      if s[p] != '_' {
        OnlyBlanks(s, p + 1);
      } else {
        var (t, e) := TokenAt(s, p).value;
        OnlyBlanks(s, e);
        assert t == BlankToken && e == p + 6;
        assert s[p..p + 6] == Blank;
        forall k | p <= k < e ensures s[k] == Blank[k - p] { }
      }
    }
  }

  /** Such a text contains no placeholder text. */
  lemma NoPlaceholderText(s: string)
    requires Clean(s, 0, 0)
    ensures forall k :: !HasAt(s, k, BlockPrefix) && !HasAt(s, k, InlinePrefix)
  {
    OnlyBlanks(s, 0);
    forall k: nat ensures !HasAt(s, k, BlockPrefix) && !HasAt(s, k, InlinePrefix) {
      BlockOpener(s, k);
      InlineOpener(s, k);
    }
  }

  /** Rendering with inline placeholders resolved first never fails on
      markdown without `_`, and no placeholder reaches the output: a fence
      inside a code span is resolved with the span. */
  lemma InlineFirstResolvesAll(s: string)
    requires '_' !in s
    ensures RenderInlineFirst(s).Some?
    ensures forall k :: !HasAt(RenderInlineFirst(s).value, k, BlockPrefix)
    ensures forall k :: !HasAt(RenderInlineFirst(s).value, k, InlinePrefix)
  {
    PreparedClean(s);
    PreparedCodesClean(s);
    var st := Prepare(s);
    ResolveInlineClean(st.text, 0, st.codes, |st.blocks|);
    var t := ResolveInlineFrom(st.text, 0, st.codes).value;
    ResolveBlocksClean(t, 0, st.blocks, 0);
    NoPlaceholderText(ResolveBlocksFrom(t, 0, st.blocks).value);
  }

  // ---------------------------------------------------------------------
  // A forged block placeholder

  /** The letters that, right after a code span, forge the block
      placeholder `j`. */
  function ForgedLetters(j: nat): string {
    "CODEBLOCK_" + Decimal(j) + MarkerEnd
  }

  lemma Regroup(a: string, b: string, c: string, d: string)
    ensures a + (b + c) + d == a + b + (c + d)
  {
  }

  /** No placeholder of either kind starts at a character other than `_`,
      at a `_` followed by another character, or too near the end. */
  lemma NoRefAt(w: string, k: nat)
    requires k < |w|
    requires w[k] != '_' || (k + 1 < |w| && w[k + 1] != '_') || |w| < k + 13
    ensures RefAt(w, k, InlinePrefix).None? && RefAt(w, k, BlockPrefix).None?
  {
    InlineOpener(w, k);
    BlockOpener(w, k);
  }

  /** The letters' own `_` is followed by a digit, and their closing `___`
      is too near the end for a placeholder to start in it: no placeholder
      of either kind starts in the letters followed by `</p>`. */
  lemma ForgedLettersPlain(w: string, e: nat, j: nat)
    requires e <= |w| && w[e..] == ForgedLetters(j) + "</p>"
    ensures forall k :: e <= k < |w| ==> RefAt(w, k, InlinePrefix).None? && RefAt(w, k, BlockPrefix).None?
  {
    var d := Decimal(j);
    var f := e + 10 + |d|;
    assert |w| == f + 7;
    assert w[e..e + 10] == "CODEBLOCK_" && w[e + 10..f] == d;
    forall k | e <= k < |w| ensures RefAt(w, k, InlinePrefix).None? && RefAt(w, k, BlockPrefix).None? {
      if k < e + 9 {
        assert w[k] == w[e..e + 10][k - e];
        assert w[k] in "CODEBLOCK";
      } else if k == e + 9 {
        assert w[k + 1] == w[e + 10..f][0];
      } else if k < f {
        assert w[k] == w[e + 10..f][k - e - 10];
      }
      NoRefAt(w, k);
    }
  }

  /** Stages 1 to 7 on a forged placeholder: one paragraph holding the
      span's placeholder and the letters, no block and the span's code. */
  lemma ForgedPrepared(x: string, j: nat, s: string, n: nat)
    requires Collisions.ForgedText(x, j, s) && n == 0
    ensures Prepare(s) == Staged("<p>" + (InlineMarker(n) + ForgedLetters(j)) + "</p>", [], [x])
  {
    var m := InlineMarker(n) + ForgedLetters(j);
    Collisions.ForgedFences(x, j, s);
    Collisions.ForgedSpans(x, j, s, n);
    Collisions.ForgedMarkerWord(n, j);
    Collisions.WordRunPrepared(m);
    Collisions.PreparedOf(s, m, [x], "<p>" + m + "</p>");
  }

  /** Past the span's placeholder, inline resolution copies the letters. */
  lemma ForgedTailCopied(w: string, e: nat, j: nat, codes: seq<string>)
    requires e <= |w| && w[e..] == ForgedLetters(j) + "</p>"
    ensures ResolveInlineFrom(w, e, codes) == Some(ForgedLetters(j) + "</p>")
  {
    ForgedLettersPlain(w, e, j);
    assert ResolveInlineFrom(w, |w|, codes) == Some([]);
    Collisions.ResolveInlineSkip(w, e, |w|, codes);
    assert w[e..|w|] + [] == w[e..];
  }

  /** Inline resolution at a placeholder whose rest resolves. */
  lemma MarkerStep(w: string, p: nat, n: nat, e: nat, rest: string, codes: seq<string>)
    requires HasAt(w, p, InlineMarker(n)) && e == p + |InlineMarker(n)| && n < |codes|
    requires e <= |w| && ResolveInlineFrom(w, e, codes) == Some(rest)
    ensures ResolveInlineFrom(w, p, codes) == Some(InlineHtml(codes[n]) + rest)
  {
    ProtectFacts.MarkerReadBack(w, p, InlinePrefix, n);
    ProtectFacts.InlineStep(w, p, e, n, codes);
  }

  /** Inline resolution first puts the span's code back and copies the
      letters. */
  lemma ForgedInlineResolved(w: string, j: nat, n: nat, codes: seq<string>)
    requires w == "<p>" + InlineMarker(n) + (ForgedLetters(j) + "</p>") && n < |codes|
    ensures ResolveInlineFrom(w, 0, codes) == Some("<p>" + (InlineHtml(codes[n]) + (ForgedLetters(j) + "</p>")))
  {
    var rest := ForgedLetters(j) + "</p>";
    var e := 3 + |InlineMarker(n)|;
    assert w[e..] == rest;
    ForgedTailCopied(w, e, j, codes);
    Collisions.HasAtMiddle("<p>", InlineMarker(n), rest);
    MarkerStep(w, 3, n, e, rest, codes);
    assert w[..3] == "<p>";
    forall k | 0 <= k < 3 ensures RefAt(w, k, InlinePrefix).None? {
      assert w[k] == w[..3][k];
      NoRefAt(w, k);
    }
    Collisions.ResolveInlineSkip(w, 0, 3, codes);
  }

  /** Block resolution finds no placeholder in a stretch without `_`. */
  lemma PlainHead(t: string, e: nat)
    requires e <= |t| && '_' !in t[..e]
    ensures forall k :: 0 <= k < e ==> RefAt(t, k, BlockPrefix).None?
  {
    forall k | 0 <= k < e ensures RefAt(t, k, BlockPrefix).None? {
      assert t[k] == t[..e][k];
      NoRefAt(t, k);
    }
  }

  /** With a span free of `_`, block resolution then finds no placeholder. */
  lemma ForgedBlocksResolved(x: string, j: nat, t: string, blocks: seq<CodeBlock>)
    requires '_' !in Escape(x)
    requires t == "<p>" + InlineHtml(x) + (ForgedLetters(j) + "</p>")
    ensures ResolveBlocksFrom(t, 0, blocks) == Some(t)
  {
    var head := "<p>" + InlineHtml(x);
    var e := |head|;
    assert t[..e] == head && t[e..] == ForgedLetters(j) + "</p>";
    ForgedLettersPlain(t, e, j);
    PlainHead(t, e);
    assert ResolveBlocksFrom(t, |t|, blocks) == Some([]);
    ResolveBlocksSkip(t, 0, |t|, blocks);
    assert t[0..|t|] + [] == t;
  }

  lemma Regroup3(a: string, b: string, c: string)
    ensures a + (b + c) == a + b + c
  {
  }

  /** The corrected order on a forged placeholder, the input on which
      `Collisions.ForgedFails` shows `Render` failing: the span is put back
      before any block placeholder is read, so the closing underscores of
      its placeholder are never read as the start of the block placeholder
      `j`, and the letters after the span stay text. */
  lemma ForgedRenders(x: string, j: nat, s: string)
    requires Collisions.ForgedText(x, j, s) && Collisions.Unspecial(x) && '_' !in x
    ensures RenderInlineFirst(s) == Some("<p>" + ("<code>" + x + "</code>" + (ForgedLetters(j) + "</p>")))
  {
    var rest := ForgedLetters(j) + "</p>";
    ForgedPrepared(x, j, s, 0);
    var st := Prepare(s);
    Regroup("<p>", InlineMarker(0), ForgedLetters(j), "</p>");
    ForgedInlineResolved(st.text, j, 0, st.codes);
    Collisions.EscapePlain(x);
    Regroup3("<p>", InlineHtml(x), rest);
    ForgedBlocksResolved(x, j, "<p>" + InlineHtml(x) + rest, st.blocks);
  }

  /** The smallest such input renders. */
  lemma ForgedMarkerRenders()
    ensures RenderInlineFirst("`a`CODEBLOCK_0___") == Some("<p><code>a</code>CODEBLOCK_0___</p>")
  {
    ForgedMarkerInstance("a", 0, "`a`CODEBLOCK_0___", "<p><code>a</code>CODEBLOCK_0___</p>");
  }

  /** The instance with its pieces named. */
  lemma ForgedMarkerInstance(x: string, j: nat, s: string, out: string)
    requires x == "a" && j == 0 && s == "`a`CODEBLOCK_0___" && out == "<p><code>a</code>CODEBLOCK_0___</p>"
    ensures RenderInlineFirst(s) == Some(out)
  {
    ForgedInstanceText(x, j, s);
    ForgedRenders(x, j, s);
    ForgedInstanceOutput(x, j, ForgedLetters(j), out);
  }

  lemma ForgedInstanceText(x: string, j: nat, s: string)
    requires x == "a" && j == 0 && s == "`a`CODEBLOCK_0___"
    ensures Collisions.ForgedText(x, j, s) && Collisions.Unspecial(x) && '_' !in x
  {
    Collisions.ZeroMarkers();
    assert s == "`" + x + "`" + ("CODEBLOCK_" + Decimal(j) + MarkerEnd);
  }

  lemma ForgedInstanceOutput(x: string, j: nat, l: string, out: string)
    requires x == "a" && j == 0 && l == ForgedLetters(j) && out == "<p><code>a</code>CODEBLOCK_0___</p>"
    ensures "<p>" + ("<code>" + x + "</code>" + (l + "</p>")) == out
  {
    Collisions.ZeroMarkers();
    assert l == "CODEBLOCK_0___";
    InstanceForgedOutput(x, l, out);
  }

  lemma InstanceForgedOutput(x: string, l: string, out: string)
    requires x == "a" && l == "CODEBLOCK_0___" && out == "<p><code>a</code>CODEBLOCK_0___</p>"
    ensures "<p>" + ("<code>" + x + "</code>" + (l + "</p>")) == out
  {
  }

  // ---------------------------------------------------------------------
  // What the corrected order gives up

  /** A code span holding the text of a block placeholder has its two
      backticks and no other. */
  lemma PlaceholderSpanBackticks(j: nat, s: string, i: nat)
    requires s == "`" + BlockMarker(j) + "`" && i < |s|
    ensures s[i] == '`' ==> i == 0 || i == |s| - 1
  {
    Collisions.BlockMarkerWord(j);
    if 0 < i < |s| - 1 {
      assert s[i] == BlockMarker(j)[i - 1];
      assert IsWordChar(BlockMarker(j)[i - 1]);
    }
  }

  /** So it holds no fence. */
  lemma PlaceholderSpanFences(j: nat, s: string)
    requires s == "`" + BlockMarker(j) + "`"
    ensures '`' !in BlockMarker(j)
    ensures ProtectFences(s) == (s, [])
  {
    var code := BlockMarker(j);
    Collisions.BlockMarkerWord(j);
    forall k | 0 <= k < |code| ensures code[k] != '`' {
      assert IsWordChar(code[k]);
    }
    forall k | 0 <= k < |s| ensures !HasAt(s, k, "```") {
      if k + 3 <= |s| {
        assert s[k] == s[k..k + 3][0] && s[k + 1] == s[k..k + 3][1];
        PlaceholderSpanBackticks(j, s, k);
        PlaceholderSpanBackticks(j, s, k + 1);
      }
    }
    ProtectFacts.NoFenceUnchanged(s, 0, 0);
    assert s[0..] == s;
  }

  /** Stages 1 to 7 on such a span: one paragraph holding its placeholder. */
  lemma PlaceholderSpanPrepared(j: nat, s: string, n: nat)
    requires s == "`" + BlockMarker(j) + "`" && n == 0
    ensures Prepare(s) == Staged("<p>" + InlineMarker(n) + "</p>", [], [BlockMarker(j)])
  {
    var code := BlockMarker(j);
    PlaceholderSpanFences(j, s);
    assert HasAt(s, 0, "`" + code + "`") by {
      assert s[0..|s|] == s;
    }
    ProtectFacts.CodeSpanCaptured(s, 0, n, code);
    var none: seq<string> := [];
    assert ProtectInlineFrom(s, |s|, n + 1) == ([], none);
    assert InlineMarker(n) + [] == InlineMarker(n) && [code] + none == [code];
    assert ProtectInline(s) == (InlineMarker(n), [code]);
    Collisions.InlineMarkerWord(n);
    Collisions.WordRunPrepared(InlineMarker(n));
    Collisions.PreparedOf(s, InlineMarker(n), [code], "<p>" + InlineMarker(n) + "</p>");
  }

  /** The price of the corrected order. A code span holding the text of a
      block placeholder renders under lines 103-123 as written: blocks are
      resolved first, none is in the text, and the span comes back as
      code. Resolving inline placeholders first puts that text back before
      the block stage, which reads it as the block placeholder `j` with no
      block behind it and fails, whatever `j` is. */
  lemma PlaceholderSpanRegresses(j: nat, s: string)
    requires s == "`" + BlockMarker(j) + "`"
    ensures Render(s) == Some("<p><code>" + BlockMarker(j) + "</code></p>")
    ensures RenderInlineFirst(s) == None
  {
    PlaceholderSpanPrepared(j, s, 0);
    var st := Prepare(s);
    PlaceholderSpanResolved(st.text, j, 0, st.codes, st.blocks);
  }

  /** Both orders of resolution on the prepared span. */
  lemma PlaceholderSpanResolved(w: string, j: nat, n: nat, codes: seq<string>, blocks: seq<CodeBlock>)
    requires w == "<p>" + InlineMarker(n) + "</p>" && n == 0 && codes == [BlockMarker(j)] && blocks == []
    ensures ResolveBlocksFrom(w, 0, blocks) == Some(w)
    ensures ResolveInlineFrom(w, 0, codes) == Some("<p><code>" + BlockMarker(j) + "</code></p>")
    ensures ResolveBlocksFrom("<p><code>" + BlockMarker(j) + "</code></p>", 0, blocks) == None
  {
    Collisions.LoneSpanBlocks(w, n, blocks);
    PlaceholderInline(w, j, n, codes);
    PlaceholderFails(BlockMarker(j), j, "<p><code>" + BlockMarker(j) + "</code></p>", blocks);
  }

  /** Inline resolution puts the placeholder text back as code. */
  lemma PlaceholderInline(w: string, j: nat, n: nat, codes: seq<string>)
    requires w == "<p>" + InlineMarker(n) + "</p>" && n == 0 && codes == [BlockMarker(j)]
    ensures ResolveInlineFrom(w, 0, codes) == Some("<p><code>" + BlockMarker(j) + "</code></p>")
  {
    var code := BlockMarker(j);
    assert codes[n] == code;
    Collisions.LoneSpanInline(w, n, codes);
    Collisions.BlockMarkerWord(j);
    Collisions.UnspecialWord(code);
    Collisions.EscapePlain(code);
    Wrapped(code);
  }

  lemma Wrapped(c: string)
    ensures "<p>" + ("<code>" + c + "</code>") + "</p>" == "<p><code>" + c + "</code></p>"
  {
  }

  /** Block resolution with no block fails on the placeholder text. */
  lemma PlaceholderFails(code: string, j: nat, t: string, blocks: seq<CodeBlock>)
    requires code == BlockMarker(j) && t == "<p><code>" + code + "</code></p>" && blocks == []
    ensures ResolveBlocksFrom(t, 0, blocks) == None
  {
    Collisions.HasAtMiddle("<p><code>", code, "</code></p>");
    ProtectFacts.BlockPlaceholderResolves(t, 9, j, blocks);
    Collisions.NoBlocksFail(t, 0, 9);
  }

  /** The smallest such input. */
  lemma PlaceholderSpanInstance()
    ensures Render("`___CODEBLOCK_0___`") == Some("<p><code>___CODEBLOCK_0___</code></p>")
    ensures RenderInlineFirst("`___CODEBLOCK_0___`") == None
  {
    PlaceholderSpanNamed(0, "`___CODEBLOCK_0___`", "<p><code>___CODEBLOCK_0___</code></p>");
  }

  lemma PlaceholderSpanNamed(j: nat, s: string, out: string)
    requires j == 0 && s == "`___CODEBLOCK_0___`" && out == "<p><code>___CODEBLOCK_0___</code></p>"
    ensures Render(s) == Some(out) && RenderInlineFirst(s) == None
  {
    PlaceholderInstancePieces(j, s, out);
    PlaceholderSpanRegresses(j, s);
  }

  lemma PlaceholderInstancePieces(j: nat, s: string, out: string)
    requires j == 0 && s == "`___CODEBLOCK_0___`" && out == "<p><code>___CODEBLOCK_0___</code></p>"
    ensures s == "`" + BlockMarker(j) + "`" && out == "<p><code>" + BlockMarker(j) + "</code></p>"
  {
    var m := "___CODEBLOCK_0___";
    Collisions.ZeroMarkers();
    assert BlockMarker(j) == m;
    InstanceSpan(m, s);
    InstanceOutput(m, out);
  }

  lemma InstanceSpan(m: string, s: string)
    requires m == "___CODEBLOCK_0___" && s == "`___CODEBLOCK_0___`"
    ensures s == "`" + m + "`"
  {
  }

  lemma InstanceOutput(m: string, out: string)
    requires m == "___CODEBLOCK_0___" && out == "<p><code>___CODEBLOCK_0___</code></p>"
    ensures out == "<p><code>" + m + "</code></p>"
  {
  }
}

=== FILE: safety.dfy ===
/** Why `parseMarkdown` (src/utils/markdownParser.js) cannot throw on text
    that contains no underscore. Resolution fails only at a placeholder whose
    number has no entry in its table, so the argument is an invariant of the
    intermediate text: it reads as plain characters, block placeholders
    numbered below the block count, inline placeholders numbered below the
    code count, and the `_blank` every link emits. Every stage keeps that
    reading, because each of these tokens is made of word characters only and
    every pass cuts the text at non-word characters. */
module RenderSafety {
  import opened Strings
  import opened Passes
  import opened Markdown
  import ProtectFacts
  import EscapeFacts

  const Blank: string := "_blank"

  datatype Token = BlockToken(i: nat) | InlineToken(i: nat) | BlankToken

  /** The token that starts at `p`, if any, and the index after it. */
  function TokenAt(s: string, p: nat): (r: Option<(Token, nat)>)
    requires p <= |s|
    ensures r.Some? ==> p < r.value.1 <= |s|
  {
    match RefAt(s, p, BlockPrefix)
    case Some((e, i)) => Some((BlockToken(i), e))
    case None =>
      match RefAt(s, p, InlinePrefix)
      case Some((e, i)) => Some((InlineToken(i), e))
      case None => if HasAt(s, p, Blank) then Some((BlankToken, p + 6)) else None
  }

  predicate Allowed(t: Token, nb: nat, ni: nat) {
    match t
    case BlockToken(i) => i < nb
    case InlineToken(i) => i < ni
    case BlankToken => true
  }

  /** From `p` on, `s` reads as characters other than `_` and tokens allowed
      by the two counts. */
  predicate Lexes(s: string, p: nat, nb: nat, ni: nat)
    requires p <= |s|
    decreases |s| - p
  {
    if p == |s| then true
    else if s[p] != '_' then Lexes(s, p + 1, nb, ni)
    else match TokenAt(s, p)
      case None => false
      case Some((t, e)) => Allowed(t, nb, ni) && Lexes(s, e, nb, ni)
  }

  /** Every placeholder in `s` indexes a table of the given size. */
  predicate Clean(s: string, nb: nat, ni: nat) {
    Lexes(s, 0, nb, ni)
  }

  /** No token can straddle index `b`. */
  predicate Cut(s: string, b: nat)
    requires b <= |s|
  {
    b == 0 || b == |s| || !IsWordChar(s[b]) || !IsWordChar(s[b - 1])
  }

  // ---------------------------------------------------------------------
  // Tokens

  /** `u` holds a copy of `s[p..e]` at `q`. */
  predicate Copied(s: string, p: nat, e: nat, u: string, q: nat)
    requires p <= e <= |s| && q + (e - p) <= |u|
  {
    forall k :: p <= k < e ==> s[k] == u[k - p + q]
  }

  lemma CopiedSlice(s: string, p: nat, e: nat, u: string, q: nat, x: nat, y: nat)
    requires p <= e <= |s| && q + (e - p) <= |u| && Copied(s, p, e, u, q)
    requires p <= x <= y <= e
    ensures u[x - p + q..y - p + q] == s[x..y]
  {
    var w := u[x - p + q..y - p + q];
    forall k | 0 <= k < y - x ensures w[k] == s[x..y][k] {
      assert s[x + k] == u[x + k - p + q];
    }
  }

  /** A placeholder reads the same wherever its characters are copied. */
  lemma RefWindow(s: string, p: nat, u: string, q: nat, prefix: string, e: nat, i: nat)
    requires p <= |s| && RefAt(s, p, prefix) == Some((e, i))
    requires q + (e - p) <= |u| && Copied(s, p, e, u, q)
    ensures RefAt(u, q, prefix) == Some((q + (e - p), i))
  {
    var d := DigitRunEnd(s, p + |prefix|);
    var d' := q + (d - p);
    CopiedSlice(s, p, e, u, q, p, p + |prefix|);
    assert HasAt(u, q, prefix);
    forall k | q + |prefix| <= k < d' ensures IsDigit(u[k]) {
      assert s[k + p - q] == u[k];
    }
    assert u[d'] == s[d];
    ProtectFacts.DigitRunEndAt(u, q + |prefix|, d');
    CopiedSlice(s, p, e, u, q, d, e);
    CopiedSlice(s, p, e, u, q, p + |prefix|, d);
  }

  /** A token reads the same wherever its characters are copied. */
  lemma TokenWindow(s: string, p: nat, u: string, q: nat, t: Token, e: nat)
    requires p <= |s| && TokenAt(s, p) == Some((t, e))
    requires q + (e - p) <= |u| && Copied(s, p, e, u, q)
    ensures TokenAt(u, q) == Some((t, q + (e - p)))
  {
    match t
    case BlockToken(i) =>
      RefWindow(s, p, u, q, BlockPrefix, e, i);
    case InlineToken(i) =>
      InlineWindow(s, p, u, q, e, i);
    case BlankToken =>
      BlankWindow(s, p, u, q);
  }

  lemma InlineWindow(s: string, p: nat, u: string, q: nat, e: nat, i: nat)
    requires p <= |s| && RefAt(s, p, InlinePrefix) == Some((e, i))
    requires q + (e - p) <= |u| && Copied(s, p, e, u, q)
    ensures RefAt(u, q, BlockPrefix) == None
    ensures RefAt(u, q, InlinePrefix) == Some((q + (e - p), i))
  {
    RefWindow(s, p, u, q, InlinePrefix, e, i);
    assert u[q..q + 14] == InlinePrefix;
    assert u[q + 3] == 'I';
  }

  lemma BlankWindow(s: string, p: nat, u: string, q: nat)
    requires p + 6 <= |s| && HasAt(s, p, Blank)
    requires q + 6 <= |u| && Copied(s, p, p + 6, u, q)
    ensures RefAt(u, q, BlockPrefix) == None && RefAt(u, q, InlinePrefix) == None
    ensures HasAt(u, q, Blank)
  {
    CopiedSlice(s, p, p + 6, u, q, p, p + 6);
    assert u[q..q + 6] == Blank;
    assert u[q + 1] == u[q..q + 6][1] == 'b';
    Mismatch(u, q, BlockPrefix, 1);
    Mismatch(u, q, InlinePrefix, 1);
  }

  /** A word does not occur where one of its characters is missing. */
  lemma Mismatch(u: string, q: nat, w: string, j: nat)
    requires j < |w| && q + j < |u| && u[q + j] != w[j]
    ensures !HasAt(u, q, w)
  {
    assert q + |w| <= |u| ==> u[q..q + |w|][j] == u[q + j];
  }

  /** Tokens are made of word characters. */
  lemma TokenWordChars(s: string, p: nat, t: Token, e: nat)
    requires p <= |s| && TokenAt(s, p) == Some((t, e))
    ensures forall k :: p <= k < e ==> IsWordChar(s[k])
  {
    match t
    case BlockToken(i) =>
      RefWords(s, p, BlockPrefix, e, i);
    case InlineToken(i) =>
      RefWords(s, p, InlinePrefix, e, i);
    case BlankToken =>
      forall k | p <= k < e ensures IsWordChar(s[k]) {
        assert s[p..p + 6][k - p] == Blank[k - p];
      }
  }

  lemma RefWords(s: string, p: nat, prefix: string, e: nat, i: nat)
    requires p <= |s| && RefAt(s, p, prefix) == Some((e, i))
    requires prefix == BlockPrefix || prefix == InlinePrefix
    ensures forall k :: p <= k < e ==> IsWordChar(s[k])
  {
    var d := DigitRunEnd(s, p + |prefix|);
    forall k | p <= k < e ensures IsWordChar(s[k]) {
      if k < p + |prefix| {
        assert s[p..p + |prefix|][k - p] == prefix[k - p];
      } else if k >= d {
        assert s[d..d + 3][k - d] == MarkerEnd[k - d];
      }
    }
  }

  // ---------------------------------------------------------------------
  // The reading under slicing and concatenation

  /** One reading step over a character other than `_`. */
  lemma CharStep(u: string, q: nat, nb: nat, ni: nat)
    requires q < |u| && u[q] != '_' && Lexes(u, q + 1, nb, ni)
    ensures Lexes(u, q, nb, ni)
  {
  }

  /** One reading step over an allowed token. */
  lemma TokenStep(u: string, q: nat, t: Token, e: nat, nb: nat, ni: nat)
    requires q < |u| && u[q] == '_' && TokenAt(u, q) == Some((t, e))
    requires Allowed(t, nb, ni) && Lexes(u, e, nb, ni)
    ensures Lexes(u, q, nb, ni)
  {
  }

  /** A token copied into `u` can be read there too. */
  lemma WindowStep(s: string, p: nat, t: Token, e: nat, u: string, q: nat, e': nat, nb: nat, ni: nat)
    requires p < |s| && s[p] == '_' && TokenAt(s, p) == Some((t, e))
    requires e' == q + (e - p) && e' <= |u| && Copied(s, p, e, u, q)
    requires Allowed(t, nb, ni) && Lexes(u, e', nb, ni)
    ensures Lexes(u, q, nb, ni)
  {
    TokenWindow(s, p, u, q, t, e);
    assert u[q] == s[p];
    TokenStep(u, q, t, e', nb, ni);
  }

  lemma {:induction false} NoUnderscoreLexes(s: string, p: nat, nb: nat, ni: nat)
    requires p <= |s| && '_' !in s
    ensures Lexes(s, p, nb, ni)
    decreases |s| - p
  {
    if p < |s| {
      NoUnderscoreLexes(s, p + 1, nb, ni);
    }
  }

  /** Text without `_` is clean. */
  lemma NoUnderscoreClean(s: string, nb: nat, ni: nat)
    requires '_' !in s
    ensures Clean(s, nb, ni)
  {
    NoUnderscoreLexes(s, 0, nb, ni);
  }

  /** Larger tables accept more. */
  lemma {:induction false} LexesMonotone(s: string, p: nat, nb: nat, ni: nat, nb': nat, ni': nat)
    requires p <= |s| && Lexes(s, p, nb, ni) && nb <= nb' && ni <= ni'
    ensures Lexes(s, p, nb', ni')
    decreases |s| - p
  {
    if p < |s| {
      if s[p] != '_' {
        LexesMonotone(s, p + 1, nb, ni, nb', ni');
      } else {
        var (t, e) := TokenAt(s, p).value;
        LexesMonotone(s, e, nb, ni, nb', ni');
      }
    }
  }

  /** Characters other than `_` are read one at a time. */
  lemma {:induction false} LexesOver(s: string, p: nat, q: nat, nb: nat, ni: nat)
    requires p <= q <= |s| && Lexes(s, p, nb, ni)
    requires forall k :: p <= k < q ==> s[k] != '_'
    ensures Lexes(s, q, nb, ni)
    decreases q - p
  {
    if p < q {
      LexesOver(s, p + 1, q, nb, ni);
    }
  }

  /** A token never straddles a cut. */
  lemma TokenInsideCut(s: string, p: nat, t: Token, e: nat, b: nat)
    requires p < b <= |s| && TokenAt(s, p) == Some((t, e)) && Cut(s, b)
    ensures e <= b
  {
    TokenWordChars(s, p, t, e);
  }

  /** The reading reaches every cut and stops there when the text is cut. */
  lemma {:induction false} LexesCut(s: string, p: nat, b: nat, nb: nat, ni: nat)
    requires p <= b <= |s| && Lexes(s, p, nb, ni) && Cut(s, b)
    ensures Lexes(s, b, nb, ni) && Lexes(s[..b], p, nb, ni)
    decreases b - p
  {
    if p == b {
      assert |s[..b]| == p;
    } else if s[p] != '_' {
      LexesCut(s, p + 1, b, nb, ni);
      assert s[..b][p] == s[p];
      CharStep(s[..b], p, nb, ni);
    } else {
      var (t, e) := TokenAt(s, p).value;
      TokenInsideCut(s, p, t, e, b);
      LexesCut(s, e, b, nb, ni);
      forall k | p <= k < e ensures s[k] == s[..b][k - p + p] { }
      WindowStep(s, p, t, e, s[..b], p, e, nb, ni);
    }
  }

  /** A suffix holds a copy of every stretch it contains. */
  lemma SuffixCopied(s: string, a: nat, p: nat, e: nat)
    requires a <= p <= e <= |s|
    ensures Copied(s, p, e, s[a..], p - a)
  {
    forall k | p <= k < e ensures s[k] == s[a..][k - p + (p - a)] {
      assert k - p + (p - a) == k - a;
    }
  }

  lemma DropToken(s: string, a: nat, p: nat, t: Token, e: nat, nb: nat, ni: nat)
    requires a <= p < |s| && s[p] == '_' && TokenAt(s, p) == Some((t, e))
    requires Allowed(t, nb, ni) && Lexes(s[a..], e - a, nb, ni)
    ensures Lexes(s[a..], p - a, nb, ni)
  {
    SuffixCopied(s, a, p, e);
    WindowStep(s, p, t, e, s[a..], p - a, e - a, nb, ni);
  }

  lemma {:induction false} LexesDrop(s: string, a: nat, p: nat, nb: nat, ni: nat)
    requires a <= p <= |s| && Lexes(s, p, nb, ni)
    ensures Lexes(s[a..], p - a, nb, ni)
    decreases |s| - p
  {
    if p == |s| {
      assert |s[a..]| == p - a;
    } else if s[p] != '_' {
      LexesDrop(s, a, p + 1, nb, ni);
      CharStep(s[a..], p - a, nb, ni);
    } else {
      var (t, e) := TokenAt(s, p).value;
      LexesDrop(s, a, e, nb, ni);
      DropToken(s, a, p, t, e, nb, ni);
    }
  }

  /** The text between two cuts of a clean text is clean. */
  lemma CleanSlice(s: string, x: nat, y: nat, nb: nat, ni: nat)
    requires x <= y <= |s| && Clean(s, nb, ni) && Cut(s, x) && Cut(s, y)
    ensures Clean(s[x..y], nb, ni)
  {
    LexesCut(s, 0, x, nb, ni);
    LexesCut(s, x, y, nb, ni);
    LexesDrop(s[..y], x, x, nb, ni);
    assert s[..y][x..] == s[x..y];
  }

  /** The text after a cut of a clean text can be read from the cut. */
  lemma ReachCut(s: string, b: nat, nb: nat, ni: nat)
    requires b <= |s| && Clean(s, nb, ni) && Cut(s, b)
    ensures Lexes(s, b, nb, ni)
  {
    LexesCut(s, 0, b, nb, ni);
  }

  lemma {:induction false} LexesAfter(a: string, b: string, q: nat, nb: nat, ni: nat)
    requires q <= |b| && Lexes(b, q, nb, ni)
    ensures Lexes(a + b, |a| + q, nb, ni)
    decreases |b| - q
  {
    if q == |b| {
      assert |a + b| == |a| + q;
    } else if b[q] != '_' {
      LexesAfter(a, b, q + 1, nb, ni);
      CharStep(a + b, |a| + q, nb, ni);
    } else {
      var (t, e) := TokenAt(b, q).value;
      LexesAfter(a, b, e, nb, ni);
      forall k | q <= k < e ensures b[k] == (a + b)[k - q + (|a| + q)] { }
      WindowStep(b, q, t, e, a + b, |a| + q, |a| + e, nb, ni);
    }
  }

  lemma {:induction false} LexesBefore(a: string, b: string, p: nat, nb: nat, ni: nat)
    requires p <= |a| && Lexes(a, p, nb, ni) && Clean(b, nb, ni)
    ensures Lexes(a + b, p, nb, ni)
    decreases |a| - p
  {
    if p == |a| {
      LexesAfter(a, b, 0, nb, ni);
    } else if a[p] != '_' {
      LexesBefore(a, b, p + 1, nb, ni);
      assert (a + b)[p] == a[p];
      CharStep(a + b, p, nb, ni);
    } else {
      var (t, e) := TokenAt(a, p).value;
      LexesBefore(a, b, e, nb, ni);
      forall k | p <= k < e ensures a[k] == (a + b)[k - p + p] { }
      WindowStep(a, p, t, e, a + b, p, e, nb, ni);
    }
  }

  /** Clean texts concatenate to a clean text. */
  lemma CleanConcat(a: string, b: string, nb: nat, ni: nat)
    requires Clean(a, nb, ni) && Clean(b, nb, ni)
    ensures Clean(a + b, nb, ni)
  {
    LexesBefore(a, b, 0, nb, ni);
  }

  /** A clean text between two fixed texts without `_`. */
  lemma CleanWrapped(x: string, m: string, y: string, nb: nat, ni: nat)
    requires '_' !in x && '_' !in y && Clean(m, nb, ni)
    ensures Clean(x + m + y, nb, ni)
  {
    NoUnderscoreClean(x, nb, ni);
    NoUnderscoreClean(y, nb, ni);
    CleanConcat(x, m, nb, ni);
    CleanConcat(x + m, y, nb, ni);
  }

  /** A block placeholder with a number in range is clean. */
  lemma BlockMarkerClean(i: nat, nb: nat, ni: nat)
    requires i < nb
    ensures Clean(BlockMarker(i), nb, ni)
  {
    var m := BlockMarker(i);
    assert HasAt(m, 0, BlockPrefix + Decimal(i) + MarkerEnd);
    ProtectFacts.MarkerReadBack(m, 0, BlockPrefix, i);
    assert m[0] == '_';
  }

  /** An inline placeholder with a number in range is clean. */
  lemma InlineMarkerClean(i: nat, nb: nat, ni: nat)
    requires i < ni
    ensures Clean(InlineMarker(i), nb, ni)
  {
    var m := InlineMarker(i);
    assert HasAt(m, 0, InlinePrefix + Decimal(i) + MarkerEnd);
    ProtectFacts.MarkerReadBack(m, 0, InlinePrefix, i);
    assert m[0] == '_' && m[3] == 'I';
    assert !HasAt(m, 0, BlockPrefix);
  }

  lemma BlankClean(nb: nat, ni: nat)
    ensures Clean(Blank, nb, ni)
  {
    assert !HasAt(Blank, 0, BlockPrefix) && !HasAt(Blank, 0, InlinePrefix);
    assert HasAt(Blank, 0, Blank);
  }

  // ---------------------------------------------------------------------
  // Substitution passes

  /** What one match must satisfy for a pass to keep the text clean: it
      starts at a cut, the reading goes on after it, and its output is clean. */
  predicate HitKeeps(s: string, p: nat, h: Hit, nb: nat, ni: nat)
    requires p <= |s| && h.end <= |s|
  {
    Cut(s, p) && Lexes(s, h.end, nb, ni) && Clean(h.out, nb, ni)
  }

  /** The scan from `p`, after the characters `s[a..p]` it has copied. */
  lemma {:induction false} ScanClean(t: seq<Option<Hit>>, s: string, a: nat, p: nat, nb: nat, ni: nat)
    requires |t| == |s| && Advancing(t) && a <= p <= |s| && Lexes(s, a, nb, ni)
    requires forall i :: a <= i < |s| && t[i].Some? ==> HitKeeps(s, i, t[i].value, nb, ni)
    ensures Clean(s[a..p] + Scan(t, s, p), nb, ni)
    decreases |s| - p
  {
    if p == |s| {
      LexesDrop(s, a, a, nb, ni);
      assert s[a..p] + Scan(t, s, p) == s[a..];
    } else if t[p].Some? {
      var h := t[p].value;
      assert HitKeeps(s, p, h, nb, ni);
      ScanClean(t, s, h.end, h.end, nb, ni);
      ScanHitCase(t, s, a, p, nb, ni);
    } else {
      ScanClean(t, s, a, p + 1, nb, ni);
      assert s[a..p] + Scan(t, s, p) == s[a..p + 1] + Scan(t, s, p + 1);
    }
  }

  /** The scan at a match: the copied text, the match's output, the rest. */
  lemma ScanHitCase(t: seq<Option<Hit>>, s: string, a: nat, p: nat, nb: nat, ni: nat)
    requires |t| == |s| && Advancing(t) && a <= p < |s| && Lexes(s, a, nb, ni) && t[p].Some?
    requires HitKeeps(s, p, t[p].value, nb, ni)
    requires Clean(s[t[p].value.end..t[p].value.end] + Scan(t, s, t[p].value.end), nb, ni)
    ensures Clean(s[a..p] + Scan(t, s, p), nb, ni)
  {
    var h := t[p].value;
    LexesCut(s, a, p, nb, ni);
    LexesDrop(s[..p], a, a, nb, ni);
    assert s[..p][a..] == s[a..p];
    assert s[h.end..h.end] + Scan(t, s, h.end) == Scan(t, s, h.end);
    CleanConcat(h.out, Scan(t, s, h.end), nb, ni);
    assert Scan(t, s, p) == h.out + Scan(t, s, h.end);
    CleanConcat(s[a..p], h.out + Scan(t, s, h.end), nb, ni);
  }

  /** A pass whose every match keeps the text clean keeps it clean. */
  lemma ReplaceClean(rule: Rule, s: string, nb: nat, ni: nat)
    requires Clean(s, nb, ni)
    requires forall i :: 0 <= i < |s| && MatchAt(rule, s, i).Some? ==> HitKeeps(s, i, MatchAt(rule, s, i).value, nb, ni)
    ensures Clean(ReplaceAll(rule, s), nb, ni)
  {
    var t := MatchTable(rule, s);
    ScanClean(t, s, 0, 0, nb, ni);
    assert s[0..0] + Scan(t, s, 0) == Scan(t, s, 0);
  }

  /** The line start of a multi-line expression is a cut. */
  lemma LineStartCut(s: string, p: nat)
    requires p <= |s| && AtLineStart(s, p)
    ensures Cut(s, p)
  {
  }

  lemma WrappedSlice(s: string, x: nat, y: nat, pre: string, post: string, nb: nat, ni: nat)
    requires x <= y <= |s| && Clean(s, nb, ni) && Cut(s, x) && Cut(s, y)
    requires '_' !in pre && '_' !in post
    ensures Clean(pre + s[x..y] + post, nb, ni)
  {
    CleanSlice(s, x, y, nb, ni);
    CleanWrapped(pre, s[x..y], post, nb, ni);
  }

  lemma HeadingKeeps(k: Level, s: string, p: nat, nb: nat, ni: nat)
    requires p < |s| && Clean(s, nb, ni) && MatchHeading(k, s, p).Some?
    ensures HitKeeps(s, p, MatchHeading(k, s, p).value, nb, ni)
  {
    var x := p + k + 1;
    assert s[p..x][k] == (Hashes(k) + " ")[k];
    var e := LineEnd(s, x);
    var tag := HeadingTag(k);
    assert '_' !in "<" + tag + ">" && '_' !in "</" + tag + ">";
    WrappedSlice(s, x, e, "<" + tag + ">", "</" + tag + ">", nb, ni);
    assert HeadingHtml(k, s[x..e]) == ("<" + tag + ">") + s[x..e] + ("</" + tag + ">");
    ReachCut(s, e, nb, ni);
  }

  lemma HorizontalRuleKeeps(s: string, p: nat, nb: nat, ni: nat)
    requires p < |s| && Clean(s, nb, ni) && MatchHorizontalRule(s, p).Some?
    ensures HitKeeps(s, p, MatchHorizontalRule(s, p).value, nb, ni)
  {
    assert s[p..p + 3][2] == '-';
    ReachCut(s, p + 3, nb, ni);
    NoUnderscoreClean("<hr>", nb, ni);
  }

  lemma BulletKeeps(m: char, s: string, p: nat, nb: nat, ni: nat)
    requires p < |s| && Clean(s, nb, ni) && MatchBullet(m, s, p).Some?
    ensures HitKeeps(s, p, MatchBullet(m, s, p).value, nb, ni)
  {
    var q := SpaceRunEnd(s, p);
    var e := LineEnd(s, q + 2);
    WrappedSlice(s, q + 2, e, "<li>", "</li>", nb, ni);
    ReachCut(s, e, nb, ni);
  }

  lemma NumberedKeeps(s: string, p: nat, nb: nat, ni: nat)
    requires p < |s| && Clean(s, nb, ni) && MatchNumbered(s, p).Some?
    ensures HitKeeps(s, p, MatchNumbered(s, p).value, nb, ni)
  {
    var q := SpaceRunEnd(s, p);
    var d := DigitRunEnd(s, q);
    var e := LineEnd(s, d + 2);
    WrappedSlice(s, d + 2, e, "<li>", "</li>", nb, ni);
    ReachCut(s, e, nb, ni);
  }

  lemma StrongKeeps(s: string, p: nat, nb: nat, ni: nat)
    requires p < |s| && Clean(s, nb, ni) && MatchStrong(s, p).Some?
    ensures HitKeeps(s, p, MatchStrong(s, p).value, nb, ni)
  {
    var q := RunWithout(s, p + 2, '*');
    assert s[p..p + 2][0] == '*' && s[p..p + 2][1] == '*';
    assert s[q..q + 2][1] == '*';
    WrappedSlice(s, p + 2, q, "<strong>", "</strong>", nb, ni);
    ReachCut(s, q + 2, nb, ni);
  }

  lemma EmphasisKeeps(s: string, p: nat, nb: nat, ni: nat)
    requires p < |s| && Clean(s, nb, ni) && MatchEmphasis(s, p).Some?
    ensures HitKeeps(s, p, MatchEmphasis(s, p).value, nb, ni)
  {
    var q := RunWithout(s, p + 1, '*');
    WrappedSlice(s, p + 1, q, "<em>", "</em>", nb, ni);
    ReachCut(s, q + 1, nb, ni);
  }

  const AnchorOpen: string := "<a href=\""
  const AnchorTarget: string := "\" target=\""
  const AnchorRel: string := "\" rel=\"noopener noreferrer\">"

  /** The anchor's text, cut into its fixed pieces and its two holes. */
  lemma AnchorParts(text: string, url: string)
    ensures LinkHtml(text, url) == AnchorOpen + url + (AnchorTarget + Blank + AnchorRel) + text + "</a>"
  {
  }

  /** An anchor around clean text and a clean address is clean. */
  lemma AnchorClean(text: string, url: string, nb: nat, ni: nat)
    requires Clean(text, nb, ni) && Clean(url, nb, ni)
    ensures Clean(LinkHtml(text, url), nb, ni)
  {
    AnchorParts(text, url);
    AnchorPiecesClean(text, url, AnchorTarget + Blank + AnchorRel, nb, ni);
  }

  lemma AnchorPiecesClean(text: string, url: string, mid: string, nb: nat, ni: nat)
    requires Clean(text, nb, ni) && Clean(url, nb, ni) && mid == AnchorTarget + Blank + AnchorRel
    ensures Clean(AnchorOpen + url + mid + text + "</a>", nb, ni)
  {
    BlankClean(nb, ni);
    CleanWrapped(AnchorTarget, Blank, AnchorRel, nb, ni);
    NoUnderscoreClean(AnchorOpen, nb, ni);
    CleanConcat(AnchorOpen, url, nb, ni);
    CleanConcat(AnchorOpen + url, mid, nb, ni);
    CleanConcat(AnchorOpen + url + mid, text, nb, ni);
    NoUnderscoreClean("</a>", nb, ni);
    CleanConcat(AnchorOpen + url + mid + text, "</a>", nb, ni);
  }

  lemma LinkKeeps(s: string, p: nat, nb: nat, ni: nat)
    requires p < |s| && Clean(s, nb, ni) && MatchLink(s, p).Some?
    ensures HitKeeps(s, p, MatchLink(s, p).value, nb, ni)
  {
    var a := RunWithout(s, p + 1, ']');
    var b := RunWithout(s, a + 2, ')');
    assert s[a..a + 2] == "](";
    assert s[a + 1] == '(';
    CleanSlice(s, a + 2, b, nb, ni);
    CleanSlice(s, p + 1, a, nb, ni);
    AnchorClean(s[p + 1..a], s[a + 2..b], nb, ni);
    ReachCut(s, b + 1, nb, ni);
  }

  lemma QuoteKeeps(s: string, p: nat, nb: nat, ni: nat)
    requires p < |s| && Clean(s, nb, ni) && MatchQuote(s, p).Some?
    ensures HitKeeps(s, p, MatchQuote(s, p).value, nb, ni)
  {
    assert s[p..p + 2][1] == ' ';
    var e := LineEnd(s, p + 2);
    WrappedSlice(s, p + 2, e, "<blockquote>", "</blockquote>", nb, ni);
    ReachCut(s, e, nb, ni);
  }

  /** A fixed replacement is safe when the text it looks for starts with a
      non-word character and neither text holds `_`. */
  predicate SafeRule(r: Rule) {
    r.Literal? ==> |r.from| > 0 && !IsWordChar(r.from[0]) && '_' !in r.from && '_' !in r.to
  }

  lemma LiteralKeeps(from: string, to: string, s: string, p: nat, nb: nat, ni: nat)
    requires SafeRule(Literal(from, to))
    requires p < |s| && Clean(s, nb, ni) && MatchLiteral(from, to, s, p).Some?
    ensures HitKeeps(s, p, MatchLiteral(from, to, s, p).value, nb, ni)
  {
    assert s[p..p + |from|][0] == from[0];
    ReachCut(s, p, nb, ni);
    forall k | p <= k < p + |from| ensures s[k] != '_' {
      assert s[p..p + |from|][k - p] == from[k - p];
    }
    LexesOver(s, p, p + |from|, nb, ni);
    NoUnderscoreClean(to, nb, ni);
  }

  lemma UnwrapOpenKeeps(s: string, p: nat, nb: nat, ni: nat)
    requires p < |s| && Clean(s, nb, ni) && MatchUnwrapOpen(s, p).Some?
    ensures HitKeeps(s, p, MatchUnwrapOpen(s, p).value, nb, ni)
  {
    assert s[p..p + 5] == "<p><h";
    assert s[p] == '<' && s[p + 3] == '<';
    CleanSlice(s, p + 3, p + 7, nb, ni);
    ReachCut(s, p + 7, nb, ni);
  }

  lemma UnwrapCloseKeeps(s: string, p: nat, nb: nat, ni: nat)
    requires p < |s| && Clean(s, nb, ni) && MatchUnwrapClose(s, p).Some?
    ensures HitKeeps(s, p, MatchUnwrapClose(s, p).value, nb, ni)
  {
    assert s[p..p + 3][0] == '<';
    assert s[p + 4..p + 9][0] == '>' && s[p + 4..p + 9][4] == '>';
    CleanSlice(s, p, p + 5, nb, ni);
    ReachCut(s, p + 9, nb, ni);
  }

  lemma RuleHitKeeps(r: Rule, s: string, p: nat, nb: nat, ni: nat)
    requires SafeRule(r) && p < |s| && Clean(s, nb, ni) && MatchAt(r, s, p).Some?
    ensures HitKeeps(s, p, MatchAt(r, s, p).value, nb, ni)
  {
    match r
    case Heading(k) => HeadingKeeps(k, s, p, nb, ni);
    case HorizontalRule => HorizontalRuleKeeps(s, p, nb, ni);
    case Bullet(m) => BulletKeeps(m, s, p, nb, ni);
    case Numbered => NumberedKeeps(s, p, nb, ni);
    case Strong => StrongKeeps(s, p, nb, ni);
    case Emphasis => EmphasisKeeps(s, p, nb, ni);
    case Link => LinkKeeps(s, p, nb, ni);
    case Quote => QuoteKeeps(s, p, nb, ni);
    case Literal(from, to) => LiteralKeeps(from, to, s, p, nb, ni);
    case UnwrapHeadingOpen => UnwrapOpenKeeps(s, p, nb, ni);
    case UnwrapHeadingClose => UnwrapCloseKeeps(s, p, nb, ni);
  }

  /** A safe pass keeps the text clean. */
  lemma RuleKeepsClean(r: Rule, s: string, nb: nat, ni: nat)
    requires SafeRule(r) && Clean(s, nb, ni)
    ensures Clean(ReplaceAll(r, s), nb, ni)
  {
    forall i | 0 <= i < |s| && MatchAt(r, s, i).Some?
      ensures HitKeeps(s, i, MatchAt(r, s, i).value, nb, ni)
    {
      RuleHitKeeps(r, s, i, nb, ni);
    }
    ReplaceClean(r, s, nb, ni);
  }

  /** A chain of safe passes keeps the text clean. */
  lemma {:induction false} ApplyAllClean(rules: seq<Rule>, s: string, nb: nat, ni: nat)
    requires forall k :: 0 <= k < |rules| ==> SafeRule(rules[k])
    requires Clean(s, nb, ni)
    ensures Clean(ApplyAll(rules, s), nb, ni)
    decreases |rules|
  {
    if rules != [] {
      RuleKeepsClean(rules[0], s, nb, ni);
      ApplyAllClean(rules[1..], ReplaceAll(rules[0], s), nb, ni);
    }
  }

  lemma BlockRulesSafe()
    ensures forall k :: 0 <= k < |BlockRules| ==> SafeRule(BlockRules[k])
  {
  }

  lemma CleanupRulesSafe()
    ensures forall k :: 0 <= k < |CleanupRules| ==> SafeRule(CleanupRules[k])
  {
    CleanupRulesSafeHead();
    CleanupRulesSafeMiddle();
    CleanupRulesSafeTail();
  }

  lemma CleanupRulesSafeHead()
    ensures forall k :: 0 <= k < 4 ==> SafeRule(CleanupRules[k])
  {
    assert SafeRule(CleanupRules[2]) && SafeRule(CleanupRules[3]);
  }

  lemma CleanupRulesSafeMiddle()
    ensures forall k :: 4 <= k < 8 ==> SafeRule(CleanupRules[k])
  {
    assert SafeRule(CleanupRules[4]) && SafeRule(CleanupRules[5]);
    assert SafeRule(CleanupRules[6]) && SafeRule(CleanupRules[7]);
  }

  lemma CleanupRulesSafeTail()
    ensures forall k :: 8 <= k < |CleanupRules| ==> SafeRule(CleanupRules[k])
  {
    assert SafeRule(CleanupRules[8]) && SafeRule(CleanupRules[9]);
    assert SafeRule(CleanupRules[10]) && SafeRule(CleanupRules[11]);
  }

  // ---------------------------------------------------------------------
  // Tables

  predicate AllClean(parts: seq<string>, nb: nat, ni: nat) {
    forall x :: x in parts ==> Clean(x, nb, ni)
  }

  /** Splitting a clean text at a non-word character gives clean pieces. */
  lemma {:induction false} SplitClean(s: string, c: char, nb: nat, ni: nat)
    requires Clean(s, nb, ni) && !IsWordChar(c)
    ensures AllClean(Split(s, c), nb, ni)
    decreases |s|
  {
    match IndexOf(s, c)
    case None =>
    case Some(i) =>
      LexesCut(s, 0, i, nb, ni);
      assert Lexes(s, i + 1, nb, ni);
      LexesDrop(s, i + 1, i + 1, nb, ni);
      SplitClean(s[i + 1..], c, nb, ni);
  }

  /** Trimming a clean text leaves it clean. */
  lemma TrimClean(x: string, nb: nat, ni: nat)
    requires Clean(x, nb, ni)
    ensures Clean(Trim(x), nb, ni)
  {
    var lead := LeadingSpaces(x);
    var r := Trim(x);
    CleanSlice(x, lead, lead + |r|, nb, ni);
    assert r == x[lead..lead + |r|];
  }

  lemma CellsClean(line: string, nb: nat, ni: nat)
    requires Clean(line, nb, ni)
    ensures AllClean(Cells(line), nb, ni)
  {
    var pieces := Split(line, '|');
    SplitClean(line, '|', nb, ni);
    var trimmed := TrimEach(pieces);
    forall x | x in trimmed ensures Clean(x, nb, ni) {
      var k :| 0 <= k < |trimmed| && trimmed[k] == x;
      TrimClean(pieces[k], nb, ni);
    }
  }

  lemma {:induction false} HeaderCellsClean(cells: seq<string>, nb: nat, ni: nat)
    requires AllClean(cells, nb, ni)
    ensures Clean(HeaderCells(cells), nb, ni)
    decreases |cells|
  {
    if cells != [] {
      HeaderCellsClean(cells[1..], nb, ni);
      CleanWrapped("<th>", cells[0], "</th>\n", nb, ni);
      CleanConcat("<th>" + cells[0] + "</th>\n", HeaderCells(cells[1..]), nb, ni);
    }
  }

  lemma {:induction false} DataCellsClean(cells: seq<string>, nb: nat, ni: nat)
    requires AllClean(cells, nb, ni)
    ensures Clean(DataCells(cells), nb, ni)
    decreases |cells|
  {
    if cells != [] {
      DataCellsClean(cells[1..], nb, ni);
      CleanWrapped("<td>", cells[0], "</td>\n", nb, ni);
      CleanConcat("<td>" + cells[0] + "</td>\n", DataCells(cells[1..]), nb, ni);
    }
  }

  lemma {:induction false} RowsHtmlClean(rows: seq<seq<string>>, nb: nat, ni: nat)
    requires forall row :: row in rows ==> AllClean(row, nb, ni)
    ensures Clean(RowsHtml(rows), nb, ni)
    decreases |rows|
  {
    if rows != [] {
      RowsHtmlClean(rows[1..], nb, ni);
      DataCellsClean(rows[0], nb, ni);
      CleanWrapped("<tr>\n", DataCells(rows[0]), "</tr>\n", nb, ni);
      CleanConcat("<tr>\n" + DataCells(rows[0]) + "</tr>\n", RowsHtml(rows[1..]), nb, ni);
    }
  }

  lemma {:induction false} BodyRowsClean(lines: seq<string>, nb: nat, ni: nat)
    requires AllClean(lines, nb, ni)
    ensures forall row :: row in BodyRows(lines) ==> AllClean(row, nb, ni)
    decreases |lines|
  {
    if lines != [] {
      BodyRowsClean(lines[1..], nb, ni);
      CellsClean(lines[0], nb, ni);
    }
  }

  const TableOpen: string := "<div class=\"table-wrapper\">" + "<table>\n<thead>\n<tr>\n"
  const TableMiddle: string := "</tr>\n</thead>\n<tbody>\n"
  const TableClose: string := "</tbody>\n</table>"
  const TableEnd: string := "</div>"

  /** The table's text, cut into its fixed pieces and its two holes. */
  lemma TableParts(t: TableBlock)
    ensures TableHtml(t) == TableOpen + HeaderCells(t.header) + TableMiddle + RowsHtml(t.rows) + TableClose + TableEnd
  {
  }

  lemma TableFixedNoUnderscore()
    ensures '_' !in TableOpen && '_' !in TableMiddle && '_' !in TableClose && '_' !in TableEnd
  {
  }

  lemma TableHtmlClean(t: TableBlock, nb: nat, ni: nat)
    requires AllClean(t.header, nb, ni)
    requires forall row :: row in t.rows ==> AllClean(row, nb, ni)
    ensures Clean(TableHtml(t), nb, ni)
  {
    HeaderCellsClean(t.header, nb, ni);
    RowsHtmlClean(t.rows, nb, ni);
    TableParts(t);
    TableFixedNoUnderscore();
    TablePiecesClean(HeaderCells(t.header), RowsHtml(t.rows), nb, ni);
  }

  lemma TablePiecesClean(head: string, body: string, nb: nat, ni: nat)
    requires Clean(head, nb, ni) && Clean(body, nb, ni)
    requires '_' !in TableOpen && '_' !in TableMiddle && '_' !in TableClose && '_' !in TableEnd
    ensures Clean(TableOpen + head + TableMiddle + body + TableClose + TableEnd, nb, ni)
  {
    CleanWrapped(TableOpen, head, TableMiddle, nb, ni);
    CleanConcat(TableOpen + head + TableMiddle, body, nb, ni);
    NoUnderscoreClean(TableClose, nb, ni);
    CleanConcat(TableOpen + head + TableMiddle + body, TableClose, nb, ni);
    NoUnderscoreClean(TableEnd, nb, ni);
    CleanConcat(TableOpen + head + TableMiddle + body + TableClose, TableEnd, nb, ni);
  }

  lemma {:induction false} ConvertTablesFromClean(lines: seq<string>, i: nat, nb: nat, ni: nat)
    requires i <= |lines| && AllClean(lines, nb, ni)
    ensures AllClean(ConvertTablesFrom(lines, i), nb, ni)
    decreases |lines| - i
  {
    if i < |lines| {
      if StartsTable(lines, i) {
        var j := PipeRunEnd(lines, i);
        ConvertTablesFromClean(lines, j, nb, ni);
        TableCaseClean(lines, i, j, nb, ni);
        AllCleanCons(TableHtml(ParseTable(lines[i..j])), ConvertTablesFrom(lines, j), nb, ni);
      } else {
        ConvertTablesFromClean(lines, i + 1, nb, ni);
        assert lines[i] in lines;
        AllCleanCons(lines[i], ConvertTablesFrom(lines, i + 1), nb, ni);
      }
    }
  }

  lemma AllCleanCons(x: string, xs: seq<string>, nb: nat, ni: nat)
    requires Clean(x, nb, ni) && AllClean(xs, nb, ni)
    ensures AllClean([x] + xs, nb, ni)
  {
  }

  /** A run of clean lines converts to a clean table. */
  lemma TableCaseClean(lines: seq<string>, i: nat, j: nat, nb: nat, ni: nat)
    requires i + 2 <= j <= |lines| && AllClean(lines, nb, ni)
    ensures Clean(TableHtml(ParseTable(lines[i..j])), nb, ni)
  {
    var block := lines[i..j];
    assert block[0] in lines;
    CellsClean(block[0], nb, ni);
    assert forall x :: x in block[2..] ==> x in lines;
    BodyRowsClean(block[2..], nb, ni);
    TableHtmlClean(ParseTable(block), nb, ni);
  }

  lemma {:induction false} JoinClean(parts: seq<string>, sep: string, nb: nat, ni: nat)
    requires AllClean(parts, nb, ni) && '_' !in sep
    ensures Clean(Join(parts, sep), nb, ni)
    decreases |parts|
  {
    if |parts| == 0 {
    } else if |parts| == 1 {
      assert parts[0] in parts;
    } else {
      assert parts[0] in parts;
      assert forall x :: x in parts[1..] ==> x in parts;
      JoinClean(parts[1..], sep, nb, ni);
      CleanWrapped([], parts[0], sep, nb, ni);
      assert [] + parts[0] + sep == parts[0] + sep;
      CleanConcat(parts[0] + sep, Join(parts[1..], sep), nb, ni);
    }
  }

  /** Stage 3 keeps the text clean. */
  lemma TablesClean(s: string, nb: nat, ni: nat)
    requires Clean(s, nb, ni)
    ensures Clean(ConvertTables(s), nb, ni)
  {
    SplitClean(s, '\n', nb, ni);
    ConvertTablesFromClean(Split(s, '\n'), 0, nb, ni);
    JoinClean(ConvertTablesFrom(Split(s, '\n'), 0), "\n", nb, ni);
  }

  // ---------------------------------------------------------------------
  // Stages 1 and 2

  predicate NoUnderscoreBlocks(blocks: seq<CodeBlock>) {
    forall b :: b in blocks ==> '_' !in b.lang && '_' !in b.code
  }

  lemma SliceKeepsAbsent(s: string, x: nat, y: nat, c: char)
    requires x <= y <= |s| && c !in s
    ensures c !in s[x..y]
  {
    forall k | 0 <= k < y - x ensures s[x..y][k] != c {
      assert s[x..y][k] == s[x + k];
    }
  }

  lemma FenceNoUnderscore(s: string, p: nat)
    requires p <= |s| && '_' !in s && FenceAt(s, p).Some?
    ensures '_' !in FenceAt(s, p).value.lang && '_' !in Trim(FenceAt(s, p).value.body)
  {
    var w := WordRunEnd(s, p + 3);
    var q := FindFence(s, w + 1).value;
    SliceKeepsAbsent(s, p + 3, w, '_');
    SliceKeepsAbsent(s, w + 1, q, '_');
    TrimKeepsAbsent(s[w + 1..q], '_');
  }

  /** A placeholder with a number in range, then a clean text. */
  lemma MarkerThen(marker: string, t: string, nb: nat, ni: nat)
    requires Clean(marker, nb, ni) && Clean(t, nb, ni)
    ensures Clean(marker + t, nb, ni)
  {
    CleanConcat(marker, t, nb, ni);
  }

  /** A character other than `_`, then a clean text. */
  lemma CharThen(c: char, t: string, nb: nat, ni: nat)
    requires c != '_' && Clean(t, nb, ni)
    ensures Clean([c] + t, nb, ni)
  {
    NoUnderscoreClean([c], nb, ni);
    CleanConcat([c], t, nb, ni);
  }

  lemma FenceCaseClean(s: string, p: nat, n: nat, f: Fence)
    requires p < |s| && '_' !in s && FenceAt(s, p) == Some(f) && f.end <= |s|
    requires Clean(ProtectFencesFrom(s, f.end, n + 1).0, n + 1 + |ProtectFencesFrom(s, f.end, n + 1).1|, 0)
    requires NoUnderscoreBlocks(ProtectFencesFrom(s, f.end, n + 1).1)
    ensures Clean(ProtectFencesFrom(s, p, n).0, n + |ProtectFencesFrom(s, p, n).1|, 0)
    ensures NoUnderscoreBlocks(ProtectFencesFrom(s, p, n).1)
  {
    ProtectFacts.FenceStep(s, p, n, f.lang, f.body, f.end);
    FenceNoUnderscore(s, p);
    FenceCaseAssembled(ProtectFencesFrom(s, p, n), ProtectFencesFrom(s, f.end, n + 1), CodeBlock(f.lang, Trim(f.body)), n);
  }

  /** Placeholder `n` and its block put in front of a clean remainder. */
  lemma FenceCaseAssembled(r: (string, seq<CodeBlock>), rest: (string, seq<CodeBlock>), block: CodeBlock, n: nat)
    requires r == (BlockMarker(n) + rest.0, [block] + rest.1)
    requires Clean(rest.0, n + 1 + |rest.1|, 0)
    requires '_' !in block.lang && '_' !in block.code && NoUnderscoreBlocks(rest.1)
    ensures Clean(r.0, n + |r.1|, 0) && NoUnderscoreBlocks(r.1)
  {
    BlockMarkerClean(n, n + 1 + |rest.1|, 0);
    MarkerThen(BlockMarker(n), rest.0, n + 1 + |rest.1|, 0);
    BlocksCons(block, rest.1);
  }

  lemma BlocksCons(block: CodeBlock, rest: seq<CodeBlock>)
    requires '_' !in block.lang && '_' !in block.code && NoUnderscoreBlocks(rest)
    ensures NoUnderscoreBlocks([block] + rest) && |[block] + rest| == 1 + |rest|
  {
  }

  lemma CopyCaseClean(s: string, p: nat, n: nat)
    requires p < |s| && '_' !in s && FenceAt(s, p).None?
    requires Clean(ProtectFencesFrom(s, p + 1, n).0, n + |ProtectFencesFrom(s, p + 1, n).1|, 0)
    requires NoUnderscoreBlocks(ProtectFencesFrom(s, p + 1, n).1)
    ensures Clean(ProtectFencesFrom(s, p, n).0, n + |ProtectFencesFrom(s, p, n).1|, 0)
    ensures NoUnderscoreBlocks(ProtectFencesFrom(s, p, n).1)
  {
    var rest := ProtectFencesFrom(s, p + 1, n);
    assert ProtectFencesFrom(s, p, n) == ([s[p]] + rest.0, rest.1);
    CharThen(s[p], rest.0, n + |rest.1|, 0);
  }

  /** Stage 1 on text without `_`: the placeholders it writes number the
      blocks it captures, and those blocks hold no `_`. */
  lemma {:induction false} FencesClean(s: string, p: nat, n: nat)
    requires p <= |s| && '_' !in s
    ensures Clean(ProtectFencesFrom(s, p, n).0, n + |ProtectFencesFrom(s, p, n).1|, 0)
    ensures NoUnderscoreBlocks(ProtectFencesFrom(s, p, n).1)
    decreases |s| - p
  {
    if p < |s| {
      if FenceAt(s, p).Some? {
        var f := FenceAt(s, p).value;
        FencesClean(s, f.end, n + 1);
        FenceCaseClean(s, p, n, f);
      } else {
        FencesClean(s, p + 1, n);
        CopyCaseClean(s, p, n);
      }
    }
  }

  /** The copied characters `s[a..p]` at a cut `p`, then a clean text. */
  lemma CopiedThen(s: string, a: nat, p: nat, t: string, nb: nat, ni: nat)
    requires a <= p <= |s| && Lexes(s, a, nb, 0) && Cut(s, p)
    requires Clean(t, nb, ni)
    ensures Clean(s[a..p] + t, nb, ni)
  {
    LexesCut(s, a, p, nb, 0);
    LexesDrop(s[..p], a, a, nb, 0);
    assert s[..p][a..] == s[a..p];
    LexesMonotone(s[a..p], 0, nb, 0, nb, ni);
    CleanConcat(s[a..p], t, nb, ni);
  }

  lemma SpanCaseClean(s: string, a: nat, p: nat, n: nat, nb: nat, e: nat, code: string)
    requires a <= p < |s| && Lexes(s, a, nb, 0) && InlineAt(s, p) == Some((e, code))
    requires Clean(ProtectInlineFrom(s, e, n + 1).0, nb, n + 1 + |ProtectInlineFrom(s, e, n + 1).1|)
    ensures Clean(s[a..p] + ProtectInlineFrom(s, p, n).0, nb, n + |ProtectInlineFrom(s, p, n).1|)
  {
    var rest := ProtectInlineFrom(s, e, n + 1);
    SpanStep(s, p, n, e, code);
    SpanOpens(s, p);
    SpanTail(s, a, p, n, nb, rest.0, n + 1 + |rest.1|);
  }

  lemma SpanOpens(s: string, p: nat)
    requires p < |s| && InlineAt(s, p).Some?
    ensures Cut(s, p)
  {
    assert s[p] == '`';
  }

  /** The copied text, then an inline placeholder, then a clean rest. */
  lemma SpanTail(s: string, a: nat, p: nat, n: nat, nb: nat, t: string, ni: nat)
    requires a <= p <= |s| && Lexes(s, a, nb, 0) && Cut(s, p)
    requires n < ni && Clean(t, nb, ni)
    ensures Clean(s[a..p] + (InlineMarker(n) + t), nb, ni)
  {
    InlineMarkerClean(n, nb, ni);
    MarkerThen(InlineMarker(n), t, nb, ni);
    CopiedThen(s, a, p, InlineMarker(n) + t, nb, ni);
  }

  /** Stage 2 at a span: its marker, then the rest of the stage. */
  lemma SpanStep(s: string, p: nat, n: nat, e: nat, code: string)
    requires p < |s| && InlineAt(s, p) == Some((e, code))
    ensures ProtectInlineFrom(s, p, n)
      == (InlineMarker(n) + ProtectInlineFrom(s, e, n + 1).0, [code] + ProtectInlineFrom(s, e, n + 1).1)
  {
  }

  /** Stage 2 from `p`, after the characters `s[a..p]` it has copied: the
      inline placeholders it writes number the spans it captures. */
  lemma {:induction false} InlineClean(s: string, a: nat, p: nat, n: nat, nb: nat)
    requires a <= p <= |s| && Lexes(s, a, nb, 0)
    ensures Clean(s[a..p] + ProtectInlineFrom(s, p, n).0, nb, n + |ProtectInlineFrom(s, p, n).1|)
    decreases |s| - p
  {
    if p == |s| {
      LexesDrop(s, a, a, nb, 0);
      LexesMonotone(s[a..], 0, nb, 0, nb, n);
      assert s[a..p] + [] == s[a..];
    } else if InlineAt(s, p).Some? {
      var (e, code) := InlineAt(s, p).value;
      assert s[e - 1] == '`';
      LexesCut(s, a, e, nb, 0);
      InlineClean(s, e, e, n + 1, nb);
      assert s[e..e] + ProtectInlineFrom(s, e, n + 1).0 == ProtectInlineFrom(s, e, n + 1).0;
      SpanCaseClean(s, a, p, n, nb, e, code);
    } else {
      InlineClean(s, a, p + 1, n, nb);
      CopyCaseInline(s, a, p, n, nb);
    }
  }

  /** Stage 2 at a character that opens no span copies it. */
  lemma CopyCaseInline(s: string, a: nat, p: nat, n: nat, nb: nat)
    requires a <= p < |s| && InlineAt(s, p).None?
    requires Clean(s[a..p + 1] + ProtectInlineFrom(s, p + 1, n).0, nb, n + |ProtectInlineFrom(s, p + 1, n).1|)
    ensures Clean(s[a..p] + ProtectInlineFrom(s, p, n).0, nb, n + |ProtectInlineFrom(s, p, n).1|)
  {
    var rest := ProtectInlineFrom(s, p + 1, n);
    assert ProtectInlineFrom(s, p, n) == ([s[p]] + rest.0, rest.1);
    assert s[a..p] + ([s[p]] + rest.0) == s[a..p + 1] + rest.0;
  }

  lemma ParagraphsClean(s: string, nb: nat, ni: nat)
    requires Clean(s, nb, ni)
    ensures Clean(Paragraphs(s), nb, ni)
  {
    CleanWrapped("<p>", s, "</p>", nb, ni);
    CleanupRulesSafe();
    ApplyAllClean(CleanupRules, "<p>" + s + "</p>", nb, ni);
  }

  /** On markdown without `_`, every placeholder in the prepared text indexes
      its table, and the captured blocks hold no `_`. */
  lemma PreparedClean(s: string)
    requires '_' !in s
    ensures Clean(Prepare(s).text, |Prepare(s).blocks|, |Prepare(s).codes|)
    ensures NoUnderscoreBlocks(Prepare(s).blocks)
  {
    var fenced := ProtectFences(s);
    FencesClean(s, 0, 0);
    var inlined := ProtectInline(fenced.0);
    var nb, ni := |fenced.1|, |inlined.1|;
    InlineClean(fenced.0, 0, 0, 0, nb);
    assert fenced.0[0..0] + inlined.0 == inlined.0;
    var tabled := ConvertTables(inlined.0);
    TablesClean(inlined.0, nb, ni);
    BlockRulesSafe();
    ApplyAllClean(BlockRules, tabled, nb, ni);
    ParagraphsClean(ApplyAll(BlockRules, tabled), nb, ni);
  }

  // ---------------------------------------------------------------------
  // Stage 8: resolution

  /** The first three characters of every token. */
  lemma TokenShape(s: string, p: nat, t: Token, e: nat)
    requires p <= |s| && TokenAt(s, p) == Some((t, e))
    ensures p + 2 < e && s[p] == '_'
    ensures s[p + 1] == '_' || s[p + 1] == 'b'
    ensures s[p + 1] == '_' ==> s[p + 2] == '_'
  {
    match t
    case BlockToken(i) =>
      RefShape(s, p, BlockPrefix, e, i);
      PrefixChars(s, p, BlockPrefix);
    case InlineToken(i) =>
      RefShape(s, p, InlinePrefix, e, i);
      PrefixChars(s, p, InlinePrefix);
    case BlankToken =>
      assert HasAt(s, p, Blank);
      PrefixChars(s, p, Blank);
  }

  lemma RefShape(s: string, p: nat, prefix: string, e: nat, i: nat)
    requires p <= |s| && RefAt(s, p, prefix) == Some((e, i))
    ensures p + |prefix| < e && HasAt(s, p, prefix)
  {
  }

  lemma PrefixChars(s: string, p: nat, w: string)
    requires p <= |s| && HasAt(s, p, w) && |w| >= 3
    ensures s[p] == w[0] && s[p + 1] == w[1] && s[p + 2] == w[2]
  {
    assert s[p..p + |w|] == w;
    assert s[p..p + |w|][1] == s[p + 1];
    assert s[p..p + |w|][2] == s[p + 2];
  }

  /** Where the reading meets `_`, a token starts. */
  lemma UnderscoreStartsToken(s: string, p: nat, nb: nat, ni: nat)
    requires p < |s| && s[p] == '_' && Lexes(s, p, nb, ni)
    ensures TokenAt(s, p).Some?
  {
  }

  /** No `___C` inside an inline placeholder: the only `C` of its prefix
      follows an `E`, and its number is digits. */
  lemma NoBlockOpenerInside(s: string, p: nat, e: nat, i: nat, k: nat)
    requires p <= |s| && RefAt(s, p, InlinePrefix) == Some((e, i))
    requires p <= k && k + 4 <= e
    ensures !(s[k + 2] == '_' && s[k + 3] == 'C')
  {
    var d := DigitRunEnd(s, p + 14);
    var j := k + 3;
    assert e == d + 3;
    assert s[p..p + 14] == InlinePrefix;
    assert s[d..d + 3] == MarkerEnd;
    if j < p + 14 {
      assert s[j] == s[p..p + 14][j - p] && s[j - 1] == s[p..p + 14][j - 1 - p];
      InlinePrefixNoOpener(j - p);
    } else if j < d {
      assert IsDigit(s[j]);
    } else {
      assert s[j] == s[d..d + 3][j - d];
    }
  }

  /** In the inline prefix a `C` never follows an underscore. */
  lemma InlinePrefixNoOpener(i: nat)
    requires 0 < i < |InlinePrefix|
    ensures !(InlinePrefix[i - 1] == '_' && InlinePrefix[i] == 'C')
  {
    assert InlinePrefix == ['_', '_', '_', 'I', 'N', 'L', 'I', 'N', 'E', 'C', 'O', 'D', 'E', '_'];
  }

  /** The first four characters of a block prefix. */
  lemma BlockOpener(s: string, k: nat)
    ensures HasAt(s, k, BlockPrefix) ==>
      s[k] == '_' && s[k + 1] == '_' && s[k + 2] == '_' && s[k + 3] == 'C'
  {
    if HasAt(s, k, BlockPrefix) {
      assert s[k..k + 13] == BlockPrefix;
    }
  }

  /** After a token the reading sees a character other than `_`, or `_`
      followed by `_` or `b`, and `__` is followed by a third `_`. */
  lemma LookAhead(s: string, e: nat, nb: nat, ni: nat)
    requires e < |s| && Lexes(s, e, nb, ni)
    ensures s[e] == '_' ==> e + 2 < |s| && s[e + 1] != 'C' && (s[e + 1] == '_' ==> s[e + 2] == '_')
  {
    if s[e] == '_' {
      UnderscoreStartsToken(s, e, nb, ni);
      var (t, f) := TokenAt(s, e).value;
      TokenShape(s, e, t, f);
    }
  }

  /** A block prefix in the closing `___` of a placeholder would be followed
      by `CODEBLOCK_`, after which the reading sees no digit. */
  lemma NoBlockRefAtClose(s: string, e: nat, nb: nat, ni: nat)
    requires 3 <= e <= |s| && Lexes(s, e, nb, ni)
    ensures RefAt(s, e - 3, BlockPrefix).None?
  {
    var k := e - 3;
    if HasAt(s, k, BlockPrefix) {
      assert s[k..k + 13] == BlockPrefix;
      assert BlockPrefix == ['_', '_', '_', 'C', 'O', 'D', 'E', 'B', 'L', 'O', 'C', 'K', '_'];
      forall j | e <= j < e + 9 ensures s[j] != '_' {
        assert s[j] == BlockPrefix[j - k];
      }
      LexesOver(s, e, e + 9, nb, ni);
      assert s[e + 9] == BlockPrefix[12];
      UnderscoreStartsToken(s, e + 9, nb, ni);
      var (t, f) := TokenAt(s, e + 9).value;
      TokenShape(s, e + 9, t, f);
      ProtectFacts.DigitRunEndAt(s, k + 13, k + 13);
    }
  }

  /** Nor can a block prefix start in the last two characters of the
      closing `___`. */
  lemma NoBlockOpenerLate(s: string, e: nat, k: nat, nb: nat, ni: nat)
    requires 3 <= e <= |s| && e - 2 <= k < e && Lexes(s, e, nb, ni)
    requires forall j :: e - 3 <= j < e ==> s[j] == '_'
    ensures !HasAt(s, k, BlockPrefix)
  {
    BlockOpener(s, k);
    if e < |s| {
      LookAhead(s, e, nb, ni);
    }
  }

  /** No block placeholder starts inside an inline placeholder that the
      reading passes over. */
  lemma NoBlockRefInInline(s: string, p: nat, e: nat, i: nat, nb: nat, ni: nat)
    requires p <= |s| && RefAt(s, p, InlinePrefix) == Some((e, i)) && Lexes(s, e, nb, ni)
    ensures forall k :: p <= k < e ==> RefAt(s, k, BlockPrefix).None?
  {
    var d := DigitRunEnd(s, p + 14);
    assert s[d..d + 3] == MarkerEnd;
    forall k | p <= k < e ensures RefAt(s, k, BlockPrefix).None? {
      if k + 4 <= e {
        NoBlockOpenerInside(s, p, e, i, k);
        BlockOpener(s, k);
      } else if k == e - 3 {
        NoBlockRefAtClose(s, e, nb, ni);
      } else {
        NoBlockOpenerLate(s, e, k, nb, ni);
      }
    }
  }

  lemma NoBlockRefInBlank(s: string, p: nat)
    requires p + 6 <= |s| && HasAt(s, p, Blank)
    ensures forall k :: p <= k < p + 6 ==> RefAt(s, k, BlockPrefix).None?
  {
    assert s[p..p + 6] == Blank;
    forall k | p <= k < p + 6 ensures RefAt(s, k, BlockPrefix).None? {
      BlockOpener(s, k);
      assert s[k] == Blank[k - p];
      assert k == p ==> s[k + 1] == 'b';
    }
  }

  /** Block resolution copies a stretch in which no block placeholder starts. */
  lemma {:induction false} ResolveBlocksSkip(s: string, p: nat, q: nat, blocks: seq<CodeBlock>)
    requires p <= q <= |s| && ResolveBlocksFrom(s, q, blocks).Some?
    requires forall k :: p <= k < q ==> RefAt(s, k, BlockPrefix).None?
    ensures ResolveBlocksFrom(s, p, blocks) == Some(s[p..q] + ResolveBlocksFrom(s, q, blocks).value)
    decreases q - p
  {
    if p < q {
      assert RefAt(s, p, BlockPrefix).None?;
      ResolveBlocksSkip(s, p + 1, q, blocks);
      ResolveBlocksCharStep(s, p, blocks);
      ConsSlice(s, p, q, ResolveBlocksFrom(s, q, blocks).value);
    } else {
      assert s[p..q] + ResolveBlocksFrom(s, q, blocks).value == ResolveBlocksFrom(s, q, blocks).value;
    }
  }

  /** Block resolution at a character that starts no block placeholder. */
  lemma ResolveBlocksCharStep(s: string, p: nat, blocks: seq<CodeBlock>)
    requires p < |s| && RefAt(s, p, BlockPrefix).None? && ResolveBlocksFrom(s, p + 1, blocks).Some?
    ensures ResolveBlocksFrom(s, p, blocks) == Some([s[p]] + ResolveBlocksFrom(s, p + 1, blocks).value)
  {
  }

  lemma ConsSlice(s: string, p: nat, q: nat, rest: string)
    requires p < q <= |s|
    ensures [s[p]] + (s[p + 1..q] + rest) == s[p..q] + rest
  {
    assert s[p..q] == [s[p]] + s[p + 1..q];
  }

  lemma EscapeRefNoUnderscore(s: string)
    requires '_' !in s
    ensures '_' !in EscapeFacts.EscapeRef(s)
    decreases |s|
  {
    if s != [] {
      assert s[0] != '_';
      EscapeRefNoUnderscore(s[1..]);
    }
  }

  lemma EscapeNoUnderscore(s: string)
    requires '_' !in s
    ensures '_' !in Escape(s)
  {
    EscapeFacts.EscapeIsRef(s);
    EscapeRefNoUnderscore(s);
  }

  lemma BlockHtmlNoUnderscore(b: CodeBlock)
    requires '_' !in b.lang && '_' !in b.code
    ensures '_' !in BlockHtml(b)
  {
    EscapeNoUnderscore(b.code);
    var cls := if b.lang != [] then "language-" + b.lang else "language-plaintext";
    assert '_' !in cls;
    var e := Escape(b.code);
    assert BlockHtml(b) == "<pre><code class=\"" + cls + "\">" + e + "</code></pre>";
  }

  /** The output of block resolution at a block placeholder. */
  lemma BlockCaseClean(s: string, p: nat, e: nat, i: nat, blocks: seq<CodeBlock>, ni: nat)
    requires p < |s| && RefAt(s, p, BlockPrefix) == Some((e, i)) && i < |blocks|
    requires NoUnderscoreBlocks(blocks)
    requires ResolveBlocksFrom(s, e, blocks).Some? && Clean(ResolveBlocksFrom(s, e, blocks).value, 0, ni)
    ensures ResolveBlocksFrom(s, p, blocks).Some? && Clean(ResolveBlocksFrom(s, p, blocks).value, 0, ni)
  {
    var rest := ResolveBlocksFrom(s, e, blocks).value;
    ProtectFacts.BlockStep(s, p, e, i, blocks);
    assert blocks[i] in blocks;
    BlockHtmlNoUnderscore(blocks[i]);
    NoUnderscoreClean(BlockHtml(blocks[i]), 0, ni);
    CleanConcat(BlockHtml(blocks[i]), rest, 0, ni);
  }

  /** The output of block resolution over a token it copies. */
  lemma CopiedTokenClean(s: string, p: nat, t: Token, e: nat, blocks: seq<CodeBlock>, ni: nat)
    requires p < |s| && s[p] == '_' && TokenAt(s, p) == Some((t, e)) && Allowed(t, 0, ni)
    requires forall k :: p <= k < e ==> RefAt(s, k, BlockPrefix).None?
    requires ResolveBlocksFrom(s, e, blocks).Some? && Clean(ResolveBlocksFrom(s, e, blocks).value, 0, ni)
    ensures ResolveBlocksFrom(s, p, blocks).Some? && Clean(ResolveBlocksFrom(s, p, blocks).value, 0, ni)
  {
    var rest := ResolveBlocksFrom(s, e, blocks).value;
    ResolveBlocksSkip(s, p, e, blocks);
    var w := s[p..e];
    forall k | p <= k < e ensures s[k] == w[k - p + 0] { }
    assert Lexes(w, e - p, 0, ni);
    WindowStep(s, p, t, e, w, 0, e - p, 0, ni);
    CleanConcat(w, rest, 0, ni);
  }

  lemma CharCaseBlocks(s: string, p: nat, blocks: seq<CodeBlock>, ni: nat)
    requires p < |s| && s[p] != '_'
    requires ResolveBlocksFrom(s, p + 1, blocks).Some? && Clean(ResolveBlocksFrom(s, p + 1, blocks).value, 0, ni)
    ensures ResolveBlocksFrom(s, p, blocks).Some? && Clean(ResolveBlocksFrom(s, p, blocks).value, 0, ni)
  {
    BlockOpener(s, p);
    CharThen(s[p], ResolveBlocksFrom(s, p + 1, blocks).value, 0, ni);
  }

  lemma TokenCaseBlocks(s: string, p: nat, t: Token, e: nat, blocks: seq<CodeBlock>, ni: nat)
    requires p < |s| && s[p] == '_' && TokenAt(s, p) == Some((t, e)) && Allowed(t, |blocks|, ni)
    requires Lexes(s, e, |blocks|, ni) && NoUnderscoreBlocks(blocks)
    requires ResolveBlocksFrom(s, e, blocks).Some? && Clean(ResolveBlocksFrom(s, e, blocks).value, 0, ni)
    ensures ResolveBlocksFrom(s, p, blocks).Some? && Clean(ResolveBlocksFrom(s, p, blocks).value, 0, ni)
  {
    match t
    case BlockToken(i) =>
      BlockCaseClean(s, p, e, i, blocks, ni);
    case InlineToken(i) =>
      NoBlockRefInInline(s, p, e, i, |blocks|, ni);
      CopiedTokenClean(s, p, t, e, blocks, ni);
    case BlankToken =>
      NoBlockRefInBlank(s, p);
      CopiedTokenClean(s, p, t, e, blocks, ni);
  }

  /** Block resolution of a clean text succeeds and leaves only inline
      placeholders, all in range. */
  lemma {:induction false} ResolveBlocksClean(s: string, p: nat, blocks: seq<CodeBlock>, ni: nat)
    requires p <= |s| && Lexes(s, p, |blocks|, ni) && NoUnderscoreBlocks(blocks)
    ensures ResolveBlocksFrom(s, p, blocks).Some?
    ensures Clean(ResolveBlocksFrom(s, p, blocks).value, 0, ni)
    decreases |s| - p
  {
    if p == |s| {
    } else if s[p] != '_' {
      ResolveBlocksClean(s, p + 1, blocks, ni);
      CharCaseBlocks(s, p, blocks, ni);
    } else {
      var (t, e) := TokenAt(s, p).value;
      ResolveBlocksClean(s, e, blocks, ni);
      TokenCaseBlocks(s, p, t, e, blocks, ni);
    }
  }

  /** Characters other than `_` can be read backwards too. */
  lemma {:induction false} LexesBack(s: string, p: nat, q: nat, nb: nat, ni: nat)
    requires p <= q <= |s| && Lexes(s, q, nb, ni)
    requires forall k :: p <= k < q ==> s[k] != '_'
    ensures Lexes(s, p, nb, ni)
    decreases q - p
  {
    if p < q {
      LexesBack(s, p + 1, q, nb, ni);
    }
  }

  lemma InlineOpener(s: string, k: nat)
    ensures HasAt(s, k, InlinePrefix) ==> s[k] == '_' && s[k + 1] == '_'
  {
    if HasAt(s, k, InlinePrefix) {
      assert s[k..k + 14] == InlinePrefix;
    }
  }

  lemma CharCaseInline(s: string, p: nat, codes: seq<string>)
    requires p < |s| && s[p] != '_' && ResolveInlineFrom(s, p + 1, codes).Some?
    ensures ResolveInlineFrom(s, p, codes).Some?
  {
    InlineOpener(s, p);
  }

  lemma InlineCaseInline(s: string, p: nat, e: nat, i: nat, codes: seq<string>)
    requires p < |s| && TokenAt(s, p) == Some((InlineToken(i), e)) && i < |codes|
    requires ResolveInlineFrom(s, e, codes).Some?
    ensures ResolveInlineFrom(s, p, codes).Some?
  {
    ProtectFacts.InlineStep(s, p, e, i, codes);
  }

  lemma BlankCaseInline(s: string, p: nat, codes: seq<string>)
    requires p < |s| && TokenAt(s, p) == Some((BlankToken, p + 6))
    requires Lexes(s, p + 6, 0, |codes|)
    ensures Lexes(s, p + 1, 0, |codes|)
    ensures ResolveInlineFrom(s, p + 1, codes).Some? ==> ResolveInlineFrom(s, p, codes).Some?
  {
    assert s[p..p + 6] == Blank;
    InlineOpener(s, p);
    forall k | p + 1 <= k < p + 6 ensures s[k] != '_' {
      assert s[k] == Blank[k - p];
    }
    LexesBack(s, p + 1, p + 6, 0, |codes|);
  }

  /** Inline resolution of a text whose only placeholders are inline ones
      in range succeeds. */
  lemma {:induction false} ResolveInlineSucceeds(s: string, p: nat, codes: seq<string>)
    requires p <= |s| && Lexes(s, p, 0, |codes|)
    ensures ResolveInlineFrom(s, p, codes).Some?
    decreases |s| - p
  {
    if p == |s| {
    } else if s[p] != '_' {
      ResolveInlineSucceeds(s, p + 1, codes);
      CharCaseInline(s, p, codes);
    } else {
      var (t, e) := TokenAt(s, p).value;
      if t.InlineToken? {
        ResolveInlineSucceeds(s, e, codes);
        InlineCaseInline(s, p, e, t.i, codes);
      } else {
        BlankCaseInline(s, p, codes);
        ResolveInlineSucceeds(s, p + 1, codes);
      }
    }
  }

  /** Rendering markdown that contains no `_` never fails: every placeholder
      the renderer meets was written by it and indexes its table. */
  lemma RenderSucceeds(s: string)
    requires '_' !in s
    ensures Render(s).Some?
  {
    PreparedClean(s);
    var st := Prepare(s);
    ResolveBlocksClean(st.text, 0, st.blocks, |st.codes|);
    ResolveInlineSucceeds(ResolveBlocksFrom(st.text, 0, st.blocks).value, 0, st.codes);
  }
}

=== FILE: strings.dfy ===
/** Character classes and the JavaScript string primitives the blog relies on:
    `trim`, `trimStart`, `split` on one character, `join`, `startsWith`,
    `endsWith`, decimal conversion of numbers and `padStart`.
    Strings are sequences of characters; lengths count characters. */
module Strings {

  datatype Option<T> = None | Some(value: T)

  /** `\s` of a JavaScript regular expression, which is also the set
      `String.prototype.trim` removes: white space and line terminators. */
  predicate IsSpace(c: char) {
    c == ' ' || c == '\t' || c == '\n' || c == '\r' || c == '\U{000B}' || c == '\U{000C}'
    || c == '\U{00A0}' || c == '\U{1680}' || ('\U{2000}' <= c <= '\U{200A}')
    || c == '\U{2028}' || c == '\U{2029}' || c == '\U{202F}' || c == '\U{205F}'
    || c == '\U{3000}' || c == '\U{FEFF}'
  }

  /** The characters at which `^` and `$` of a multi-line regular expression
      match and which `.` does not match. */
  predicate IsLineTerminator(c: char) {
    c == '\n' || c == '\r' || c == '\U{2028}' || c == '\U{2029}'
  }

  predicate IsDigit(c: char) { '0' <= c <= '9' }

  predicate IsAsciiUpper(c: char) { 'A' <= c <= 'Z' }

  predicate IsAsciiLower(c: char) { 'a' <= c <= 'z' }

  predicate IsAsciiAlnum(c: char) { IsDigit(c) || IsAsciiUpper(c) || IsAsciiLower(c) }

  /** `\w` of a JavaScript regular expression. */
  predicate IsWordChar(c: char) { IsAsciiAlnum(c) || c == '_' }

  /** Hangul syllables `가-힣`. */
  predicate IsHangulSyllable(c: char) { '\U{AC00}' <= c <= '\U{D7A3}' }

  predicate StartsWith(s: string, prefix: string) {
    |prefix| <= |s| && s[..|prefix|] == prefix
  }

  predicate EndsWith(s: string, suffix: string) {
    |suffix| <= |s| && s[|s| - |suffix|..] == suffix
  }

  predicate NoSpace(s: string) {
    forall i :: 0 <= i < |s| ==> !IsSpace(s[i])
  }

  /** The number of white-space characters `s` starts with. */
  function LeadingSpaces(s: string): (n: nat)
    ensures n <= |s|
    ensures forall k :: 0 <= k < n ==> IsSpace(s[k])
    ensures n == |s| || !IsSpace(s[n])
  {
    if s == [] || !IsSpace(s[0]) then 0 else 1 + LeadingSpaces(s[1..])
  }

  /** `s.trimStart()`: the suffix left after the leading white space. */
  function TrimStart(s: string): (r: string)
    ensures r == s[LeadingSpaces(s)..]
  {
    if s == [] || !IsSpace(s[0]) then s else TrimStart(s[1..])
  }

  /** Removing trailing white space (the second half of `trim`). */
  function TrimEnd(s: string): (r: string)
    ensures |r| <= |s| && r == s[..|r|]
    ensures forall i :: |r| <= i < |s| ==> IsSpace(s[i])
    ensures r == [] || !IsSpace(r[|r| - 1])
  {
    if s == [] || !IsSpace(s[|s| - 1]) then s else TrimEnd(s[..|s| - 1])
  }

  /** `s.trim()`: what is left between the leading and the trailing white
      space; it neither starts nor ends with white space. */
  function Trim(s: string): (r: string)
    ensures LeadingSpaces(s) + |r| <= |s|
    ensures r == s[LeadingSpaces(s)..LeadingSpaces(s) + |r|]
    ensures forall k :: LeadingSpaces(s) + |r| <= k < |s| ==> IsSpace(s[k])
    ensures r == [] || (!IsSpace(r[0]) && !IsSpace(r[|r| - 1]))
  {
    TrimEnd(TrimStart(s))
  }

  /** Trimming only removes characters. */
  lemma TrimKeepsAbsent(s: string, c: char)
    requires c !in s
    ensures c !in Trim(s)
  {
    var r := Trim(s);
    var i := LeadingSpaces(s);
    assert forall k :: 0 <= k < |r| ==> r[k] == s[i + k];
  }

  /** A string is blank when `s.trim()` is the empty string. */
  predicate IsBlank(s: string) { Trim(s) == [] }

  lemma BlankIffAllSpace(s: string)
    ensures IsBlank(s) <==> forall i :: 0 <= i < |s| ==> IsSpace(s[i])
  {
    if Trim(s) == [] {
      assert forall k :: 0 <= k < |s| ==> IsSpace(s[k]) by {
        forall k | 0 <= k < |s| ensures IsSpace(s[k]) {
          if k < LeadingSpaces(s) {
          } else {
          }
        }
      }
    }
  }

  /** Trimming a string that has no white space at either end changes nothing. */
  lemma TrimOfTrimmed(s: string)
    requires s == [] || (!IsSpace(s[0]) && !IsSpace(s[|s| - 1]))
    ensures Trim(s) == s
  {
  }

  lemma {:induction false} TrimStartAppend(a: string, b: string)
    requires forall i :: 0 <= i < |a| ==> IsSpace(a[i])
    ensures TrimStart(a + b) == TrimStart(b)
  {
    if a != [] {
      assert (a + b)[0] == a[0];
      assert (a + b)[1..] == a[1..] + b;
      assert TrimStart(a + b) == TrimStart(a[1..] + b);
      TrimStartAppend(a[1..], b);
    } else {
      assert a + b == b;
    }
  }

  function IndexOf(s: string, c: char): (r: Option<nat>)
    ensures r.None? ==> c !in s
    ensures r.Some? ==> r.value < |s| && s[r.value] == c && c !in s[..r.value]
  {
    if s == [] then None
    else if s[0] == c then Some(0)
    else match IndexOf(s[1..], c)
      case None => None
      case Some(i) => Some(i + 1)
  }

  /** The pieces glued together with `sep` between each two. */
  function Join(parts: seq<string>, sep: string): string
  {
    if |parts| == 0 then []
    else if |parts| == 1 then parts[0]
    else parts[0] + sep + Join(parts[1..], sep)
  }

  /** `s.split(c)`: the unique list of pieces free of `c` that `join` glues
      back to `s`; it always has at least one piece. */
  function Split(s: string, c: char): (parts: seq<string>)
    ensures |parts| >= 1
    ensures forall i :: 0 <= i < |parts| ==> c !in parts[i]
    ensures Join(parts, [c]) == s
    decreases |s|
  {
    match IndexOf(s, c)
    case None => [s]
    case Some(i) =>
      var rest := Split(s[i + 1..], c);
      assert s == s[..i] + [c] + s[i + 1..];
      [s[..i]] + rest
  }

  /** A string without the separator splits into itself. */
  lemma SplitNoSeparator(s: string, c: char)
    requires c !in s
    ensures Split(s, c) == [s]
  {
  }

  /** Splitting `a + [c] + b` with `a` free of `c` peels off `a`. */
  lemma SplitCons(a: string, c: char, b: string)
    requires c !in a
    ensures Split(a + [c] + b, c) == [a] + Split(b, c)
  {
    var s := a + [c] + b;
    IndexOfPrefix(a, c, b);
    assert s[|a| + 1..] == b;
    assert s[..|a|] == a;
  }

  lemma {:induction false} IndexOfPrefix(a: string, c: char, b: string)
    requires c !in a
    ensures IndexOf(a + [c] + b, c) == Some(|a|)
  {
    if a != [] {
      assert (a + [c] + b)[1..] == a[1..] + [c] + b;
      IndexOfPrefix(a[1..], c, b);
    }
  }

  /** Joining a list with an extra first piece. */
  lemma JoinCons(x: string, parts: seq<string>, sep: string)
    requires |parts| >= 1
    ensures Join([x] + parts, sep) == x + sep + Join(parts, sep)
  {
    assert ([x] + parts)[1..] == parts;
  }

  function DigitChar(d: nat): (c: char)
    requires d < 10
    ensures IsDigit(c)
  {
    (48 + d) as char
  }

  function DigitValue(c: char): (d: nat)
    requires IsDigit(c)
    ensures d < 10 && DigitChar(d) == c
  {
    (c as int - 48)
  }

  predicate AllDigits(s: string) {
    forall i :: 0 <= i < |s| ==> IsDigit(s[i])
  }

  /** `String(n)` for a non-negative integer: decimal digits, no leading zero. */
  function Decimal(n: nat): (r: string)
    ensures |r| >= 1 && AllDigits(r)
    ensures |r| > 1 ==> r[0] != '0'
  {
    if n < 10 then [DigitChar(n)] else Decimal(n / 10) + [DigitChar(n % 10)]
  }

  /** The value of a string of decimal digits, as `parseInt(s, 10)` reads it. */
  function DecimalValue(s: string): nat
    requires AllDigits(s)
  {
    if s == [] then 0 else 10 * DecimalValue(s[..|s| - 1]) + DigitValue(s[|s| - 1])
  }

  lemma {:induction false} DecimalRoundTrip(n: nat)
    ensures DecimalValue(Decimal(n)) == n
  {
    if n >= 10 {
      var s := Decimal(n);
      assert s[..|s| - 1] == Decimal(n / 10);
      DecimalRoundTrip(n / 10);
    }
  }

  /** `Decimal(n)` has exactly `k` digits iff `10^(k-1) <= n < 10^k`. */
  function Pow10(k: nat): (r: nat)
    ensures r >= 1
  {
    if k == 0 then 1 else 10 * Pow10(k - 1)
  }

  lemma {:induction false} DecimalLength(n: nat, k: nat)
    requires k >= 1 && Pow10(k - 1) <= n < Pow10(k)
    ensures |Decimal(n)| == k
  {
    if k > 1 {
      DecimalLength(n / 10, k - 1);
    } else {
      assert n < 10;
    }
  }

  /** Lower-casing of the ASCII letters; every other character is kept. */
  function LowerChar(c: char): (r: char)
    ensures !IsAsciiUpper(r)
    ensures IsAsciiUpper(c) ==> r as int == c as int + 32
    ensures !IsAsciiUpper(c) ==> r == c
  {
    if IsAsciiUpper(c) then (c as int + 32) as char else c
  }

  function ToLowerAscii(s: string): (r: string)
    ensures |r| == |s|
    ensures forall i :: 0 <= i < |s| ==> r[i] == LowerChar(s[i])
  {
    seq(|s|, i requires 0 <= i < |s| => LowerChar(s[i]))
  }

  /** `s.padStart(2, "0")`. */
  function PadStart2(s: string): (r: string)
    ensures |s| >= 2 ==> r == s
    ensures |s| < 2 ==> |r| == 2 && r[2 - |s|..] == s && forall i :: 0 <= i < 2 - |s| ==> r[i] == '0'
  {
    if |s| >= 2 then s else if |s| == 1 then ['0'] + s else "00"
  }

  /** `s.substring(0, n)`. */
  function Prefix(s: string, n: nat): (r: string)
    ensures |r| == if |s| < n then |s| else n
    ensures r == s[..|r|]
  {
    if |s| <= n then s else s[..n]
  }

  /** `s.replace(/\s+/g, "-")`: every maximal run of white space becomes a
      single hyphen; every other character is kept. */
  function CollapseSpaces(s: string): (r: string)
    ensures NoSpace(r)
    ensures |r| <= |s|
    decreases |s|
  {
    if s == [] then []
    else if IsSpace(s[0]) then "-" + CollapseSpaces(TrimStart(s))
    else [s[0]] + CollapseSpaces(s[1..])
  }

  /** Collapsing is the identity on strings without white space. */
  lemma {:induction false} CollapseNoSpace(s: string)
    requires NoSpace(s)
    ensures CollapseSpaces(s) == s
  {
    if s != [] {
      CollapseNoSpace(s[1..]);
    }
  }
}

=== FILE: tables.dfy ===
/** Facts about stage 3 of `parseMarkdown`, the pipe-table conversion
    (src/utils/markdownParser.js:20-65): which lines start a table, how much a
    table consumes, what happens to every other line, and how cells are read. */
module TableFacts {
  import opened Strings
  import opened Markdown
  import opened LineFacts

  /** Lines that start no table are copied one by one. */
  lemma {:induction false} NoTableUnchanged(lines: seq<string>, i: nat)
    requires i <= |lines|
    requires forall k :: i <= k < |lines| ==> !StartsTable(lines, k)
    ensures ConvertTablesFrom(lines, i) == lines[i..]
    decreases |lines| - i
  {
    if i < |lines| {
      NoTableUnchanged(lines, i + 1);
      assert lines[i..] == [lines[i]] + lines[i + 1..];
    }
  }

  /** A text without a pipe passes stage 3 unchanged. */
  lemma NoPipeUnchanged(s: string)
    requires '|' !in s
    ensures ConvertTables(s) == s
  {
    var lines := Split(s, '\n');
    forall k | 0 <= k < |lines| ensures !HasPipe(lines[k]) {
      if '|' in lines[k] {
        var j :| 0 <= j < |lines[k]| && lines[k][j] == '|';
        JoinedPiece(lines, "\n", k, j);
      }
    }
    NoTableUnchanged(lines, 0);
    assert lines[0..] == lines;
  }

  /** A table takes at least its header and separator line and the whole
      run of pipe lines after them; the line after the run has no pipe and so
      starts no table, and the scan goes on there. */
  lemma TableConsumesRun(lines: seq<string>, i: nat)
    requires i <= |lines| && StartsTable(lines, i)
    ensures var j := PipeRunEnd(lines, i);
      i + 2 <= j
      && (forall k :: i <= k < j ==> HasPipe(lines[k]))
      && (j < |lines| ==> !StartsTable(lines, j))
      && ConvertTablesFrom(lines, i)
           == [TableHtml(ParseTable(lines[i..j]))] + ConvertTablesFrom(lines, j)
  {
    var j := PipeRunEnd(lines, i);
    assert PipeRunEnd(lines, i) == PipeRunEnd(lines, i + 1);
    assert PipeRunEnd(lines, i + 1) == PipeRunEnd(lines, i + 2);
  }

  /** The separator line is never read: whatever it holds, the table is the
      same. */
  lemma SeparatorIgnored(lines: seq<string>, x: string)
    requires |lines| >= 2
    ensures ParseTable(lines[..1] + [x] + lines[2..]) == ParseTable(lines)
  {
    var m := lines[..1] + [x] + lines[2..];
    assert m[0] == lines[0];
    assert m[2..] == lines[2..];
  }

  /** Body rows are read line by line. */
  lemma {:induction false} BodyRowsAppend(a: seq<string>, b: seq<string>)
    ensures BodyRows(a + b) == BodyRows(a) + BodyRows(b)
  {
    if a == [] {
      assert a + b == b;
    } else {
      assert (a + b)[0] == a[0];
      assert (a + b)[1..] == a[1..] + b;
      BodyRowsAppend(a[1..], b);
    }
  }

  /** A body line gives a row exactly when it has a cell. */
  lemma BodyRowOfLine(l: string)
    ensures BodyRows([l]) == if Cells(l) == [] then [] else [Cells(l)]
  {
    assert [l][1..] == [];
  }

  // ---------------------------------------------------------------------
  // Reading cells back

  /** The markdown text of a row: `| c1 | c2 | ... |`. */
  function RowText(cells: seq<string>): string {
    "|" + RowTail(cells)
  }

  function RowTail(cells: seq<string>): string {
    if cells == [] then [] else " " + cells[0] + " |" + RowTail(cells[1..])
  }

  function Padded(cells: seq<string>): (r: seq<string>)
    ensures |r| == |cells|
    ensures forall i :: 0 <= i < |cells| ==> r[i] == " " + cells[i] + " "
  {
    seq(|cells|, i requires 0 <= i < |cells| => " " + cells[i] + " ")
  }

  lemma RowTailCons(cells: seq<string>)
    requires cells != []
    ensures RowTail(cells) == (" " + cells[0] + " ") + ['|'] + RowTail(cells[1..])
  {
  }

  lemma PaddedCons(cells: seq<string>)
    requires cells != []
    ensures Padded(cells) == [" " + cells[0] + " "] + Padded(cells[1..])
  {
  }

  lemma {:induction false} SplitRowTail(cells: seq<string>)
    requires forall i :: 0 <= i < |cells| ==> CleanCell(cells[i])
    ensures Split(RowTail(cells), '|') == Padded(cells) + [""]
  {
    if cells == [] {
      SplitNoSeparator("", '|');
    } else {
      var p := " " + cells[0] + " ";
      var rest := RowTail(cells[1..]);
      assert '|' !in p;
      RowTailCons(cells);
      SplitCons(p, '|', rest);
      SplitRowTail(cells[1..]);
      PaddedCons(cells);
      assert [p] + (Padded(cells[1..]) + [""]) == ([p] + Padded(cells[1..])) + [""];
    }
  }

  /** Trimming a padded clean cell gives the cell back. */
  lemma TrimPadded(c: string)
    requires CleanCell(c)
    ensures Trim(" " + c + " ") == c
  {
    var x := " " + c + " ";
    assert x[1..] == c + " ";
    assert TrimStart(x) == TrimStart(c + " ");
    assert (c + " ")[0] == c[0];
    assert TrimStart(x) == c + " ";
    assert (c + " ")[..|c|] == c;
    assert TrimEnd(c + " ") == TrimEnd(c);
  }

  lemma {:induction false} DropEmptyAppend(a: seq<string>, b: seq<string>)
    ensures DropEmpty(a + b) == DropEmpty(a) + DropEmpty(b)
  {
    if a == [] {
      assert a + b == b;
    } else {
      assert (a + b)[0] == a[0];
      assert (a + b)[1..] == a[1..] + b;
      DropEmptyAppend(a[1..], b);
    }
  }

  lemma {:induction false} DropEmptyKeeps(cells: seq<string>)
    requires forall i :: 0 <= i < |cells| ==> cells[i] != []
    ensures DropEmpty(cells) == cells
  {
    if cells != [] {
      DropEmptyKeeps(cells[1..]);
    }
  }

  lemma PiecesOfRow(cells: seq<string>)
    requires forall i :: 0 <= i < |cells| ==> CleanCell(cells[i])
    ensures Split(RowText(cells), '|') == [""] + Padded(cells) + [""]
  {
    var e: string := [];
    assert RowText(cells) == e + ['|'] + RowTail(cells);
    SplitCons(e, '|', RowTail(cells));
    SplitRowTail(cells);
  }

  lemma TrimmedRow(cells: seq<string>)
    requires forall i :: 0 <= i < |cells| ==> CleanCell(cells[i])
    ensures TrimEach([""] + Padded(cells) + [""]) == [""] + cells + [""]
  {
    var pieces := [""] + Padded(cells) + [""];
    var trimmed := TrimEach(pieces);
    var want := [""] + cells + [""];
    forall i | 0 <= i < |trimmed| ensures trimmed[i] == want[i] {
      if 0 < i <= |cells| {
        assert pieces[i] == " " + cells[i - 1] + " " && want[i] == cells[i - 1];
        TrimPadded(cells[i - 1]);
      } else {
        assert pieces[i] == [] && want[i] == [];
        assert Trim([]) == [];
      }
    }
    assert trimmed == want;
  }

  lemma DroppedRow(cells: seq<string>)
    requires forall i :: 0 <= i < |cells| ==> cells[i] != []
    ensures DropEmpty([""] + cells + [""]) == cells
  {
    var e: string := [];
    DropEmptyAppend([e] + cells, [e]);
    DropEmptyAppend([e], cells);
    DropEmptyKeeps(cells);
    assert DropEmpty([e]) == [];
  }

  /** Round trip: a row written from clean cells is read back as exactly
      those cells, the empty pieces before the first and after the last pipe
      being dropped. */
  lemma CellsOfRow(cells: seq<string>)
    requires forall i :: 0 <= i < |cells| ==> CleanCell(cells[i])
    ensures Cells(RowText(cells)) == cells
  {
    PiecesOfRow(cells);
    TrimmedRow(cells);
    DroppedRow(cells);
  }
}

=== FILE: writing.dfy ===
/** The new-post form of src/components/PostWrite.jsx: the checks before
    saving, the file-name slug, the file name and the saved text, and how the
    index reads them back. */
module Writing {
  import opened Strings
  import opened Posts

  /** The outcome of the checks in `handleSubmit`. */
  datatype WriteCheck = MissingText | NoDirectory | ReadyToCreate

  function CheckNew(title: string, content: string, dir: string): (r: WriteCheck)
    ensures r == ReadyToCreate <==> !IsBlank(title) && !IsBlank(content) && dir != []
    ensures (IsBlank(title) || IsBlank(content)) ==> r == MissingText
  {
    if IsBlank(title) || IsBlank(content) then MissingText
    else if dir == [] then NoDirectory
    else ReadyToCreate
  }

  /** A character the file-name slug keeps, the class
      `[a-zA-Z0-9가-힣ㄱ-ㅎㅏ-ㅣ一-龠\s-]`: ASCII letters and digits, Hangul
      syllables and jamo, the ideographs from 一 to 龠, white space and `-`. */
  predicate SafeChar(c: char) {
    IsAsciiAlnum(c) || IsHangulSyllable(c)
    || ('\U{3131}' <= c <= '\U{314E}') || ('\U{314F}' <= c <= '\U{3163}')
    || ('\U{4E00}' <= c <= '\U{9FA0}') || IsSpace(c) || c == '-'
  }

  /** The first step of the file-name slug: every character that is not a
      `SafeChar` is dropped. */
  function KeepSafe(s: string): (r: string)
    ensures forall i :: 0 <= i < |r| ==> SafeChar(r[i])
    ensures |r| <= |s|
  {
    if s == [] then [] else (if SafeChar(s[0]) then [s[0]] else []) + KeepSafe(s[1..])
  }

  lemma {:induction false} KeepSafeKeeps(s: string)
    requires forall i :: 0 <= i < |s| ==> SafeChar(s[i])
    ensures KeepSafe(s) == s
  {
    if s != [] {
      KeepSafeKeeps(s[1..]);
    }
  }

  /** The filter works character by character: it keeps the safe
      characters of both halves, in order. */
  lemma {:induction false} KeepSafeAppend(a: string, b: string)
    ensures KeepSafe(a + b) == KeepSafe(a) + KeepSafe(b)
    decreases |a|
  {
    if a != [] {
      assert (a + b)[1..] == a[1..] + b;
      KeepSafeAppend(a[1..], b);
    } else {
      assert a + b == b;
    }
  }

  /** An unsafe character is dropped. */
  lemma KeepSafeDrops(c: char)
    requires !SafeChar(c)
    ensures KeepSafe([c]) == []
  {
  }

  lemma {:induction false} CollapseKeepsSafe(s: string)
    requires forall i :: 0 <= i < |s| ==> SafeChar(s[i])
    ensures forall i :: 0 <= i < |CollapseSpaces(s)| ==> SafeChar(CollapseSpaces(s)[i])
    decreases |s|
  {
    if s != [] {
      if IsSpace(s[0]) {
        var t := TrimStart(s);
        assert forall i :: 0 <= i < |t| ==> t[i] == s[LeadingSpaces(s) + i];
        CollapseKeepsSafe(t);
      } else {
        CollapseKeepsSafe(s[1..]);
      }
    }
  }

  /** `safeTitle`: the kept characters with every white-space run turned
      into one `-`; no case change. */
  function SafeTitle(title: string): (r: string)
    ensures NoSpace(r)
    ensures forall i :: 0 <= i < |r| ==> SafeChar(r[i])
  {
    var kept := KeepSafe(title);
    CollapseKeepsSafe(kept);
    CollapseSpaces(kept)
  }

  /** A slug is its own slug. */
  lemma SafeTitleIdempotent(title: string)
    ensures SafeTitle(SafeTitle(title)) == SafeTitle(title)
  {
    var s := SafeTitle(title);
    KeepSafeKeeps(s);
    CollapseNoSpace(s);
  }

  /** A title of safe characters without white space is its own slug. */
  lemma SafeTitleOfSlug(t: string)
    requires NoSpace(t) && forall i :: 0 <= i < |t| ==> SafeChar(t[i])
    ensures SafeTitle(t) == t
  {
    KeepSafeKeeps(t);
    CollapseNoSpace(t);
  }

  /** Removing an unsafe character from a title does not change its slug. */
  lemma SafeTitleDropsUnsafe(a: string, c: char, b: string)
    requires !SafeChar(c)
    ensures SafeTitle(a + [c] + b) == SafeTitle(a + b)
  {
    KeepSafeAppend(a + [c], b);
    KeepSafeAppend(a, [c]);
    KeepSafeDrops(c);
    KeepSafeAppend(a, b);
    assert KeepSafe(a + [c]) == KeepSafe(a);
    assert KeepSafe(a + [c] + b) == KeepSafe(a + b);
  }

  /** The new file's name: the timestamp, `-`, the slug (or `untitled` when
      the slug is empty) and `.md`. */
  function FileName(timestamp: nat, title: string): (r: string)
    ensures EndsWith(r, ".md")
  {
    var slug := if SafeTitle(title) == [] then "untitled" else SafeTitle(title);
    var r := Decimal(timestamp) + "-" + slug + ".md";
    assert r[|r| - 3..] == ".md";
    r
  }

  /** The slug between the timestamp and `.md`: never empty, and free of
      white space. */
  lemma FileNameSlug(timestamp: nat, title: string)
    ensures var slug := if SafeTitle(title) == [] then "untitled" else SafeTitle(title);
      FileName(timestamp, title) == Decimal(timestamp) + "-" + slug + ".md"
      && slug != [] && NoSpace(slug)
  {
    assert NoSpace("untitled");
  }

  /** The saved text of a new post, the same shape the editor saves. */
  function NewPostText(title: string, content: string): string {
    Compose(title, content)
  }

  /** The index lists the new file: its name ends in `.md`. */
  lemma NewFileListed(timestamp: nat, title: string, path: string, sha: string)
    ensures IsMarkdownFile(Entry(FileName(timestamp, title), "file", path, sha))
  {
  }

  /** Round trip: the index reads the timestamp back out of the file name. */
  lemma NewFileDate(timestamp: nat, title: string)
    requires IsTimestamp(timestamp)
    ensures ParseDate(FileName(timestamp, title)) == timestamp
  {
    var slug := if SafeTitle(title) == [] then "untitled" else SafeTitle(title);
    assert FileName(timestamp, title) == Decimal(timestamp) + "-" + (slug + ".md");
    ParseDateOfStamp(timestamp, slug + ".md");
  }

  /** Round trip: the index reads the trimmed title back out of the saved
      text, and a post that passed the checks keeps its place in the list. */
  lemma NewPostTitle(timestamp: nat, title: string, content: string)
    requires '\n' !in title
    ensures DeriveTitle(FileName(timestamp, title), NewPostText(title, content)) == Trim(title)
    ensures CheckNew(title, content, "_posts") == ReadyToCreate ==> Trim(title) != []
  {
    ComposedTitle(FileName(timestamp, title), title, content);
  }
}
